=== FILE: README.md ===
# Three toy JavaScript interpreters, modelled in Dafny

The repository holds three small interpreters written in C++. This project models the core of each one as pure Dafny functions and proves what they do.

- **small_v8_engine.cpp** is a tree-walking engine. It has:
  - a closed set of value tags;
  - an environment chain of frames;
  - a character-level recursive-descent parser that builds an AST;
  - an `eval` for every node;
  - two host functions, `print` and `setTimeout`;
  - an event loop that runs queued timer callbacks after the synchronous program.
- **tinyjs.cpp** is a single-pass interpreter that evaluates while it reads tokens. It has:
  - a lexer (`nextToken`), which reports each character it cannot scan as an output line;
  - struct values whose number field survives tag changes;
  - a stack of scopes holding `let`/`const` variables;
  - precedence climbing for expressions;
  - statements: `let`, `const`, `print`, assignment and blocks.
- **interpreter.cpp** is a line calculator. Its `execute` runs one of `let`, `print` and `add` on a map from names to `int`s.

## Layout

| module | file | models |
|---|---|---|
| `Wrappers` | wrappers.dfy | `Option` and `Result` |
| `Chars` | chars.dfy | the C-locale character classes and the longest run of a class |
| `Numbers` | numbers.dfy | doubles as `real`, `stod` on digit strings, `to_string` with trailing zeros stripped |
| `Calc` | calc.dfy | `execute` of interpreter.cpp |
| `TinyLexer` | tiny_lexer.dfy | `Lexer::nextToken` |
| `TinyValues` | tiny_values.dfy | `Value::toString`, `isTruthy`, the operator rules of `term`, `additive` and `comparison` |
| `TinyScopes` | tiny_scopes.dfy | `findVar`, `declareVar`, the assignment rule |
| `TinyInterp` | tiny_interp.dfy | `eat`, `factor` … `expression`, `statement`, `block`, `run` |
| `V8Ast` | v8_ast.dfy | the AST node kinds |
| `V8Values` | v8_values.dfy | `Value`, `toString`, the `if`/`while` tests, `BinaryOpNode`'s operator rules |
| `V8Env` | v8_env.dfy | `Environment::define`, `lookup` and `assign` over a frame arena |
| `V8Eval` | v8_eval.dfy | every `eval`, the call rule, the `print` and `setTimeout` natives |
| `V8Parser` | v8_parser.dfy | the `Parser` class, `parseToken` … `parse` |
| `V8EventLoop` | v8_event_loop.dfy | the `run` command: synchronous statements, then the task queue drained pass by pass |
| `V8ParserLemmas`, `V8EvalLemmas` | v8_parser_lemmas.dfy, v8_eval_lemmas.dfy | properties that relate several calls |

## Modelling decisions

- **Numbers.** A C++ `double` is a `real`. Division by zero yields 0, because infinities and NaN are not modelled. Number-to-text is `to_string`, which gives six decimals, followed by stripping trailing `'0'` characters. So the whole number 5 prints as `5.`, as the source does.
- **Hidden fields.** Every small_v8 value is a fresh struct whose unused fields keep their defaults. So `NumVal`/`StrVal` give 0 and "" for other tags, and the operator rules read those.
  - In tinyjs, `TValue` keeps all four fields. Arithmetic changes only the left operand's number field and keeps its tag.
- **Frames.** Frames live in an arena `seq<Frame>`. A new frame is always appended, with an existing frame as its parent. `Parent` follows a link only when it names an earlier index, which keeps the walk well founded. `Holder` is an independent reference definition of the frame a name resolves in, and `lookup`/`assign` are proved against it.
- **Errors.** Thrown errors are results: `Threw`, `Err`, `LoopThrew`.
  - A null node pointer is the node `Missing`. The parser returns one where no primary starts. Evaluating one is undefined behaviour in C++, so the model stops with `Halted(NullNode)`.
  - The places where the source tolerates a null node are kept:
    - a `var` without an initialiser;
    - an `if` without `else`;
    - a null top-level statement, which is skipped.
- **Parser.** Every parse function takes a position and returns the node and the next position. Reading at the end of the text yields the NUL terminator; reading past it gives `Err(PastEnd)`. A loop that would repeat forever without moving gives `Err(NoProgress)`.
- **Fuel.** Evaluation, parsing and the tinyjs interpreter take fuel. Running out gives `Halted(OutOfFuel)`, `Err(Exhausted)` or `Stuck`.
- **Time.** The clock is a parameter. The synchronous phase and every `setTimeout` in it use the reading `start`. Each pass of the event loop consumes the next reading from a sequence `clock`.

## Model

| member | source | states |
|---|---|---|
| `Calc.Execute` | interpreter.cpp:12-51 | `let` binds the name to the value and leaves every other entry alone. `add` on a present name adds the delta and changes nothing else; on an absent name it changes nothing and inserts nothing. `print` and unknown commands never touch the map. Only `print` writes a line. |
| `Calc.Run` | interpreter.cpp:59-68 | A session keeps every line already written and adds at most one line per command. |
| `Calc.RunKeys` | interpreter.cpp:18-50 | After any session, the map's names are exactly the names it started with plus those some `let` bound: `add` never creates a variable. |
| `Calc.LetThenAdd` | interpreter.cpp:18-50 | `let x = a` followed by `add x b` leaves `a + b` in `x`. |
| `Chars.RunEndCovers` | tinyjs.cpp:123-125 | A scanning loop runs at least as far as its character class holds. |
| `Numbers.TruncToInt` | small_v8_engine.cpp:714 | The cast to an integer truncates toward zero. |
| `Numbers.ParseDecimal` | tinyjs.cpp:276 | `stod` of a numeral the scanners produce is never negative; `ParseDecimalOfNatText` is its round trip with the number format. |
| `Numbers.ParseDecimalOfNatText` | small_v8_engine.cpp:500 | `stod` reads the numeral of a natural number back as that number. |
| `Numbers.DigitsValueOfNatText` | tinyjs.cpp:276 | The digits of a numeral denote the number it was written from. |
| `Numbers.StripZeros` | small_v8_engine.cpp:57 | Stripping drops exactly a run of trailing `'0'` characters, and what remains does not end in `'0'`. |
| `Numbers.Format` | small_v8_engine.cpp:54-58 | A printed number has at least two characters and never ends in `0`. It starts with `-` when the number is negative and with a digit otherwise. |
| `Numbers.FormatWhole` | small_v8_engine.cpp:54-58 | A whole number prints as its digits followed by a dot: the six zero decimals are stripped, the dot is not. |
| `TinyLexer.NextToken` | tinyjs.cpp:110-216 | The end token is returned with no progress exactly when only whitespace is left. Otherwise at least one character is consumed and the position is at most one past the end. Every non-end token except a string has non-empty text. |
| `TinyLexer.WordToken` | tinyjs.cpp:144-164 | A run of letters and digits that starts with a letter is taken whole. It is the keyword it spells (`let`, `const`, `if`, `else`, `while`, `print`) and otherwise an identifier. |
| `TinyLexer.EqualsTokens` | tinyjs.cpp:187-193 | `==` is one equality token of two characters; a lone `=` is assignment. |
| `TinyLexer.LogicalTokens` | tinyjs.cpp:194-207 | `&&` and `||` need both characters. A lone `&` or `|` is consumed and gives the end token. |
| `TinyLexer.UnknownCharacter` | tinyjs.cpp:166-215 | Any character that starts no token is consumed and gives the end token. The lexer reports it as the line `Unknown Token: c`. |
| `TinyLexer.Complaint` | tinyjs.cpp:194-215 | The lexer writes a report exactly when the next non-space character starts no token, or is a lone `&` or `|`. The report is the single line `Unknown Token: c` for that character. |
| `TinyValues.ToText` | tinyjs.cpp:30-43 | Strings print as themselves, flags as `true`/`false`, null as `null`, numbers through the number format. Only a string prints empty. `null`, `true` and `false` are printed exactly by the matching value or by the string that spells it. |
| `TinyValues.AddStep` | tinyjs.cpp:317-339 | The result is a string exactly when either operand is a string, and then it is the concatenation of both texts. Otherwise only the left operand's number changes, by `+` or `-`, and its tag stays. |
| `TinyValues.MinusConcatenates` | tinyjs.cpp:325-328 | With a string on either side, `-` concatenates exactly as `+` does. |
| `TinyValues.MulStep` | tinyjs.cpp:301-315 | `*` and `/` change only the left operand's number field, whatever the tags. Division is the inverse of multiplication for a nonzero divisor. |
| `TinyValues.CompareStep` | tinyjs.cpp:341-359 | A comparison always yields a flag. The flag holds exactly when `>`, `<` or `==` holds between the number fields. |
| `TinyValues.IsTruthy` | tinyjs.cpp:46-55 | A string is truthy exactly when it prints non-empty, and a flag exactly when it prints `true`. Of the values printed as `null`, only the string "null" is truthy. |
| `TinyValues.CompareTruthy` | tinyjs.cpp:46-55 | The truthiness of a comparison result is exactly the comparison. |
| `TinyValues.StringsCompareEqual` | tinyjs.cpp:354-355 | Any two strings compare equal, because only their zero number fields are compared. |
| `TinyValues.FlagCarriesNumber` | tinyjs.cpp:329-332 | `true + 1` stays a truthy flag but carries the number 1, so it compares greater than 0 where `true` does not. |
| `TinyScopes.FindVar` | tinyjs.cpp:248-259 | The innermost scope that holds the name is found, and no inner scope holds it. `None` exactly when no scope holds it. |
| `TinyScopes.DeclareVar` | tinyjs.cpp:261-266 | A declaration fails exactly when the innermost scope already holds the name. Otherwise only the innermost scope changes, gaining the binding. |
| `TinyScopes.AssignVar` | tinyjs.cpp:477-482 | Assignment fails exactly when the name is undeclared or its nearest declaration is `const`. Otherwise exactly that declaration takes the value and every other scope is unchanged. |
| `TinyScopes.Shadowing` | tinyjs.cpp:248-266 | A name bound only in an outer scope can be declared again innermost. The new binding is the one found, and the outer one survives. |
| `TinyScopes.AssignThenRead` | tinyjs.cpp:248-259 | Reading a name after assigning it gives the assigned value. |
| `TinyInterp.Eat` | tinyjs.cpp:235-245 | `eat` succeeds exactly when the current token has the kind, then reads the next token. Otherwise it throws "Unexpected token" with nothing changed. |
| `TinyInterp.Advance` | tinyjs.cpp:239 | Reading the next token changes only the lexer state. Its report, if any, is the only output added. |
| `TinyInterp.Factor` | tinyjs.cpp:270-299 | Evaluating a factor only moves the lexer. The scopes stay as they were, and the only lines added are the lexer's reports. |
| `TinyInterp.TermLoop` | tinyjs.cpp:304-313 | The loop stops only at a token that is not `*` or `/`. It changes nothing but the lexer, and adds no output but the lexer's reports. |
| `TinyInterp.AddLoop` | tinyjs.cpp:320-337 | The loop stops only at a token that is not `+` or `-`. It changes nothing but the lexer, and adds no output but the lexer's reports. |
| `TinyInterp.CompareLoop` | tinyjs.cpp:344-357 | After at least one comparison operator the value is a flag. The loop changes nothing but the lexer, and adds no output but the lexer's reports. |
| `TinyInterp.Term` | tinyjs.cpp:301-315 | A term only moves the lexer and writes only its reports. It ends only before a token other than `*` or `/`. |
| `TinyInterp.Additive` | tinyjs.cpp:317-339 | An additive expression only moves the lexer and writes only its reports. It ends only before a token other than `+` or `-`. |
| `TinyInterp.Comparison` | tinyjs.cpp:341-359 | A comparison only moves the lexer and writes only its reports. It ends only before a token other than `>`, `<` or `==`. |
| `TinyInterp.Expression` | tinyjs.cpp:361-364 | An expression reads variables and changes nothing but the lexer. It adds no output but the lexer's reports. |
| `TinyInterp.PrintStatement` | tinyjs.cpp:393-399 | `print` evaluates its expression and writes the value's text as a line. The only other lines, before or after it, are the lexer's reports. The scopes are left alone. |
| `TinyInterp.PrintNumber` | tinyjs.cpp:393-399 | `print d;` for a numeral `d` writes the number's text. It then reads the token after `;`, so that token's report, if any, follows the line. |
| `TinyInterp.ReportAfterPrint` | tinyjs.cpp:214 | In `print 1; @` the output is `1.` and then `Unknown Token: @`, and the end token is current, so the run ends. |
| `TinyInterp.AtSignReported` | tinyjs.cpp:214-215 | An `@` is reported and read as the end token. |
| `TinyInterp.OnePrints` | tinyjs.cpp:32-37 | The numeral `1` prints as `1.`. |
| `TinyInterp.Declaration` | tinyjs.cpp:382-392 | A successful `let`/`const` has read an identifier and `=`. It binds that identifier, through `declareVar`, to the value of the initialiser after `=`, in the innermost scope, as a constant for `const`. A name the innermost scope already holds is never declared again. The scope depth is kept, outer scopes stay as they were, and the only lines written are the lexer's reports. |
| `TinyInterp.DeclareValue` | tinyjs.cpp:389-391 | A success binds the name to the value the initialiser evaluates to, through `declareVar` in the innermost scope. A name already declared there never succeeds. Outer scopes are left as they were, and only the lexer's reports are written. |
| `TinyInterp.Assignment` | tinyjs.cpp:470-484 | A successful assignment has read `=` after the identifier, and sets the identifier's nearest declaration, through `AssignVar`, to the value of the right-hand side. For an undeclared or `const` target it throws and leaves every variable unchanged. Only the lexer's reports are written. |
| `TinyInterp.AssignValue` | tinyjs.cpp:476-483 | When the target is undeclared or `const`, the assignment never succeeds, and a throw leaves every scope as it was. A success writes the value the right-hand side evaluates to into the nearest declaration. Only the lexer's reports are written. |
| `TinyInterp.Block` | tinyjs.cpp:368-378 | A block restores the scope depth, and every scope that existed before keeps exactly its names. |
| `TinyInterp.BlockBody` | tinyjs.cpp:372-375 | The statement loop of a block stops only at `}` or the end token. |
| `TinyInterp.Statement` | tinyjs.cpp:380-489 | Any statement keeps the scope depth, adds names only innermost, and only appends output. |
| `TinyInterp.Run` | tinyjs.cpp:229-233 | The interpreter starts with one global scope and reads the first token, so the output begins with that read's report. An empty text runs to completion and writes nothing. |
| `TinyInterp.RunFrom` | tinyjs.cpp:491-505 | Running statements until the end token, or until the first error is reported, keeps everything written so far. |
| `V8Values.ToString` | small_v8_engine.cpp:52-72 | `toString` is total. Strings print as themselves and numbers through the number format. Only a string prints empty, `null` is printed exactly for null or that very string, and `[Function]` is printed exactly for the two function tags or that very string. |
| `V8Values.IfTruthy` | small_v8_engine.cpp:294-298 | Only a flag or a number can pass the `if` test, and a flag passes exactly when it prints `true`. |
| `V8Values.WhileStops` | small_v8_engine.cpp:317 | Only a flag or a number can stop a `while`, and a flag stops it exactly when it prints `false`. |
| `V8Values.IfAndWhileDisagree` | small_v8_engine.cpp:291-322 | For flags and numbers, `if` takes the branch exactly when `while` would continue. Every other tag fails the `if` test and never stops a `while`. |
| `V8Values.ApplyBinary` | small_v8_engine.cpp:200-253 | `+` gives a string exactly when an operand is a string, namely the concatenation of both `toString`s, and a number otherwise. `-`, `*` and `/` give numbers. `>`, `<` and `==` give flags. `==` is false unless the left operand is a number or a string. Any other operator gives null. |
| `V8Values.WholeText` | small_v8_engine.cpp:54-58 | A whole number prints as its digits followed by a dot. |
| `V8Values.ConcatText` | small_v8_engine.cpp:202-213 | With a string operand, `+` is the concatenation of the two operands' texts. |
| `V8Values.ConcatenationOrder` | small_v8_engine.cpp:202-213 | Concatenation keeps the operand order: `"a" + 1` is `a1.`, and `1 + "a"` is `1.a`. |
| `V8Env.Parent` | small_v8_engine.cpp:83-85 | The parent the walk follows is always an older frame. |
| `V8Env.Chain` | small_v8_engine.cpp:92-99 | The chain of a frame starts at the frame and visits only existing frames. |
| `V8Env.FirstHolder` | small_v8_engine.cpp:92-99 | The first frame of a chain that binds the name is found, and no earlier frame binds it. `None` exactly when none does. |
| `V8Env.Define` | small_v8_engine.cpp:87-90 | `define` binds the name in that frame only, overwriting any binding there. Every other frame and the parent link are unchanged. |
| `V8Env.HolderStep` | small_v8_engine.cpp:96-97 | A frame that does not bind the name defers to its parent. |
| `V8Env.LookupFindsInnermost` | small_v8_engine.cpp:92-99 | `lookup` returns the binding of the innermost frame on the chain that holds the name, and fails exactly when none does. |
| `V8Env.Assign` | small_v8_engine.cpp:101-114 | `assign` fails exactly when `lookup` from the same frame fails. |
| `V8Env.AssignUpdatesInnermost` | small_v8_engine.cpp:101-114 | `assign` overwrites exactly that innermost holder's binding and leaves every other frame unchanged. It fails, changing nothing, when no frame holds the name. |
| `V8Env.DefineThenLookup` | small_v8_engine.cpp:87-99 | A name just defined in a frame is found there. |
| `V8Env.AssignThenLookup` | small_v8_engine.cpp:92-114 | A name just assigned reads back the assigned value. |
| `V8Env.ChainOnlyParents` | small_v8_engine.cpp:92-99 | Chains depend on parent links only, so rebinding names never changes them. |
| `V8Env.FirstHolderUpdated` | small_v8_engine.cpp:101-114 | Updating the holder's binding keeps it the first holder. |
| `V8Env.LookupAppend` | small_v8_engine.cpp:362-364 | Creating a new frame changes no lookup from an existing frame. |
| `V8Env.CallFrameLookup` | small_v8_engine.cpp:362-372 | In a fresh call frame a name is its argument when it is a parameter, and otherwise whatever the closure's chain says. |
| `V8Eval.BindParams` | small_v8_engine.cpp:362-368 | Parameters are bound positionally for the supplied arguments only. Extra arguments are ignored and missing parameters stay unbound. A repeated parameter name takes its last argument. |
| `V8Eval.BindFirstValues` | small_v8_engine.cpp:362-368 | After binding the first `n` parameters, a parameter that no later bound parameter repeats holds its own argument. |
| `V8Eval.PrintText` | small_v8_engine.cpp:695-703 | The `print` line is empty exactly when there are no arguments. Otherwise it ends with a blank and has at least one character per argument. |
| `V8Eval.SetTimeout` | small_v8_engine.cpp:709-729 | `setTimeout` keeps every queued task, and the output and frames, and adds at most one task. It adds one exactly when it has at least two arguments and the first is a user function. The task holds the function's body and closure, due at the clock reading plus the truncated delay. |
| `V8Eval.Eval` | small_v8_engine.cpp:128-375 | No evaluation removes a frame, changes a parent link, unbinds a name, drops a printed line or drops a queued task. |
| `V8Eval.EvalList` | small_v8_engine.cpp:165-176 | A list that finishes has one value per element. |
| `V8Eval.EvalBinary` | small_v8_engine.cpp:200-253 | A binary operator only extends the state. |
| `V8Eval.EvalBlock` | small_v8_engine.cpp:260-269 | The statements run in order with the same bound on state changes. |
| `V8Eval.EvalVarDecl` | small_v8_engine.cpp:277-282 | A declaration stays within the bound on state changes. |
| `V8Eval.EvalIf` | small_v8_engine.cpp:291-305 | A conditional stays within the bound on state changes. |
| `V8Eval.EvalWhile` | small_v8_engine.cpp:312-322 | A loop that finishes yields null. |
| `V8Eval.EvalCall` | small_v8_engine.cpp:351-374 | A call stays within the bound on state changes. |
| `V8Eval.Apply` | small_v8_engine.cpp:358-373 | Calling a value stays within the bound on state changes, even though a user function adds its call frame. |
| `V8EvalLemmas.VarDeclBinds` | small_v8_engine.cpp:277-282 | `var x = e` evaluates `e` in the current frame, then binds `x` there to its value, overwriting any same-frame binding. The statement yields that value. Without an initialiser the value is null. A throw in `e` is the statement's throw, and no binding is made. A literal initialiser always finishes. |
| `V8EvalLemmas.BlockOpensNoFrame` | small_v8_engine.cpp:260-269 | A block opens no frame. A declaration inside it stays bound in the enclosing frame, and the block yields its last statement's value. |
| `V8EvalLemmas.BlockYieldsLast` | small_v8_engine.cpp:260-269 | Any finished block is the block of all its statements but the last, followed by the last statement in the same frame. So a block opens no frame, and its value is the last statement's. |
| `V8EvalLemmas.BlockStatement` | small_v8_engine.cpp:263-267 | In a finished block, each statement runs in the block's frame, in the state the earlier statements left, and finishes. The last one's outcome is the block's. |
| `V8EvalLemmas.BlockSplit` | small_v8_engine.cpp:263-267 | The block `a + b` runs `a`, then `b` from the state and value `a` left. |
| `V8EvalLemmas.NullStatementHalts` | small_v8_engine.cpp:263-267 | A block holding the null statement never finishes: evaluating the statement stops the engine. |
| `V8EvalLemmas.EmptyBlock` | small_v8_engine.cpp:260-269 | An empty block yields null and changes nothing. |
| `V8EvalLemmas.IfChoosesBranch` | small_v8_engine.cpp:291-305 | For every condition and branches: the condition is evaluated once in the same frame. A true flag or nonzero number runs the then branch; any other value runs the else branch, or yields null with none. The branch starts from the state the condition left, and a condition that throws or halts is the outcome. |
| `V8EvalLemmas.IfSkipsString` | small_v8_engine.cpp:291-305 | A string condition is false for `if`: with no else branch the statement yields null and changes nothing. |
| `V8EvalLemmas.WhileOnStringRunsForever` | small_v8_engine.cpp:312-322 | The same string condition never stops a `while`: no amount of fuel finishes it. |
| `V8EvalLemmas.WhileLoopOnString` | small_v8_engine.cpp:314-321 | The loop itself, at any fuel, runs out of fuel on a string condition. |
| `V8EvalLemmas.WhileEndsOnStop` | small_v8_engine.cpp:312-322 | A loop that finishes ended on a condition value that stops `while`. Evaluating that condition left the state the loop ends in. |
| `V8EvalLemmas.ListElement` | small_v8_engine.cpp:165-176 | In a finished list, element `i` is evaluated in the caller's frame, in the state the earlier elements left. Its value is value `i` of the list, and the last element leaves the list's final state. |
| `V8EvalLemmas.ListPrefix` | small_v8_engine.cpp:165-176 | A finished list evaluates its first `i` elements, then the rest from the state they left. The two parts' values make up the list's values. |
| `V8EvalLemmas.ListSplit` | small_v8_engine.cpp:165-176 | Evaluating `a + b` evaluates `a`, then `b` from the state `a` left. |
| `V8EvalLemmas.BinaryOperands` | small_v8_engine.cpp:200-253 | For every operator and operands: the left operand is evaluated first, then the right one from the state the left one left, both in the same frame. The result is the operator applied to the two values. A throw or halt on the left skips the right operand. |
| `V8EvalLemmas.AssignmentEvaluatesBoth` | small_v8_engine.cpp:200-253 | `l = e` for any operands evaluates both sides, keeps their effects, and yields null. |
| `V8EvalLemmas.AssignmentChangesNothing` | small_v8_engine.cpp:200-253 | `x = 5` evaluates both sides and yields null without assigning anything. It throws only when `x` is undefined. |
| `V8EvalLemmas.UndefinedCalleeFirst` | small_v8_engine.cpp:351-356 | The callee is looked up before any argument is evaluated: an undefined callee throws with nothing changed. |
| `V8EvalLemmas.NotAFunctionAfterArguments` | small_v8_engine.cpp:351-374 | A callee that is not a function throws "Not a function" only after the arguments have been evaluated, and keeps their effects. |
| `V8EvalLemmas.FunctionSeesItself` | small_v8_engine.cpp:333-342 | A function declaration yields a function capturing the current frame and binds it there. So its own call frame finds its name, which is what makes recursion work. |
| `V8EvalLemmas.CallScopeIsClosure` | small_v8_engine.cpp:358-373 | A user function's body sees its parameters and then the closure's chain, never the caller's frame. |
| `V8EvalLemmas.PrintWritesLine` | small_v8_engine.cpp:695-703 | `print("s")` writes the line `s ` and yields null. |
| `V8EvalLemmas.SetTimeoutQueues` | small_v8_engine.cpp:709-729 | `setTimeout(g, d)` runs nothing now. It queues `g`'s body with its closure, due `d` after the clock reading. |
| `V8Parser.Advance` | small_v8_engine.cpp:396 | Reading a character is defined up to and including the terminating NUL. |
| `Chars.SkipSpaces` | small_v8_engine.cpp:398-402 | Whitespace skipping stops at the first non-space or at the end, and everything skipped is space. The tinyjs lexer (tinyjs.cpp:112-113) skips the same way. |
| `V8Parser.Span` | small_v8_engine.cpp:411-423 | A scanning loop takes exactly the longest run of its class. |
| `V8Parser.ParseToken` | small_v8_engine.cpp:404-439 | A token is the text it spans after whitespace, and the end of the text gives the empty token. It fails exactly for an unterminated string. `+ - * /` are single characters, `<`, `>` and `=` start a comparison token, and a string token keeps both quotes. |
| `V8Parser.QuotedToken` | small_v8_engine.cpp:425-432 | A string token runs from its opening quote to the next quote, and keeps both quotes. It fails exactly when no closing quote follows. |
| `V8Parser.OperatorToken` | small_v8_engine.cpp:434-438 | Any other character is a one-character token, except that `=`, `!`, `<` and `>` take a following `=`. The token is exactly the text it spans. |
| `V8Parser.ParseExpression` | small_v8_engine.cpp:443-446 | An expression is a sum, or a single comparison between two sums. |
| `V8Parser.ParseComparison` | small_v8_engine.cpp:448-460 | At most one comparison operator is taken, so comparisons never chain. |
| `V8Parser.ParseAdditive` | small_v8_engine.cpp:462-476 | A sum is a left-leaning chain of `+`/`-` over products. |
| `V8Parser.AddLoop` | small_v8_engine.cpp:465-474 | Each `+` or `-` takes the tree so far as its left operand, so sums are left-associative. |
| `V8Parser.ParseMultiplicative` | small_v8_engine.cpp:478-492 | A product is a left-leaning chain of `*`/`/` over primaries, so `*` and `/` bind tighter than `+` and `-`. |
| `V8Parser.MulLoop` | small_v8_engine.cpp:481-490 | Each `*` or `/` takes the tree so far as its left operand. |
| `V8Parser.ParsePrimary` | small_v8_engine.cpp:494-542 | A primary is a number, a string, an array, a call, a name or the null node. The null node consumes only whitespace. |
| `V8Parser.ParseList` | small_v8_engine.cpp:506-536 | Array elements and call arguments are appended in order, each a full expression. |
| `V8Parser.ParseStatement` | small_v8_engine.cpp:557-641 | The statement is a declaration, `if`, `while` or function exactly when its leading run of letters is `var`, `if`, `while` or `function`. Anything else is an expression, assignment included. |
| `V8Parser.ParseVarDecl` | small_v8_engine.cpp:570-581 | `var` yields a declaration node. |
| `V8Parser.ParseIf` | small_v8_engine.cpp:582-604 | `if` yields a conditional node. |
| `V8Parser.ParseParams` | small_v8_engine.cpp:619-632 | Parameter names are collected in order. |
| `V8Parser.ParseBlock` | small_v8_engine.cpp:544-555 | A block yields a block node. Under the corrected rule it holds no null statement. |
| `V8Parser.BlockLoop` | small_v8_engine.cpp:548-552 | The statement loop of a block keeps the statements in order. As written it fails with `NoProgress` where the source loops forever. |
| `V8Parser.BlockNext` | small_v8_engine.cpp:550-552 | After each statement only whitespace is skipped as written, and a `;` too under the corrected rule. Earlier statements are kept, and a null statement is dropped under the corrected rule. |
| `V8Parser.ProgramLoop` | small_v8_engine.cpp:643-657 | Top-level statements are kept in order. Each one consumes text, so at most one is added per remaining character. |
| `V8Parser.Parse` | small_v8_engine.cpp:643-657 | Empty text parses to no statements, and a parsed program has no more statements than the text has characters. The first statement is a declaration, an `if`, a `while` or a function exactly when the text's first word is that keyword. With `AsWritten` this is the source's parser; `SkipSemicolons` is the corrected block rule. |
| `V8ParserLemmas.LonePrimary` | small_v8_engine.cpp:443-492 | A lone primary that runs to the end of the text is the whole expression. |
| `V8ParserLemmas.NumberLiteral` | small_v8_engine.cpp:499-500 | The numeral of a natural number parses back to that number. |
| `V8ParserLemmas.StringLiteral` | small_v8_engine.cpp:501-505 | A quoted string without quotes inside parses back to its contents. |
| `V8ParserLemmas.Identifier` | small_v8_engine.cpp:520-538 | A word of letters and digits that starts with a letter, and is not followed by `(`, is a name. |
| `V8ParserLemmas.NameBeforeEquals` | small_v8_engine.cpp:462-492 | A name followed by `=` is a sum that ends before the `=`. |
| `V8ParserLemmas.NumberToEnd` | small_v8_engine.cpp:462-500 | A numeral that ends the text is a sum that is just the number. |
| `V8ParserLemmas.AssignmentPieces` | small_v8_engine.cpp:404-476 | In `x=5`, the name is a sum ending at the `=`. The `=` is a token of its own with no space before it, and the numeral is a sum running to the end. |
| `V8ParserLemmas.AssignmentParses` | small_v8_engine.cpp:448-460 | `x=5` is not an assignment: it parses as the comparison-level operator `=` between the name and the number. |
| `V8ParserLemmas.CallBlockText` | small_v8_engine.cpp:544-555 | The characters the block parser reads in `{f();}`. |
| `V8ParserLemmas.CallInCallBlock` | small_v8_engine.cpp:520-536 | Inside `{f();}`, `f()` parses as the call and stops before the `;`. |
| `V8ParserLemmas.NothingAtSeparator` | small_v8_engine.cpp:494-542 | At a `;` or a `}` an expression is the null node and consumes nothing. |
| `V8ParserLemmas.AsWrittenStallsOnSemicolon` | small_v8_engine.cpp:544-555 | As written, the block parser never finishes `{f();}`. |
| `V8ParserLemmas.CorrectedParsesCallBlock` | small_v8_engine.cpp:643-657 | Skipping the optional `;`, as the top level does, the same block is the one call. |
| `V8ParserLemmas.EmptyBody` | small_v8_engine.cpp:544-555 | As written, `{ }` is a block holding one null statement: the statement parser runs before the space is skipped, and stops at `}`. Under the corrected rule it is the empty block. |
| `V8EventLoop.Partition` | small_v8_engine.cpp:765-777 | A pass splits the queue into the tasks due at `now` and the rest. Both parts keep queue order, together they are exactly the queue, and with nothing due the queue is untouched. |
| `V8EventLoop.PartitionUnique` | small_v8_engine.cpp:765-777 | That split is the only order-keeping split into due and waiting tasks. |
| `V8EventLoop.InterleavesRight` | small_v8_engine.cpp:765-777 | A queue with nothing due is the waiting part of itself. |
| `V8EventLoop.RunTask` | small_v8_engine.cpp:720-725 | A callback only extends the state: frames, output and the queue are kept. |
| `V8EventLoop.TaskSeesClosure` | small_v8_engine.cpp:720-725 | A callback runs its function's body in a frame appended after every existing one. Every name resolves there exactly as from the captured frame, since no parameter is bound. |
| `V8EventLoop.RunDue` | small_v8_engine.cpp:767-771 | The due tasks run one after another, each removed once it has run. |
| `V8EventLoop.Pass` | small_v8_engine.cpp:761-777 | After a pass exactly the tasks not due remain, in their order. A pass with nothing due changes nothing. |
| `V8EventLoop.IdlePass` | small_v8_engine.cpp:779-782 | A pass whose clock reading is before every task's time runs nothing and changes nothing. |
| `V8EventLoop.Drain` | small_v8_engine.cpp:759-783 | Draining ends only with an empty queue. |
| `V8EventLoop.DrainExtends` | small_v8_engine.cpp:759-783 | Draining only appends output. |
| `V8EventLoop.RunStatements` | small_v8_engine.cpp:749-753 | Running the top-level statements only extends the state. |
| `V8EventLoop.RunOneStatement` | small_v8_engine.cpp:749-753 | A null statement is skipped. Any other statement is evaluated in the global frame 0 and its value dropped; a throw or halt is the outcome. |
| `V8EventLoop.RunStatementsSplit` | small_v8_engine.cpp:749-753 | Statements run in order: `a + b` runs `a`, then `b` from the state `a` left, and a throw or halt in `a` ends the run before `b`. |
| `V8EventLoop.RunProgram` | small_v8_engine.cpp:748-784 | A program that finishes leaves an empty queue. |
| `V8EventLoop.SynchronousOutputFirst` | small_v8_engine.cpp:748-784 | Every top-level statement completes before any task runs: a finished program's output begins with exactly the synchronous output. |
| `V8EventLoop.RunSource` | small_v8_engine.cpp:745-784 | `run` fails to parse exactly when the parser fails under the given block rule. The source's own `run` is the `AsWritten` rule. A finished run leaves an empty queue. |

## Left out

- The REPL `main` loops are not modelled: reading lines, `exit`, the accumulation of code and the banners. The tinyjs `run` reports the first error as an output line and stops. In the tree-walking engine, the global frame (small_v8_engine.cpp:690) and the task queue (small_v8_engine.cpp:676) outlive each `run` command; only the accumulated code is cleared (small_v8_engine.cpp:790). `V8EventLoop.RunSource` instead starts every text from `InitialState` with an empty queue. So it does not model a later run seeing earlier bindings, or the tasks a thrown run left queued.
- Floating point is modelled as `real`. Rounding, infinities, NaN and `stod`'s out-of-range exception are left out. `ParseDecimal` reads digits and a first dot.
- The wall clock is the parameters `start` and `clock`, and `sleep_for` is a pass that runs nothing. The clock does not advance within one evaluation.
- `shared_ptr` identity is left out. Values are immutable, and no eval mutates a value in place, so aliasing is unobservable.
- `ObjectNode` is left out because the parser never builds it. `VObj` exists only for `toString`.
- tinyjs `if`/`else` token skipping and the `while` stub are left out because they are entangled with lexer side state and console output. `TinyInterp.Statement` yields `Stuck` on them.
- Text is modelled as a sequence of characters, while both sources read `std::string` bytes. The model agrees with the source only on ASCII text. For a non-ASCII character, tinyjs writes one `Unknown Token:` line per byte where `TinyLexer.Complaint` writes one per character. Also, `isalpha` and `isspace` on a negative `char` are undefined behaviour in C++.
- The characters `!=`, `<=`, `>=` and the like are tokens, but evaluation gives their operator no rule, so they yield null.
- Parser undefined behaviour is not reproduced:
  - reading past the NUL gives `PastEnd`;
  - a loop that never moves gives `NoProgress`;
  - an unterminated string gives `PastEnd`.
- Evaluating a null node is undefined behaviour in C++, so it gives `Halted(NullNode)`.
- Iterator invalidation is undefined behaviour in C++. It happens when a callback calls `setTimeout` while the queue is being scanned. The model gives `ScheduledDuringScan`.
- The queue left after a callback throws is not modelled. The whole `run` reports the error.
- `int` overflow in `add` is undefined behaviour, so `Calc.Execute` requires `NoOverflow`. The line tokenisation of `execute` (`stringstream >>`) is left out: commands arrive already split.
- Fuel bounds every recursion. A computation that needs more fuel than given is reported as running out, not as an answer. `bad_alloc` from unbounded growth is not modelled.
- The corrected block rule also drops null statements. The top level keeps them and skips them when running.
- `V8Env.Parent`: the guard `q < id` stands in for the arena invariant that every parent link and closure names an older frame. The model does not prove that evaluation keeps this invariant; a frame whose link broke it would be treated as having no parent.
- `V8EventLoop.RunTask`, `V8EventLoop.RunStatements`: each contract only bounds the state change. The callback's frame is stated by `TaskSeesClosure`, assuming the captured frame exists. The statement order, frame 0 and null skipping are stated by `RunOneStatement` and `RunStatementsSplit`.
- `V8Eval.Eval`, `V8Eval.EvalBinary`, `V8Eval.EvalBlock`, `V8Eval.EvalVarDecl`, `V8Eval.EvalIf`, `V8Eval.EvalCall`, `V8Eval.Apply`: each contract only bounds the state change. The node-by-node behaviour is stated by the lemmas in `V8EvalLemmas`: `BinaryOperands`, `BlockSplit`, `VarDeclBinds`, `IfChoosesBranch`, `WhileEndsOnStop`, and the call lemmas.
- `V8Parser.ParseVarDecl`, `V8Parser.ParseIf`, `V8Parser.ParseParams`, `V8Parser.ProgramLoop`, `V8Parser.Parse`: each contract states only node kinds, the kept order or a length bound. The statement tree a whole program parses to is not stated. The exact tokens consumed are in the definitions.
- `V8EventLoop.RunProgram`, `V8EventLoop.Drain`: neither contract states that the queue drains within a given clock; `ClockRanOut` covers a clock that ends first.

## Findings

| source | as written | input that shows it | evidently intended | confidence | as-written member | corrected member |
|---|---|---|---|---|---|---|
| small_v8_engine.cpp:548-552 | After a statement the block loop skips only whitespace, never a `;`. An expression statement stops before its `;`, and at a `;` the next statement is a null node that consumes nothing, so the loop never ends. | `{f();}`, or any `function` or `if` body whose statements end in `;` | Skip an optional `;` after each statement, as `parse` does at the top level (small_v8_engine.cpp:652-654). | high; not executed | `V8ParserLemmas.AsWrittenStallsOnSemicolon` | `V8ParserLemmas.CorrectedParsesCallBlock` |
| small_v8_engine.cpp:546-551 | After the `{` the block loop calls the statement parser before skipping whitespace. In `{ }` that parser meets the `}` and returns a null node, which goes into the block. Evaluating the block dereferences it. | `function f() { } f();` | Keep null statements out of blocks, as `run` skips them at the top level (small_v8_engine.cpp:751-752). | medium; not executed | `V8EvalLemmas.NullStatementHalts` | `V8ParserLemmas.EmptyBody` |

=== FILE: calc.dfy ===
/** The flat symbol-table calculator: one command per line over a map from names to `int`s.
    Commands arrive already split into words; `let`, `print` and `add` are recognised and every
    other command word is ignored. */
module Calc {
  import Numbers

  /** The C++ `int`. */
  type Int32 = i: int | -0x8000_0000 <= i < 0x8000_0000

  type Vars = map<string, Int32>

  datatype Command =
    | Let(name: string, value: Int32)    // let x = 10
    | Print(name: string)                // print x
    | Add(name: string, delta: Int32)    // add x 5
    | Other(word: string)                // any other first word

  /** The variable map and the lines written to standard output. */
  datatype Machine = Machine(vars: Vars, out: seq<string>)

  /** Signed overflow of `+=` is undefined behaviour, so callers must avoid it. */
  predicate NoOverflow(vars: Vars, c: Command) {
    c.Add? && c.name in vars ==> -0x8000_0000 <= vars[c.name] as int + c.delta as int < 0x8000_0000
  }

  function PrintLine(vars: Vars, name: string): string {
    if name in vars then ">> " + Numbers.IntText(vars[name] as int)
    else ">> Error: Variable '" + name + "' not found."
  }

  /** One call of `execute`. */
  function Execute(m: Machine, c: Command): (r: Machine)
    requires NoOverflow(m.vars, c)
    // let: binds the name to the value and leaves every other entry alone
    ensures c.Let? ==> c.name in r.vars && r.vars[c.name] == c.value
    ensures c.Let? ==> forall x :: x != c.name ==> (x in r.vars <==> x in m.vars)
    ensures c.Let? ==> forall x :: x in m.vars && x != c.name ==> r.vars[x] == m.vars[x]
    // add: increases an existing entry, and inserts nothing for an absent one
    ensures c.Add? ==> r.vars.Keys == m.vars.Keys
    ensures c.Add? && c.name in m.vars ==> r.vars[c.name] == m.vars[c.name] + c.delta
    ensures c.Add? ==> forall x :: x in m.vars && x != c.name ==> r.vars[x] == m.vars[x]
    ensures c.Add? && c.name !in m.vars ==> r == m
    // print and unrecognised commands never touch the map; only print writes a line
    ensures c.Print? || c.Other? ==> r.vars == m.vars
    ensures c.Print? ==> |r.out| == |m.out| + 1 && r.out[..|m.out|] == m.out
    ensures !c.Print? ==> r.out == m.out
  {
    match c
    case Let(x, v) => m.(vars := m.vars[x := v])
    case Print(x) => m.(out := m.out + [PrintLine(m.vars, x)])
    case Add(x, d) =>
      if x in m.vars then m.(vars := m.vars[x := m.vars[x] + d]) else m
    case Other(_) => m
  }

  /** A session: the commands of successive lines, each executed in turn. */
  predicate Runnable(m: Machine, cs: seq<Command>)
    decreases |cs|
  {
    cs == [] || (NoOverflow(m.vars, cs[0]) && Runnable(Execute(m, cs[0]), cs[1..]))
  }

  function Run(m: Machine, cs: seq<Command>): (r: Machine)
    requires Runnable(m, cs)
    // the session keeps what was written and adds at most one line per command
    ensures m.out <= r.out && |r.out| <= |m.out| + |cs|
    decreases |cs|
  {
    if cs == [] then m else Run(Execute(m, cs[0]), cs[1..])
  }

  /** The names a session binds with `let`. */
  function LetNames(cs: seq<Command>): set<string> {
    set i | 0 <= i < |cs| && cs[i].Let? :: cs[i].name
  }

  /** Only `let` creates variables: after a session the map holds exactly the names it held
      before plus those some `let` bound. */
  lemma {:induction false} RunKeys(m: Machine, cs: seq<Command>)
    requires Runnable(m, cs)
    ensures Run(m, cs).vars.Keys == m.vars.Keys + LetNames(cs)
    decreases |cs|
  {
    if cs != [] {
      var m1 := Execute(m, cs[0]);
      RunKeys(m1, cs[1..]);
      assert LetNames(cs) == (if cs[0].Let? then {cs[0].name} else {}) + LetNames(cs[1..]) by {
        forall x | x in LetNames(cs)
          ensures x in (if cs[0].Let? then {cs[0].name} else {}) + LetNames(cs[1..])
        {
          var i :| 0 <= i < |cs| && cs[i].Let? && cs[i].name == x;
          if i > 0 {
            assert cs[1..][i - 1] == cs[i];
          }
        }
        forall x | x in LetNames(cs[1..]) ensures x in LetNames(cs) {
          var i :| 0 <= i < |cs[1..]| && cs[1..][i].Let? && cs[1..][i].name == x;
          assert cs[i + 1] == cs[1..][i];
        }
      }
    }
  }

  /** `let x = a` followed by `add x b` leaves `a + b` in `x`. */
  lemma LetThenAdd(m: Machine, x: string, a: Int32, b: Int32)
    requires -0x8000_0000 <= a as int + b as int < 0x8000_0000
    ensures Runnable(m, [Let(x, a), Add(x, b)])
    ensures x in Run(m, [Let(x, a), Add(x, b)]).vars
    ensures Run(m, [Let(x, a), Add(x, b)]).vars[x] == a + b
  {
    var cs := [Let(x, a), Add(x, b)];
    var m1 := Execute(m, Let(x, a));
    var m2 := Execute(m1, Add(x, b));
    assert cs[1..] == [Add(x, b)];
    assert [Add(x, b)][1..] == [];
    assert Runnable(m1, [Add(x, b)]);
    assert Run(m1, [Add(x, b)]) == m2;
    assert Run(m, cs) == m2;
  }
}

=== FILE: chars.dfy ===
/** The C library's character classes in the "C" locale, and scanning a run of characters. */
module Chars {

  /** The NUL character that `std::string` yields one past its last character. */
  const NUL: char := 0 as char

  /** `isspace`: blank, tab, newline, vertical tab, form feed, carriage return. */
  predicate IsSpace(c: char) {
    c == ' ' || (9 <= c as int <= 13)
  }

  /** `isdigit` */
  predicate IsDigit(c: char) {
    '0' <= c <= '9'
  }

  /** `isalpha`: ASCII letters only. */
  predicate IsAlpha(c: char) {
    ('a' <= c <= 'z') || ('A' <= c <= 'Z')
  }

  /** `isalnum` */
  predicate IsAlnum(c: char) {
    IsAlpha(c) || IsDigit(c)
  }

  /** A character of a numeric token: a digit or a dot. */
  predicate IsNumberChar(c: char) {
    IsDigit(c) || c == '.'
  }

  predicate NotQuote(c: char) {
    c != '"'
  }

  /** The value of a decimal digit character. */
  function DigitValue(c: char): (d: nat)
    requires IsDigit(c)
    ensures d < 10
  {
    c as int - '0' as int
  }

  /** The end of the longest run of characters satisfying `p` that starts at `i`.
      A start at or beyond the end of `s` is an empty run. */
  function RunEnd(s: string, i: nat, p: char -> bool): (e: nat)
    ensures i <= e
    ensures i <= |s| ==> e <= |s|
    ensures i >= |s| ==> e == i
    ensures forall k :: i <= k < e ==> k < |s| && p(s[k])
    ensures e < |s| ==> !p(s[e])
    decreases |s| - i
  {
    if i < |s| && p(s[i]) then RunEnd(s, i + 1, p) else i
  }

  /** Whitespace skipping, as both interpreters' lexers do it: the end of the run of spaces. */
  function SkipSpaces(src: string, pos: nat): (p: nat)
    ensures pos <= p
    ensures pos <= |src| ==> p <= |src|
    ensures pos >= |src| ==> p == pos
    ensures forall k :: pos <= k < p ==> IsSpace(src[k])
    ensures p < |src| ==> !IsSpace(src[p])
  {
    RunEnd(src, pos, IsSpace)
  }

  /** A run reaches at least as far as any stretch of characters that all satisfy `p`. */
  lemma {:induction false} RunEndCovers(s: string, i: nat, j: nat, p: char -> bool)
    requires i <= j <= |s|
    requires forall k :: i <= k < j ==> p(s[k])
    ensures j <= RunEnd(s, i, p)
    decreases j - i
  {
    if i < j {
      RunEndCovers(s, i + 1, j, p);
    }
  }
}

=== FILE: numbers.dfy ===
/** Numbers of both engines. The source uses IEEE doubles; the model uses exact reals, and
    keeps the two places where the source turns numbers into text or text into numbers:
    `stod` on a digit-led token and `to_string` followed by stripping trailing zeros. */
module Numbers {
  import opened Chars

  type Num = real

  /** Division; a zero divisor yields 0 here, where the source yields an infinity or NaN. */
  function Div(a: Num, b: Num): (q: Num)
    ensures b != 0.0 ==> q * b == a
  {
    if b == 0.0 then 0.0 else a / b
  }

  /** The `(long long)` cast: truncation toward zero. */
  function TruncToInt(x: Num): (i: int)
    ensures 0.0 <= x ==> i as real <= x < i as real + 1.0
    ensures x < 0.0 ==> i as real - 1.0 < x <= i as real
  {
    if 0.0 <= x then x.Floor else -((-x).Floor)
  }

  // ---------------------------------------------------------------------------
  // Decimal text
  // ---------------------------------------------------------------------------

  function DigitChar(d: nat): (c: char)
    requires d < 10
    ensures IsDigit(c) && DigitValue(c) == d
  {
    "0123456789"[d]
  }

  predicate AllDigits(s: string) {
    forall k :: 0 <= k < |s| ==> IsDigit(s[k])
  }

  /** The decimal numeral of `n`, most significant digit first, without leading zeros. */
  function NatText(n: nat): (s: string)
    ensures |s| >= 1 && AllDigits(s)
    ensures s[0] == '0' ==> n == 0
    decreases n
  {
    if n < 10 then [DigitChar(n)] else NatText(n / 10) + [DigitChar(n % 10)]
  }

  /** `to_string` of an `int`: a minus sign before the numeral of the magnitude. */
  function IntText(i: int): (s: string)
    ensures |s| >= 1
    ensures i < 0 <==> s[0] == '-'
  {
    if i < 0 then "-" + NatText(-i) else NatText(i)
  }

  /** The value of a string of decimal digits (the empty string is 0). */
  function DigitsValue(s: string): nat
    requires AllDigits(s)
  {
    if s == [] then 0 else DigitsValue(s[..|s| - 1]) * 10 + DigitValue(s[|s| - 1])
  }

  lemma {:induction false} DigitsValueOfNatText(n: nat)
    ensures DigitsValue(NatText(n)) == n
    decreases n
  {
    if n >= 10 {
      var s := NatText(n);
      assert s[..|s| - 1] == NatText(n / 10);
      DigitsValueOfNatText(n / 10);
    }
  }

  function Pow10(k: nat): (p: nat)
    ensures p >= 1
  {
    if k == 0 then 1 else 10 * Pow10(k - 1)
  }

  /** `stod` on a token of digits and dots that the scanners produce: the longest prefix of the
      form digits, optionally followed by a dot and more digits. */
  function ParseDecimal(s: string): (x: Num)
    ensures 0.0 <= x
  {
    var i := RunEnd(s, 0, IsDigit);
    var whole := DigitsValue(s[..i]);
    if i < |s| && s[i] == '.' then
      var j := RunEnd(s, i + 1, IsDigit);
      whole as real + DigitsValue(s[i + 1..j]) as real / Pow10(j - i - 1) as real
    else
      whole as real
  }

  /** Literal round trip: the numeral of a natural number reads back as that number. */
  lemma ParseDecimalOfNatText(n: nat)
    ensures ParseDecimal(NatText(n)) == n as real
  {
    var s := NatText(n);
    var i := RunEnd(s, 0, IsDigit);
    assert i == |s|;
    assert s[..i] == s;
    DigitsValueOfNatText(n);
  }

  // ---------------------------------------------------------------------------
  // to_string followed by stripping trailing zeros
  // ---------------------------------------------------------------------------

  /** `s.substr(0, s.find_last_not_of('0') + 1)`: drop every trailing '0'. */
  function StripZeros(s: string): (r: string)
    ensures r <= s
    ensures r == [] || r[|r| - 1] != '0'
    ensures forall k :: |r| <= k < |s| ==> s[k] == '0'
  {
    if s == [] || s[|s| - 1] != '0' then s else StripZeros(s[..|s| - 1])
  }

  /** Six-digit zero-padded fraction, as `to_string` prints it. */
  function Pad6(f: nat): (s: string)
    requires f < 1000000
    ensures |s| == 6 && AllDigits(s)
  {
    var t := NatText(f);
    NatTextShort(f);
    seq(6 - |t|, _ => '0') + t
  }

  lemma {:induction false} NatTextShort(f: nat)
    requires f < 1000000
    ensures |NatText(f)| <= 6
    decreases f
  {
    NatTextLength(f, 6);
  }

  lemma {:induction false} NatTextLength(f: nat, k: nat)
    requires f < Pow10(k)
    ensures |NatText(f)| <= if k == 0 then 1 else k
    decreases k
  {
    if k > 0 && f >= 10 {
      NatTextLength(f / 10, k - 1);
    }
  }

  /** `std::to_string`'s text for a magnitude counted in millionths: whole part, dot, six digits. */
  function FixedText(micros: nat): (s: string)
    ensures |s| >= 8 && s[|s| - 7] == '.'
    ensures forall k :: 0 <= k < |s| - 7 ==> IsDigit(s[k])
  {
    NatText(micros / 1000000) + "." + Pad6(micros % 1000000)
  }

  /** A magnitude in millionths, rounded half up: the digits `std::to_string` shows. */
  function Micros(a: Num): (m: int)
    ensures 0.0 <= a ==> 0 <= m
  {
    (a * 1000000.0 + 0.5).Floor
  }

  /** A number as the engines print it: `std::to_string` (six decimals, rounded half up here)
      with trailing zeros removed, so that a whole number keeps its dot ("5."). */
  function Format(x: Num): (s: string)
    ensures |s| >= 2 && s[|s| - 1] != '0'
    ensures x < 0.0 ==> s[0] == '-'
    ensures 0.0 <= x ==> IsDigit(s[0])
  {
    var a := if x < 0.0 then -x else x;
    var body := FixedText(Micros(a));
    var r := StripZeros(body);
    assert |r| > |body| - 7;
    (if x < 0.0 then "-" else "") + r
  }

  lemma StripZerosKeeps(t: string, z: string)
    requires t != [] && t[|t| - 1] != '0'
    requires forall k :: 0 <= k < |z| ==> z[k] == '0'
    ensures StripZeros(t + z) == t
    decreases |z|
  {
    if z != [] {
      assert (t + z)[..|t + z| - 1] == t + z[..|z| - 1];
      StripZerosKeeps(t, z[..|z| - 1]);
    } else {
      assert t + z == t;
    }
  }

  lemma FloorHalf(k: int)
    ensures (k as real + 0.5).Floor == k
  {
  }

  lemma Pad6Zero()
    ensures Pad6(0) == "000000"
  {
    assert NatText(0) == "0";
  }

  lemma MicrosWhole(n: nat)
    ensures Micros(n as real) == n * 1000000
  {
    var m := n * 1000000;
    assert n as real * 1000000.0 == m as real;
    FloorHalf(m);
  }

  lemma FixedTextWhole(n: nat)
    ensures FixedText(n * 1000000) == NatText(n) + "." + "000000"
  {
    var m := n * 1000000;
    assert m / 1000000 == n && m % 1000000 == 0;
    Pad6Zero();
  }

  lemma FormatUnfold(n: nat)
    ensures Format(n as real) == StripZeros(FixedText(Micros(n as real)))
  {
    var r := StripZeros(FixedText(Micros(n as real)));
    assert "" + r == r;
  }

  /** A whole number prints as its numeral followed by a dot: `5` prints as "5.". */
  lemma FormatWhole(n: nat)
    ensures Format(n as real) == NatText(n) + "."
  {
    var t := NatText(n) + ".";
    assert Format(n as real) == StripZeros(FixedText(n * 1000000)) by {
      FormatUnfold(n);
      MicrosWhole(n);
    }
    FixedTextWhole(n);
    StripDot(n);
  }

  lemma StripDot(n: nat)
    ensures StripZeros(NatText(n) + "." + "000000") == NatText(n) + "."
  {
    StripZerosKeeps(NatText(n) + ".", "000000");
  }
}

=== FILE: tiny_interp.dfy ===
/** The single-pass interpreter: it evaluates while it reads tokens, keeping one current token
    and the scope stack. Expressions are evaluated by precedence climbing (comparison over
    additive over term over factor) and statements are executed as they are recognised. */
module TinyInterp {
  import opened Wrappers
  import opened Numbers
  import opened Chars
  import opened TinyLexer
  import opened TinyValues
  import opened TinyScopes

  /** The interpreter's state: the source, the lexer position, the current token, the scopes
      and the lines written to standard output, by `print` and by the lexer's reports. */
  datatype Machine = Machine(src: string, pos: nat, cur: Token, scopes: Scopes, out: seq<string>)

  /** The outcome of one step: a value and the machine after it, a thrown error with the
      machine at the throw, or `Stuck` when the fuel ran out or an `if`/`while` was reached. */
  datatype Step<+T> = Done(value: T, m: Machine) | Threw(msg: string, m: Machine) | Stuck

  /** The lines after `out` are all reports of unscannable characters. */
  predicate OnlyReports(out: seq<string>, out': seq<string>) {
    out <= out' && forall k :: |out| <= k < |out'| ==> IsUnknownTokenLine(out'[k])
  }

  lemma ReportsChain(a: seq<string>, b: seq<string>, c: seq<string>)
    ensures OnlyReports(a, b) && OnlyReports(b, c) ==> OnlyReports(a, c)
  {
    if OnlyReports(a, b) && OnlyReports(b, c) {
      assert forall k :: |b| <= k < |c| ==> c[k] == (c[..|b|] + c[|b|..])[k];
    }
  }

  /** What a step may change: the lexer moves, and may report characters it cannot scan;
      nothing else changes. */
  predicate ReadsOnly(m: Machine, m': Machine) {
    m'.src == m.src && m'.scopes == m.scopes && OnlyReports(m.out, m'.out)
  }

  /** Replace the current token by the next one, with the lexer's report if it wrote one. */
  function Advance(m: Machine): (m': Machine)
    ensures ReadsOnly(m, m')
    ensures m'.cur == NextToken(m.src, m.pos).0 && m'.pos == NextToken(m.src, m.pos).1
    ensures m'.out == m.out + Complaint(m.src, m.pos)
  {
    var (t, p) := NextToken(m.src, m.pos);
    m.(cur := t, pos := p, out := m.out + Complaint(m.src, m.pos))
  }

  /** `eat`: the current token must have kind `k`. */
  function Eat(m: Machine, k: Kind): (r: Step<()>)
    ensures r.Done? <==> m.cur.kind == k
    ensures r.Done? ==> r.m == Advance(m)
    ensures r.Threw? ==> r.m == m && r.msg == "Unexpected token: " + m.cur.text
  {
    if m.cur.kind == k then Done((), Advance(m)) else Threw("Unexpected token: " + m.cur.text, m)
  }

  // ---------------------------------------------------------------------------
  // Expressions: they read variables and move the lexer, and change nothing else.
  // ---------------------------------------------------------------------------

  function Factor(m: Machine, fuel: nat): (r: Step<TValue>)
    ensures r.Done? || r.Threw? ==> ReadsOnly(m, r.m)
    decreases fuel
  {
    if fuel == 0 then Stuck
    else
      var t := m.cur;
      match t.kind
      case Number => Done(NumberValue(ParseDecimal(t.text)), Advance(m))
      case Str => Done(StringValue(t.text), Advance(m))
      case Id =>
        var m1 := Advance(m);
        (match Value(m1.scopes, t.text)
         case None => Threw("Undefined variable: " + t.text, m1)
         case Some(v) => Done(v, m1))
      case LParen =>
        (match Expression(Advance(m), fuel - 1)
         case Done(v, m2) =>
           (match Eat(m2, RParen)
            case Done(_, m3) => Done(v, m3)
            case Threw(e, m3) => Threw(e, m3)
            case Stuck => Stuck)
         case Threw(e, m2) => Threw(e, m2)
         case Stuck => Stuck)
      case _ => Threw("Unexpected factor: " + t.text, m)
  }

  function Term(m: Machine, fuel: nat): (r: Step<TValue>)
    ensures r.Done? || r.Threw? ==> ReadsOnly(m, r.m)
    // a term ends only before a token that cannot continue it
    ensures r.Done? ==> r.m.cur.kind != Mul && r.m.cur.kind != Div
    decreases fuel
  {
    if fuel == 0 then Stuck
    else
      match Factor(m, fuel - 1)
      case Done(left, m1) => TermLoop(left, m1, fuel - 1)
      case Threw(e, m1) => Threw(e, m1)
      case Stuck => Stuck
  }

  function TermLoop(left: TValue, m: Machine, fuel: nat): (r: Step<TValue>)
    ensures r.Done? || r.Threw? ==> ReadsOnly(m, r.m)
    ensures r.Done? ==> r.m.cur.kind != Mul && r.m.cur.kind != Div
    decreases fuel
  {
    if m.cur.kind != Mul && m.cur.kind != Div then Done(left, m)
    else if fuel == 0 then Stuck
    else
      match Factor(Advance(m), fuel - 1)
      case Done(right, m1) => TermLoop(MulStep(m.cur.kind, left, right), m1, fuel - 1)
      case Threw(e, m1) => Threw(e, m1)
      case Stuck => Stuck
  }

  function Additive(m: Machine, fuel: nat): (r: Step<TValue>)
    ensures r.Done? || r.Threw? ==> ReadsOnly(m, r.m)
    ensures r.Done? ==> r.m.cur.kind != Plus && r.m.cur.kind != Minus
    decreases fuel
  {
    if fuel == 0 then Stuck
    else
      match Term(m, fuel - 1)
      case Done(left, m1) => AddLoop(left, m1, fuel - 1)
      case Threw(e, m1) => Threw(e, m1)
      case Stuck => Stuck
  }

  function AddLoop(left: TValue, m: Machine, fuel: nat): (r: Step<TValue>)
    ensures r.Done? || r.Threw? ==> ReadsOnly(m, r.m)
    ensures r.Done? ==> r.m.cur.kind != Plus && r.m.cur.kind != Minus
    decreases fuel
  {
    if m.cur.kind != Plus && m.cur.kind != Minus then Done(left, m)
    else if fuel == 0 then Stuck
    else
      match Term(Advance(m), fuel - 1)
      case Done(right, m1) => AddLoop(AddStep(m.cur.kind, left, right), m1, fuel - 1)
      case Threw(e, m1) => Threw(e, m1)
      case Stuck => Stuck
  }

  /** `comparison`: unlike the other engine it loops, so `a < b < c` compares a flag with `c`. */
  function Comparison(m: Machine, fuel: nat): (r: Step<TValue>)
    ensures r.Done? || r.Threw? ==> ReadsOnly(m, r.m)
    ensures r.Done? ==> r.m.cur.kind != Gt && r.m.cur.kind != Lt && r.m.cur.kind != Eq
    decreases fuel
  {
    if fuel == 0 then Stuck
    else
      match Additive(m, fuel - 1)
      case Done(left, m1) => CompareLoop(left, m1, fuel - 1)
      case Threw(e, m1) => Threw(e, m1)
      case Stuck => Stuck
  }

  function CompareLoop(left: TValue, m: Machine, fuel: nat): (r: Step<TValue>)
    ensures r.Done? || r.Threw? ==> ReadsOnly(m, r.m)
    ensures r.Done? && (m.cur.kind == Gt || m.cur.kind == Lt || m.cur.kind == Eq) ==> r.value.tag == TBool
    ensures r.Done? ==> r.m.cur.kind != Gt && r.m.cur.kind != Lt && r.m.cur.kind != Eq
    decreases fuel
  {
    if m.cur.kind != Gt && m.cur.kind != Lt && m.cur.kind != Eq then Done(left, m)
    else if fuel == 0 then Stuck
    else
      match Additive(Advance(m), fuel - 1)
      case Done(right, m1) => CompareLoop(CompareStep(m.cur.kind, left, right), m1, fuel - 1)
      case Threw(e, m1) => Threw(e, m1)
      case Stuck => Stuck
  }

  function Expression(m: Machine, fuel: nat): (r: Step<TValue>)
    ensures r.Done? || r.Threw? ==> ReadsOnly(m, r.m)
    decreases fuel
  {
    if fuel == 0 then Stuck else Comparison(m, fuel - 1)
  }

  // ---------------------------------------------------------------------------
  // Statements
  // ---------------------------------------------------------------------------

  /** Scopes below depth `n` still hold exactly the names they held: later scopes may have
      gained names, outer ones only changed values. */
  predicate SameNamesBelow(s: Scopes, s': Scopes, n: nat)
    requires n <= |s| && n <= |s'|
  {
    forall i :: 0 <= i < n ==> s'[i].Keys == s[i].Keys
  }

  /** `statement`. Declarations go to the innermost scope; assignment updates the nearest
      declaration; a block runs in a scope of its own. `if` and `while` are not modelled. */
  function Statement(m: Machine, fuel: nat): (r: Step<()>)
    requires |m.scopes| >= 1
    ensures r.Done? || r.Threw? ==> r.m.src == m.src && m.out <= r.m.out
    ensures r.Done? ==> |r.m.scopes| == |m.scopes|
    ensures r.Done? ==> SameNamesBelow(m.scopes, r.m.scopes, |m.scopes| - 1)
    decreases fuel
  {
    if fuel == 0 then Stuck
    else
      match m.cur.kind
      case Let => Declaration(Advance(m), false, fuel - 1)
      case Const => Declaration(Advance(m), true, fuel - 1)
      case Print => PrintStatement(Advance(m), fuel - 1)
      case If => Stuck
      case While => Stuck
      case LBrace => Block(m, fuel - 1)
      case Id => Assignment(m, fuel - 1)
      case _ => Eat(m, Semi)
  }

  /** `print expr;`, after the keyword: one line with the value's text. */
  function PrintStatement(m: Machine, fuel: nat): (r: Step<()>)
    ensures r.Done? || r.Threw? ==> r.m.src == m.src && r.m.scopes == m.scopes
    ensures r.Done? || r.Threw? ==> m.out <= r.m.out
    // the line is the value's text, with nothing but the lexer's reports around it
    ensures r.Done? ==> var e := Expression(m, fuel);
                        && e.Done?
                        && OnlyReports(e.m.out + [ToText(e.value)], r.m.out)
    decreases fuel
  {
    match Expression(m, fuel)
    case Done(v, m2) => Eat(m2.(out := m2.out + [ToText(v)]), Semi)
    case Threw(e, m2) => Threw(e, m2)
    case Stuck => Stuck
  }

  /** `let name = expr;` or `const name = expr;`, after the keyword. */
  function Declaration(m: Machine, isConst: bool, fuel: nat): (r: Step<()>)
    requires |m.scopes| >= 1
    ensures r.Done? || r.Threw? ==> r.m.src == m.src && OnlyReports(m.out, r.m.out)
    ensures r.Done? ==> |r.m.scopes| == |m.scopes|
    ensures r.Done? ==> r.m.scopes[..|m.scopes| - 1] == m.scopes[..|m.scopes| - 1]
    ensures r.Done? ==> SameNamesBelow(m.scopes, r.m.scopes, |m.scopes| - 1)
    ensures r.Done? ==> r.m.scopes[|m.scopes| - 1].Keys >= m.scopes[|m.scopes| - 1].Keys
    // the name is the identifier, the value is the initialiser's after `=`, and both are
    // bound innermost as `DeclareVar` binds them
    ensures r.Done? ==> && fuel >= 1 && m.cur.kind == Id && Advance(m).cur.kind == Assign
                        && var e := Expression(Advance(Advance(m)), fuel - 1);
                        && e.Done?
                        && DeclareVar(m.scopes, m.cur.text, e.value, isConst) == Ok(r.m.scopes)
    // a name the innermost scope already holds is never declared again
    ensures m.cur.text in m.scopes[|m.scopes| - 1] ==> !r.Done?
    decreases fuel
  {
    if fuel == 0 then Stuck
    else
      var name := m.cur.text;
      match Eat(m, Id)
      case Threw(e, m1) => Threw(e, m1)
      case Stuck => Stuck
      case Done(_, m1) =>
        match Eat(m1, Assign)
        case Threw(e, m2) => Threw(e, m2)
        case Stuck => Stuck
        case Done(_, m2) =>
          ReportsChain(m.out, m1.out, m2.out);
          var r := DeclareValue(m2, name, isConst, fuel - 1);
          if r.Stuck? then r else ReportsChain(m.out, m2.out, r.m.out); r
  }

  /** The rest of a declaration, from its initialiser: the value is computed, then the name is
      declared innermost, then the ';' is eaten. */
  function DeclareValue(m: Machine, name: string, isConst: bool, fuel: nat): (r: Step<()>)
    requires |m.scopes| >= 1
    ensures r.Done? || r.Threw? ==> r.m.src == m.src && OnlyReports(m.out, r.m.out)
    ensures r.Done? ==> |r.m.scopes| == |m.scopes|
    ensures r.Done? ==> r.m.scopes[..|m.scopes| - 1] == m.scopes[..|m.scopes| - 1]
    ensures r.Done? ==> SameNamesBelow(m.scopes, r.m.scopes, |m.scopes| - 1)
    ensures r.Done? ==> r.m.scopes[|m.scopes| - 1].Keys >= m.scopes[|m.scopes| - 1].Keys
    ensures r.Done? ==> var e := Expression(m, fuel);
                        e.Done? && DeclareVar(m.scopes, name, e.value, isConst) == Ok(r.m.scopes)
    ensures name in m.scopes[|m.scopes| - 1] ==> !r.Done?
  {
    match Expression(m, fuel)
    case Threw(e, m3) => Threw(e, m3)
    case Stuck => Stuck
    case Done(v, m3) =>
      match DeclareVar(m3.scopes, name, v, isConst)
      case Err(e) => Threw(e, m3)
      case Ok(s) =>
        assert DeclareVar(m.scopes, name, v, isConst) == Ok(s);
        var m4 := m3.(scopes := s);
        ReportsChain(m.out, m4.out, Advance(m4).out);
        Eat(m4, Semi)
  }

  /** `name = expr;`: the right-hand side is evaluated before the name is looked up. */
  function Assignment(m: Machine, fuel: nat): (r: Step<()>)
    requires m.cur.kind == Id
    ensures r.Done? || r.Threw? ==> r.m.src == m.src && OnlyReports(m.out, r.m.out)
    // an undeclared or constant target is an error that leaves every variable as it was
    ensures AssignVar(m.scopes, m.cur.text, Null).Err? ==> !r.Done? && (r.Threw? ==> r.m.scopes == m.scopes)
    // otherwise the nearest declaration takes the value of the right-hand side after `=`
    ensures r.Done? ==> && fuel >= 1 && Advance(m).cur.kind == Assign
                        && var e := Expression(Advance(Advance(m)), fuel - 1);
                        && e.Done?
                        && AssignVar(m.scopes, m.cur.text, e.value) == Ok(r.m.scopes)
    ensures r.Done? ==> |r.m.scopes| == |m.scopes| && SameNamesBelow(m.scopes, r.m.scopes, |m.scopes|)
    decreases fuel
  {
    if fuel == 0 then Stuck
    else
      var name := m.cur.text;
      match Eat(Advance(m), Assign)
      case Threw(e, m2) => Threw(e, m2)
      case Stuck => Stuck
      case Done(_, m2) =>
        ReportsChain(m.out, Advance(m).out, m2.out);
        var r := AssignValue(m2, name, fuel - 1);
        if r.Stuck? then r else ReportsChain(m.out, m2.out, r.m.out); r
  }

  /** The rest of an assignment, from its right-hand side. */
  function AssignValue(m: Machine, name: string, fuel: nat): (r: Step<()>)
    ensures r.Done? || r.Threw? ==> r.m.src == m.src && OnlyReports(m.out, r.m.out)
    ensures AssignVar(m.scopes, name, Null).Err? ==> !r.Done? && (r.Threw? ==> r.m.scopes == m.scopes)
    ensures r.Done? ==> var e := Expression(m, fuel);
                        e.Done? && AssignVar(m.scopes, name, e.value) == Ok(r.m.scopes)
    ensures r.Done? ==> |r.m.scopes| == |m.scopes| && SameNamesBelow(m.scopes, r.m.scopes, |m.scopes|)
  {
    match Expression(m, fuel)
    case Threw(e, m3) => Threw(e, m3)
    case Stuck => Stuck
    case Done(v, m3) =>
      match AssignVar(m3.scopes, name, v)
      case Err(e) => Threw(e, m3)
      case Ok(s) =>
        assert AssignVar(m.scopes, name, v) == Ok(s);
        var m4 := m3.(scopes := s);
        ReportsChain(m.out, m4.out, Advance(m4).out);
        Eat(m4, Semi)
  }

  /** `block`: one scope is pushed for the statements and popped after them, before the
      closing brace is eaten. */
  function Block(m: Machine, fuel: nat): (r: Step<()>)
    requires |m.scopes| >= 1
    ensures r.Done? || r.Threw? ==> r.m.src == m.src && m.out <= r.m.out
    ensures r.Done? ==> |r.m.scopes| == |m.scopes|
    ensures r.Done? ==> SameNamesBelow(m.scopes, r.m.scopes, |m.scopes|)
    decreases fuel
  {
    if fuel == 0 then Stuck
    else
      match Eat(m, LBrace)
      case Threw(e, m1) => Threw(e, m1)
      case Stuck => Stuck
      case Done(_, m1) =>
        match BlockBody(m1.(scopes := m1.scopes + [map[]]), fuel - 1)
        case Threw(e, m2) => Threw(e, m2)
        case Stuck => Stuck
        case Done(_, m2) => Eat(m2.(scopes := m2.scopes[..|m2.scopes| - 1]), RBrace)
  }

  /** The statements of a block, up to its closing brace or the end of the input. */
  function BlockBody(m: Machine, fuel: nat): (r: Step<()>)
    requires |m.scopes| >= 1
    ensures r.Done? || r.Threw? ==> r.m.src == m.src && m.out <= r.m.out
    ensures r.Done? ==> |r.m.scopes| == |m.scopes|
    ensures r.Done? ==> SameNamesBelow(m.scopes, r.m.scopes, |m.scopes| - 1)
    ensures r.Done? ==> r.m.cur.kind == RBrace || r.m.cur.kind == End
    decreases fuel
  {
    if m.cur.kind == RBrace || m.cur.kind == End then Done((), m)
    else if fuel == 0 then Stuck
    else
      match Statement(m, fuel - 1)
      case Threw(e, m1) => Threw(e, m1)
      case Stuck => Stuck
      case Done(_, m1) => BlockBody(m1, fuel - 1)
  }

  /** The interpreter for a whole source text: the first token is read, then statements run
      until the end token; the first error is reported and ends the run. `None` when the run
      is stuck. */
  function Run(src: string, fuel: nat): (r: Option<seq<string>>)
    // the output begins with the report of the first token's read
    ensures r.Some? ==> Complaint(src, 0) <= r.value
    // an empty text runs to completion and writes nothing
    ensures src == [] ==> r == Some([])
  {
    var (t, p) := NextToken(src, 0);
    RunFrom(Machine(src, p, t, [map[]], Complaint(src, 0)), fuel)
  }

  function RunFrom(m: Machine, fuel: nat): (r: Option<seq<string>>)
    requires |m.scopes| >= 1
    ensures r.Some? ==> m.out <= r.value
    decreases fuel
  {
    if m.cur.kind == End then Some(m.out)
    else if fuel == 0 then None
    else
      match Statement(m, fuel - 1)
      case Done(_, m1) => RunFrom(m1, fuel - 1)
      case Threw(e, m1) => Some(m1.out + ["Error: " + e])
      case Stuck => None
  }

  /** After `print`, a numeral followed by `;` writes the number's text, then whatever scanning
      the token after the `;` reports, and leaves that token current. */
  lemma PrintNumber(m: Machine, d: string, fuel: nat)
    requires fuel >= 5 && m.cur == Token(Number, d)
    requires NextToken(m.src, m.pos).0.kind == Semi
    ensures var p := NextToken(m.src, m.pos).1;
            PrintStatement(m, fuel)
            == Done((), m.(pos := NextToken(m.src, p).1, cur := NextToken(m.src, p).0,
                           out := m.out + [ToText(NumberValue(ParseDecimal(d)))] + Complaint(m.src, p)))
  {
    var m2 := Advance(m);
    var v := NumberValue(ParseDecimal(d));
    assert Expression(m, fuel) == Done(v, m2) by {
      NumberExpression(m, d, fuel);
    }
  }

  /** A number followed by ';' is an expression on its own: its value, with the ';' current. */
  lemma NumberExpression(m: Machine, d: string, fuel: nat)
    requires fuel >= 5 && m.cur == Token(Number, d)
    requires NextToken(m.src, m.pos).0.kind == Semi
    ensures Expression(m, fuel) == Done(NumberValue(ParseDecimal(d)), Advance(m))
  {
    var m2 := Advance(m);
    var v := NumberValue(ParseDecimal(d));
    assert Factor(m, fuel - 4) == Done(v, m2);
    assert Term(m, fuel - 3) == Done(v, m2);
    assert Additive(m, fuel - 2) == Done(v, m2);
    assert Comparison(m, fuel - 1) == Done(v, m2);
  }

  /** The lexer's report goes to the same output as `print`, in order: in a text such as
      `print 1; @`, the statement after the keyword prints the number and then the report of the
      `@`, which leaves the end token current and so ends the run. */
  lemma ReportAfterPrint(m: Machine, q: nat, fuel: nat)
    requires fuel >= 5 && m.cur == Token(Number, "1") && m.out == []
    requires NextToken(m.src, m.pos) == (Token(Semi, ";"), q)
    requires SkipSpaces(m.src, q) < |m.src| && m.src[SkipSpaces(m.src, q)] == '@'
    ensures PrintStatement(m, fuel)
            == Done((), m.(pos := SkipSpaces(m.src, q) + 1, cur := EndToken,
                           out := ["1.", "Unknown Token: @"]))
  {
    var d := m.cur.text;
    var next := NextToken(m.src, q);
    var lines := m.out + [ToText(NumberValue(ParseDecimal(d)))] + Complaint(m.src, q);
    assert PrintStatement(m, fuel) == Done((), m.(pos := next.1, cur := next.0, out := lines)) by {
      PrintNumber(m, d, fuel);
    }
    OnePrints(d);
    AtSignReported(m.src, q);
    assert [] + ["1."] + ["Unknown Token: @"] == ["1.", "Unknown Token: @"];
  }

  /** An `@` is reported and read as the end token. */
  lemma AtSignReported(src: string, pos: nat)
    requires SkipSpaces(src, pos) < |src| && src[SkipSpaces(src, pos)] == '@'
    ensures NextToken(src, pos) == (EndToken, SkipSpaces(src, pos) + 1)
    ensures Complaint(src, pos) == ["Unknown Token: @"]
  {
    UnknownCharacter(src, pos);
    assert UnknownTokenLine('@') == "Unknown Token: @";
  }

  /** The numeral `1` reads as one and prints as `1.`. */
  lemma OnePrints(d: string)
    requires d == "1"
    ensures ToText(NumberValue(ParseDecimal(d))) == "1."
  {
    ParseDecimalOfNatText(1);
    FormatWhole(1);
    assert NatText(1) == "1";
  }
}

=== FILE: tiny_lexer.dfy ===
/** The scanner of the single-pass interpreter: from a position in the source text to the next
    token and the position after it. */
module TinyLexer {
  import opened Chars

  datatype Kind =
    | Id | Number | Str
    | Let | Const | If | Else | While | Print
    | Plus | Minus | Mul | Div | Assign | Eq | Gt | Lt | And | Or
    | LParen | RParen | LBrace | RBrace | Semi
    | End

  datatype Token = Token(kind: Kind, text: string)

  const EndToken := Token(End, "")

  /** The reserved words and the token kind each one is scanned as. */
  const Keywords: map<string, Kind> :=
    map["let" := Let, "const" := Const, "if" := If, "else" := Else, "while" := While, "print" := Print]

  /** The comparison chain that turns a scanned word into a keyword or an identifier. */
  function WordKind(w: string): Kind {
    if w == "let" then Let
    else if w == "const" then Const
    else if w == "if" then If
    else if w == "else" then Else
    else if w == "while" then While
    else if w == "print" then Print
    else Id
  }

  /** The token for a character that starts neither a number, a string nor a word; `next` is
      the position just after that character. Unknown characters, and a single `&` or `|`,
      give the end token (after the source reports them). */
  function Symbol(src: string, c: char, next: nat): (Token, nat) {
    if c == '+' then (Token(Plus, "+"), next)
    else if c == '-' then (Token(Minus, "-"), next)
    else if c == '*' then (Token(Mul, "*"), next)
    else if c == '/' then (Token(Div, "/"), next)
    else if c == '(' then (Token(LParen, "("), next)
    else if c == ')' then (Token(RParen, ")"), next)
    else if c == '{' then (Token(LBrace, "{"), next)
    else if c == '}' then (Token(RBrace, "}"), next)
    else if c == ';' then (Token(Semi, ";"), next)
    else if c == '=' then
      if next < |src| && src[next] == '=' then (Token(Eq, "=="), next + 1) else (Token(Assign, "="), next)
    else if c == '&' then
      if next < |src| && src[next] == '&' then (Token(And, "&&"), next + 1) else (EndToken, next)
    else if c == '|' then
      if next < |src| && src[next] == '|' then (Token(Or, "||"), next + 1) else (EndToken, next)
    else if c == '>' then (Token(Gt, ">"), next)
    else if c == '<' then (Token(Lt, "<"), next)
    else (EndToken, next)
  }

  /** `Lexer::nextToken`. A string without its closing quote runs to the end of the source and
      still steps over the missing quote, so positions can reach one past the end. */
  function NextToken(src: string, pos: nat): (r: (Token, nat))
    // whitespace is skipped; the end token with no progress exactly when nothing is left
    ensures SkipSpaces(src, pos) >= |src| <==> r.1 == SkipSpaces(src, pos)
    ensures SkipSpaces(src, pos) >= |src| ==> r.0 == EndToken
    // otherwise at least one character is consumed, and never more than one past the end
    ensures SkipSpaces(src, pos) < |src| ==> SkipSpaces(src, pos) < r.1 <= |src| + 1
    ensures r.0.kind != End ==> r.0.text != [] || r.0.kind == Str
  {
    var p := SkipSpaces(src, pos);
    if p >= |src| then (EndToken, p)
    else
      var c := src[p];
      if IsDigit(c) then
        var e := RunEnd(src, p, IsNumberChar);
        (Token(Number, src[p..e]), e)
      else if c == '"' then
        var e := RunEnd(src, p + 1, NotQuote);
        (Token(Str, src[p + 1..e]), e + 1)
      else if IsAlpha(c) then
        var e := RunEnd(src, p, IsAlnum);
        (Token(WordKind(src[p..e]), src[p..e]), e)
      else
        Symbol(src, c, p + 1)
  }

  /** A run of letters and digits that starts with a letter is the keyword it spells, and an
      identifier when it spells none. */
  lemma WordToken(src: string, pos: nat)
    requires SkipSpaces(src, pos) < |src| && IsAlpha(src[SkipSpaces(src, pos)])
    ensures var p := SkipSpaces(src, pos);
            var w := NextToken(src, pos).0.text;
            && w == src[p..NextToken(src, pos).1]
            && |w| >= 1 && IsAlpha(w[0]) && (forall k :: 0 <= k < |w| ==> IsAlnum(w[k]))
            && (NextToken(src, pos).1 < |src| ==> !IsAlnum(src[NextToken(src, pos).1]))
            && NextToken(src, pos).0.kind == (if w in Keywords then Keywords[w] else Id)
  {
  }

  /** `==` is one equality token, a lone `=` is assignment. */
  lemma EqualsTokens(src: string, pos: nat)
    requires SkipSpaces(src, pos) < |src| && src[SkipSpaces(src, pos)] == '='
    ensures var p := SkipSpaces(src, pos);
            if p + 1 < |src| && src[p + 1] == '=' then NextToken(src, pos) == (Token(Eq, "=="), p + 2)
            else NextToken(src, pos) == (Token(Assign, "="), p + 1)
  {
  }

  /** `&&` and `||` need both characters: a lone `&` or `|` is consumed and ends the input. */
  lemma LogicalTokens(src: string, pos: nat)
    requires SkipSpaces(src, pos) < |src|
    requires src[SkipSpaces(src, pos)] == '&' || src[SkipSpaces(src, pos)] == '|'
    ensures var p := SkipSpaces(src, pos);
            var c := src[p];
            if p + 1 < |src| && src[p + 1] == c then
              NextToken(src, pos) == (Token(if c == '&' then And else Or, [c, c]), p + 2)
            else NextToken(src, pos) == (EndToken, p + 1)
  {
  }

  /** Characters that start a token. */
  predicate Recognised(c: char) {
    IsDigit(c) || IsAlpha(c) || c in "\"+-*/(){};=&|<>"
  }

  /** An unrecognised character is consumed, yields the end token and is reported. */
  lemma UnknownCharacter(src: string, pos: nat)
    requires SkipSpaces(src, pos) < |src| && !Recognised(src[SkipSpaces(src, pos)])
    ensures NextToken(src, pos) == (EndToken, SkipSpaces(src, pos) + 1)
    ensures Complaint(src, pos) == [UnknownTokenLine(src[SkipSpaces(src, pos)])]
  {
  }

  /** The line `nextToken` writes to standard output for a character it cannot scan. */
  function UnknownTokenLine(c: char): string {
    "Unknown Token: " + [c]
  }

  predicate IsUnknownTokenLine(line: string) {
    |line| == 16 && line == UnknownTokenLine(line[15])
  }

  /** What `nextToken` writes while scanning from `pos`: one report when it gives up on a
      character, nothing otherwise. It gives up exactly on a character that starts no token and
      on a lone `&` or `|`. */
  function Complaint(src: string, pos: nat): (lines: seq<string>)
    ensures var p := SkipSpaces(src, pos);
            lines != [] <==> p < |src| && (!Recognised(src[p]) || LoneLogical(src, p))
    ensures lines != [] ==> lines == [UnknownTokenLine(src[SkipSpaces(src, pos)])]
    ensures forall k :: 0 <= k < |lines| ==> IsUnknownTokenLine(lines[k])
  {
    var p := SkipSpaces(src, pos);
    if p < |src| && NextToken(src, pos).0.kind == End then [UnknownTokenLine(src[p])] else []
  }

  /** An `&` or `|` at `p` that is not doubled. */
  predicate LoneLogical(src: string, p: nat)
    requires p < |src|
  {
    (src[p] == '&' || src[p] == '|') && !(p + 1 < |src| && src[p + 1] == src[p])
  }
}

=== FILE: tiny_scopes.dfy ===
/** The single-pass interpreter's variable store: a stack of scopes, global scope first,
    each mapping names to a value and a `const` flag. */
module TinyScopes {
  import opened Wrappers
  import opened TinyValues

  datatype Variable = Variable(val: TValue, isConst: bool)

  type Scope = map<string, Variable>

  type Scopes = seq<Scope>

  /** `findVar`: the index of the innermost scope that holds `name`. */
  function FindVar(scopes: Scopes, name: string): (r: Option<nat>)
    ensures r.Some? ==> r.value < |scopes| && name in scopes[r.value]
    ensures r.Some? ==> forall j :: r.value < j < |scopes| ==> name !in scopes[j]
    ensures r.None? <==> forall j :: 0 <= j < |scopes| ==> name !in scopes[j]
    decreases |scopes|
  {
    if scopes == [] then None
    else if name in scopes[|scopes| - 1] then Some(|scopes| - 1)
    else FindVar(scopes[..|scopes| - 1], name)
  }

  /** `declareVar`: add to the innermost scope, failing only when that scope already holds the
      name; every other scope is left as it was. */
  function DeclareVar(scopes: Scopes, name: string, v: TValue, isConst: bool): (r: Result<Scopes, string>)
    requires |scopes| >= 1
    ensures r.Err? <==> name in scopes[|scopes| - 1]
    ensures r.Ok? ==> |r.value| == |scopes|
    ensures r.Ok? ==> r.value[..|scopes| - 1] == scopes[..|scopes| - 1]
    ensures r.Ok? ==> r.value[|scopes| - 1] == scopes[|scopes| - 1][name := Variable(v, isConst)]
  {
    var top := |scopes| - 1;
    if name in scopes[top] then Err("Variable '" + name + "' already declared.")
    else Ok(scopes[top := scopes[top][name := Variable(v, isConst)]])
  }

  /** The assignment branch of `statement`, after the right-hand side is evaluated: an
      undeclared name or a `const` variable is an error that changes nothing; otherwise the
      nearest declaration takes the value and keeps its flag. */
  function AssignVar(scopes: Scopes, name: string, v: TValue): (r: Result<Scopes, string>)
    ensures r.Err? <==> FindVar(scopes, name).None? || scopes[FindVar(scopes, name).value][name].isConst
    ensures r.Ok? ==> |r.value| == |scopes|
    ensures r.Ok? ==> var i := FindVar(scopes, name).value;
                      && r.value[i] == scopes[i][name := Variable(v, false)]
                      && forall j :: 0 <= j < |scopes| && j != i ==> r.value[j] == scopes[j]
  {
    match FindVar(scopes, name)
    case None => Err("Variable not declared: " + name)
    case Some(i) =>
      if scopes[i][name].isConst then Err("Cannot reassign const variable: " + name)
      else Ok(scopes[i := scopes[i][name := Variable(v, false)]])
  }

  /** The value a name denotes: the one in its innermost scope. */
  function Value(scopes: Scopes, name: string): Option<TValue> {
    match FindVar(scopes, name)
    case None => None
    case Some(i) => Some(scopes[i][name].val)
  }

  /** Shadowing: a name bound only in an outer scope can be declared again in the innermost
      one; the new binding is the one found, and the outer one survives untouched. */
  lemma Shadowing(scopes: Scopes, name: string, v: TValue, isConst: bool, outer: nat)
    requires |scopes| >= 2 && outer < |scopes| - 1 && name in scopes[outer]
    requires name !in scopes[|scopes| - 1]
    ensures DeclareVar(scopes, name, v, isConst).Ok?
    ensures var s := DeclareVar(scopes, name, v, isConst).value;
            && Value(s, name) == Some(v)
            && s[outer][name] == scopes[outer][name]
  {
  }

  /** Assigning and then reading a name gives back the assigned value. */
  lemma AssignThenRead(scopes: Scopes, name: string, v: TValue)
    requires AssignVar(scopes, name, v).Ok?
    ensures Value(AssignVar(scopes, name, v).value, name) == Some(v)
  {
    var i := FindVar(scopes, name).value;
    var s := AssignVar(scopes, name, v).value;
    var k := FindVar(s, name);
    assert name in s[i];
    assert forall j :: i < j < |s| ==> s[j] == scopes[j];
  }
}

=== FILE: tiny_values.dfy ===
/** Values of the single-pass interpreter. The source's `Value` is a plain struct: its number,
    text and flag fields all exist whatever the tag says, and arithmetic updates the number
    field of the left operand without touching its tag. */
module TinyValues {
  import opened Numbers
  import opened TinyLexer

  datatype Tag = TNum | TStr | TBool | TNull

  datatype TValue = TValue(tag: Tag, num: Num, str: string, flag: bool)

  const Null := TValue(TNull, 0.0, "", false)

  function NumberValue(x: Num): TValue {
    TValue(TNum, x, "", false)
  }

  function StringValue(s: string): TValue {
    TValue(TStr, 0.0, s, false)
  }

  function BoolValue(b: bool): TValue {
    TValue(TBool, 0.0, "", b)
  }

  /** `Value::toString`: numbers through `Format`, strings as themselves, flags as words. */
  function ToText(v: TValue): (s: string)
    ensures v.tag == TStr ==> s == v.str
    ensures v.tag == TNull ==> s == "null"
    ensures v.tag == TBool ==> s == (if v.flag then "true" else "false")
    ensures v.tag == TNum ==> s == Format(v.num)
    // texts that only one tag besides a string can print
    ensures s == "" ==> v.tag == TStr
    ensures s == "null" <==> v.tag == TNull || (v.tag == TStr && v.str == "null")
    ensures s == "true" <==> (v.tag == TBool && v.flag) || (v.tag == TStr && v.str == "true")
    ensures s == "false" <==> (v.tag == TBool && !v.flag) || (v.tag == TStr && v.str == "false")
  {
    match v.tag
    case TNum => Format(v.num)
    case TStr => v.str
    case TBool => if v.flag then "true" else "false"
    case TNull => "null"
  }

  /** `Value::isTruthy`: the flag, a nonzero number, a non-empty string; null is false. */
  predicate IsTruthy(v: TValue)
    // a string is truthy exactly when it prints non-empty, a flag when it prints as true
    ensures v.tag == TStr ==> (IsTruthy(v) <==> ToText(v) != "")
    ensures v.tag == TBool ==> (IsTruthy(v) <==> ToText(v) == "true")
    // of the values printed as null, only the string "null" is truthy
    ensures ToText(v) == "null" ==> (IsTruthy(v) <==> v.tag == TStr)
  {
    match v.tag
    case TBool => v.flag
    case TNum => v.num != 0.0
    case TStr => v.str != ""
    case TNull => false
  }

  /** One step of `additive`, for `op` PLUS or MINUS: a string on either side makes the result
      the concatenation of both texts, whichever the operator; otherwise only the left
      operand's number changes. */
  function AddStep(op: Kind, left: TValue, right: TValue): (r: TValue)
    requires op == Plus || op == Minus
    ensures r.tag == TStr <==> (left.tag == TStr || right.tag == TStr)
    ensures r.tag == TStr ==> r.str == ToText(left) + ToText(right)
    ensures r.tag != TStr ==> r == left.(num := r.num)
    ensures r.tag != TStr && op == Plus ==> r.num == left.num + right.num
    ensures r.tag != TStr && op == Minus ==> r.num == left.num - right.num
  {
    if left.tag == TStr || right.tag == TStr then
      StringValue(ToText(left) + ToText(right))
    else if op == Plus then
      left.(num := left.num + right.num)
    else
      left.(num := left.num - right.num)
  }

  /** One step of `term`, for `op` MUL or DIV: only the left operand's number changes, whatever
      either tag is. */
  function MulStep(op: Kind, left: TValue, right: TValue): (r: TValue)
    requires op == Mul || op == Div
    ensures r == left.(num := r.num)
    ensures op == Mul ==> r.num == left.num * right.num
    ensures op == Div && right.num != 0.0 ==> r.num * right.num == left.num
  {
    if op == Mul then left.(num := left.num * right.num) else left.(num := Numbers.Div(left.num, right.num))
  }

  /** One step of `comparison`, for `op` GT, LT or EQ: always a flag, comparing the number
      fields only. */
  function CompareStep(op: Kind, left: TValue, right: TValue): (r: TValue)
    requires op == Gt || op == Lt || op == Eq
    ensures r.tag == TBool && r.num == 0.0 && r.str == ""
    ensures op == Gt ==> (r.flag <==> left.num > right.num)
    ensures op == Lt ==> (r.flag <==> left.num < right.num)
    ensures op == Eq ==> (r.flag <==> left.num == right.num)
  {
    var res :=
      if op == Gt then left.num > right.num
      else if op == Lt then left.num < right.num
      else left.num == right.num;
    BoolValue(res)
  }

  /** With a string operand `-` concatenates exactly as `+` does. */
  lemma MinusConcatenates(left: TValue, right: TValue)
    requires left.tag == TStr || right.tag == TStr
    ensures AddStep(Minus, left, right) == AddStep(Plus, left, right)
    ensures AddStep(Minus, left, right).str == ToText(left) + ToText(right)
  {
  }

  /** A comparison result is truthy exactly when the comparison holds. */
  lemma CompareTruthy(op: Kind, left: TValue, right: TValue)
    requires op == Gt || op == Lt || op == Eq
    ensures IsTruthy(CompareStep(op, left, right)) == CompareStep(op, left, right).flag
  {
  }

  /** Strings compare by their (zero) number fields, so any two strings are "equal". */
  lemma StringsCompareEqual(s: string, t: string)
    ensures IsTruthy(CompareStep(Eq, StringValue(s), StringValue(t)))
  {
  }

  /** Adding a number to a flag keeps the flag tag and its truth, but the hidden number it now
      carries changes how it compares: `true + 1 > 0` holds while `true > 0` does not. */
  lemma FlagCarriesNumber()
    ensures var t := AddStep(Plus, BoolValue(true), NumberValue(1.0));
            && t.tag == TBool && IsTruthy(t)
            && IsTruthy(CompareStep(Gt, t, NumberValue(0.0)))
            && !IsTruthy(CompareStep(Gt, BoolValue(true), NumberValue(0.0)))
  {
  }
}

=== FILE: v8_ast.dfy ===
/** The syntax tree of the tree-walking engine. Nodes are immutable; a function value shares
    its body node, which is evaluated afresh on every call. */
module V8Ast {
  import opened Numbers

  datatype Node =
    | Missing                                             // a null node pointer
    | NumLit(val: Num)                                    // NumberNode
    | StrLit(text: string)                                // StringNode
    | Ident(name: string)                                 // IdentifierNode
    | ArrayLit(elems: seq<Node>)                          // ArrayNode
    | BinOp(op: string, left: Node, right: Node)          // BinaryOpNode
    | Block(stmts: seq<Node>)                             // BlockNode
    | VarDecl(name: string, init: Node)                   // VarDeclNode; a Missing init means null
    | If(cond: Node, thenB: Node, elseB: Node)            // IfNode; a Missing else means none
    | While(cond: Node, body: Node)                       // WhileNode
    | FunDecl(name: string, params: seq<string>, body: Node)  // FunctionDeclNode
    | Call(callee: string, args: seq<Node>)               // CallNode
}

=== FILE: v8_env.dfy ===
/** The environment chain of the tree-walking engine, as an arena of frames. A frame holds its
    own bindings and names its parent frame; closures name the frame they captured. The arena
    never frees a frame, so a frame shared by a call and any number of closures (cycles
    included) stays reachable for as long as anything names it. */
module V8Env {
  import opened Wrappers
  import opened V8Values

  datatype Frame = Frame(vars: map<string, Value>, parent: Option<FrameId>)

  /** Frames by index. A frame's parent always existed before it, so it has a smaller index. */
  type Heap = seq<Frame>

  /** A frame's parent, when the link names an older frame. The engine appends each new frame
      with an existing frame as its parent; the guard stands in for that arena invariant, which
      the model does not prove, and keeps the walk well founded. */
  function Parent(h: Heap, id: FrameId): (p: Option<FrameId>)
    requires id < |h|
    ensures p.Some? ==> p.value < id
  {
    match h[id].parent
    case Some(q) => if q < id then Some(q) else None
    case None => None
  }

  /** The frames a lookup starting at `id` visits, innermost first. */
  function Chain(h: Heap, id: FrameId): (c: seq<FrameId>)
    ensures id < |h| <==> c != []
    ensures c != [] ==> c[0] == id
    ensures forall k :: 0 <= k < |c| ==> c[k] < |h|
    decreases id
  {
    if id >= |h| then []
    else
      match Parent(h, id)
      case None => [id]
      case Some(p) => [id] + Chain(h, p)
  }

  /** The position in `c` of the first frame that holds `name`, if any. */
  function FirstHolder(h: Heap, c: seq<FrameId>, name: string): (k: Option<nat>)
    requires forall j :: 0 <= j < |c| ==> c[j] < |h|
    ensures k.Some? ==> k.value < |c| && name in h[c[k.value]].vars
    ensures k.Some? ==> forall j :: 0 <= j < k.value ==> name !in h[c[j]].vars
    ensures k.None? ==> forall j :: 0 <= j < |c| ==> name !in h[c[j]].vars
  {
    if c == [] then None
    else if name in h[c[0]].vars then Some(0)
    else
      match FirstHolder(h, c[1..], name)
      case None => None
      case Some(k) => Some(k + 1)
  }

  /** The innermost frame on the chain from `id` that binds `name`. */
  function Holder(h: Heap, id: FrameId, name: string): Option<FrameId> {
    var c := Chain(h, id);
    match FirstHolder(h, c, name)
    case None => None
    case Some(k) => Some(c[k])
  }

  /** `Environment::define`: bind in this frame only, overwriting silently. */
  function Define(h: Heap, id: FrameId, name: string, v: Value): (h': Heap)
    requires id < |h|
    ensures |h'| == |h|
    ensures h'[id].vars == h[id].vars[name := v] && h'[id].parent == h[id].parent
    ensures forall j :: 0 <= j < |h| && j != id ==> h'[j] == h[j]
  {
    h[id := h[id].(vars := h[id].vars[name := v])]
  }

  /** `Environment::lookup`: this frame's binding, else the parent's lookup, else "Undefined
      variable" (here `None`). */
  function Lookup(h: Heap, id: FrameId, name: string): Option<Value>
    decreases id
  {
    if id >= |h| then None
    else if name in h[id].vars then Some(h[id].vars[name])
    else
      match Parent(h, id)
      case None => None
      case Some(p) => Lookup(h, p, name)
  }

  /** `Environment::assign`: overwrite in this frame if it binds the name, else assign in the
      parent, else "Cannot assign to undefined variable" (here `None`). */
  function Assign(h: Heap, id: FrameId, name: string, v: Value): (r: Option<Heap>)
    // it fails exactly when `lookup` fails
    ensures r.Some? <==> Lookup(h, id, name).Some?
    decreases id
  {
    if id >= |h| then None
    else if name in h[id].vars then Some(Define(h, id, name, v))
    else
      match Parent(h, id)
      case None => None
      case Some(p) => Assign(h, p, name, v)
  }

  lemma {:induction false} HolderStep(h: Heap, id: FrameId, name: string)
    requires id < |h| && name !in h[id].vars
    ensures Holder(h, id, name) == (match Parent(h, id) case None => None case Some(p) => Holder(h, p, name))
  {
    var c := Chain(h, id);
    match Parent(h, id)
    case None =>
      assert c == [id];
    case Some(p) =>
      assert c[1..] == Chain(h, p);
  }

  /** `lookup` finds the binding of the innermost frame on the chain that holds the name, and
      fails exactly when no frame on the chain holds it. */
  lemma {:induction false} LookupFindsInnermost(h: Heap, id: FrameId, name: string)
    ensures Lookup(h, id, name) == (match Holder(h, id, name)
                                    case None => None
                                    case Some(f) => Some(h[f].vars[name]))
    decreases id
  {
    if id < |h| {
      if name !in h[id].vars {
        HolderStep(h, id, name);
        match Parent(h, id)
        case None =>
        case Some(p) => LookupFindsInnermost(h, p, name);
      }
    }
  }

  /** `assign` overwrites the binding in exactly the frame `lookup` reads from and leaves every
      other frame as it was; it fails, changing nothing, exactly when `lookup` fails. */
  lemma {:induction false} AssignUpdatesInnermost(h: Heap, id: FrameId, name: string, v: Value)
    ensures Assign(h, id, name, v) == (match Holder(h, id, name)
                                       case None => None
                                       case Some(f) => Some(Define(h, f, name, v)))
    decreases id
  {
    if id < |h| {
      if name !in h[id].vars {
        HolderStep(h, id, name);
        match Parent(h, id)
        case None =>
        case Some(p) => AssignUpdatesInnermost(h, p, name, v);
      }
    }
  }

  /** A defined name is found from its own frame, with the value just stored. */
  lemma DefineThenLookup(h: Heap, id: FrameId, name: string, v: Value)
    requires id < |h|
    ensures Lookup(Define(h, id, name, v), id, name) == Some(v)
  {
  }

  /** After a successful assignment, a lookup from the same frame reads the new value. */
  lemma AssignThenLookup(h: Heap, id: FrameId, name: string, v: Value)
    requires Assign(h, id, name, v).Some?
    ensures Lookup(Assign(h, id, name, v).value, id, name) == Some(v)
  {
    AssignUpdatesInnermost(h, id, name, v);
    var f := Holder(h, id, name).value;
    var h' := Define(h, f, name, v);
    ChainOnlyParents(h, h', id);
    LookupFindsInnermost(h', id, name);
    var c := Chain(h, id);
    var k := FirstHolder(h, c, name).value;
    FirstHolderUpdated(h, h', c, name, k);
  }

  /** Chains depend only on the parent links. */
  lemma {:induction false} ChainOnlyParents(h: Heap, h': Heap, id: FrameId)
    requires |h| == |h'|
    requires forall j :: 0 <= j < |h| ==> h'[j].parent == h[j].parent
    ensures Chain(h', id) == Chain(h, id)
    decreases id
  {
    if id < |h| {
      assert Parent(h', id) == Parent(h, id);
      match Parent(h, id)
      case None =>
      case Some(p) => ChainOnlyParents(h, h', p);
    }
  }

  lemma FirstHolderUpdated(h: Heap, h': Heap, c: seq<FrameId>, name: string, k: nat)
    requires |h| == |h'|
    requires forall j :: 0 <= j < |c| ==> c[j] < |h|
    requires FirstHolder(h, c, name) == Some(k)
    requires forall j :: 0 <= j < |h| && j != c[k] ==> h'[j] == h[j]
    requires name in h'[c[k]].vars
    ensures FirstHolder(h', c, name) == Some(k)
    decreases |c|
  {
    if k > 0 {
      assert name !in h[c[0]].vars;
      assert c[0] != c[k] && c[1..][k - 1] == c[k];
      assert h'[c[0]] == h[c[0]];
      assert FirstHolder(h, c[1..], name) == Some(k - 1);
      FirstHolderUpdated(h, h', c[1..], name, k - 1);
    }
  }

  /** A new frame changes no lookup that starts from an older frame. */
  lemma {:induction false} LookupAppend(h: Heap, fr: Frame, id: FrameId, name: string)
    requires id < |h|
    ensures Lookup(h + [fr], id, name) == Lookup(h, id, name)
    decreases id
  {
    assert (h + [fr])[id] == h[id];
    assert Parent(h + [fr], id) == Parent(h, id);
    if name !in h[id].vars {
      match Parent(h, id)
      case None =>
      case Some(p) => LookupAppend(h, fr, p, name);
    }
  }

  /** Lexical scope: a name a call frame does not bind is looked up from the frame it names
      as its parent (the closure), whatever frame the call was made from. */
  lemma CallFrameLookup(h: Heap, vars: map<string, Value>, closure: FrameId, name: string)
    requires closure < |h|
    ensures Lookup(h + [Frame(vars, Some(closure))], |h|, name)
            == if name in vars then Some(vars[name]) else Lookup(h, closure, name)
  {
    var h' := h + [Frame(vars, Some(closure))];
    assert h'[|h|] == Frame(vars, Some(closure));
    if name !in vars {
      assert Parent(h', |h|) == Some(closure);
      LookupAppend(h, Frame(vars, Some(closure)), closure, name);
    }
  }
}

=== FILE: v8_eval.dfy ===
/** Evaluation of the tree-walking engine: one fuelled recursive evaluator over the syntax tree,
    threading the frame arena, the printed lines and the task queue. */
module V8Eval {
  import opened Wrappers
  import opened Numbers
  import opened V8Ast
  import opened V8Values
  import opened V8Env

  /** A deferred callback: the time it becomes due and the function body to run, with the
      frame its function captured. */
  datatype Task = Task(executeTime: int, body: Node, closure: FrameId)

  /** Everything evaluation can change: the frames, the printed lines, the task queue. */
  datatype State = State(heap: Heap, out: seq<string>, tasks: seq<Task>)

  /** The two errors evaluation throws. */
  datatype EvalError = UndefinedVariable(name: string) | NotAFunction(name: string)

  /** Why evaluation gives no answer: the fuel ran out, or a null node was evaluated, which
      the source leaves undefined. */
  datatype Halt = OutOfFuel | NullNode

  /** A value and the state after it; a thrown error and the state at the throw (side effects
      already made are kept); or no answer. */
  datatype Outcome = Done(val: Value, st: State) | Threw(err: EvalError, st: State) | Halted(why: Halt)

  datatype ListOutcome = ValuesDone(vals: seq<Value>, st: State) | ValuesThrew(err: EvalError, st: State) | ValuesHalted(why: Halt)

  /** What evaluation can do to a state: add frames, bind or rebind names in existing frames
      (never unbinding one or relinking a frame), and append printed lines and tasks. */
  predicate Extends(s: State, t: State) {
    && |s.heap| <= |t.heap|
    && (forall j :: 0 <= j < |s.heap| ==> t.heap[j].parent == s.heap[j].parent)
    && (forall j :: 0 <= j < |s.heap| ==> s.heap[j].vars.Keys <= t.heap[j].vars.Keys)
    && |s.out| <= |t.out| && t.out[..|s.out|] == s.out
    && |s.tasks| <= |t.tasks| && t.tasks[..|s.tasks|] == s.tasks
  }

  lemma ExtendsTransitive(s: State, t: State, u: State)
    requires Extends(s, t) && Extends(t, u)
    ensures Extends(s, u)
  {
    assert u.out[..|s.out|] == u.out[..|t.out|][..|s.out|];
    assert u.tasks[..|s.tasks|] == u.tasks[..|t.tasks|][..|s.tasks|];
  }

  /** The frame of a call: parameters bound positionally, for supplied arguments only. */
  function BindParams(params: seq<string>, args: seq<Value>): (m: map<string, Value>)
    ensures forall x :: x in m <==> x in params[..Min(|params|, |args|)]
    ensures forall i :: 0 <= i < |params| && i < |args| &&
                        (forall j :: i < j < |params| && j < |args| ==> params[j] != params[i])
                        ==> params[i] in m && m[params[i]] == args[i]
  {
    var n := Min(|params|, |args|);
    BindFirstValues(params, args, n);
    var m := BindFirst(params, args, n);
    assert forall i :: 0 <= i < n && (forall j :: i < j < n ==> params[j] != params[i]) ==> LastOfName(params, i, n);
    m
  }

  function Min(a: nat, b: nat): nat {
    if a < b then a else b
  }

  /** The first `n` parameters bound in order; a later parameter of the same name overwrites
      an earlier one. */
  function BindFirst(params: seq<string>, args: seq<Value>, n: nat): (m: map<string, Value>)
    requires n <= |params| && n <= |args|
    ensures forall x :: x in m <==> x in params[..n]
    decreases n
  {
    if n == 0 then map[]
    else
      var m0 := BindFirst(params, args, n - 1);
      assert params[..n] == params[..n - 1] + [params[n - 1]];
      m0[params[n - 1] := args[n - 1]]
  }

  /** No parameter after position `i` and before `n` has the name of parameter `i`. */
  predicate LastOfName(params: seq<string>, i: nat, n: nat)
    requires i < n <= |params|
  {
    forall j :: i < j < n ==> params[j] != params[i]
  }

  /** A parameter that no later bound parameter repeats holds its own argument. */
  lemma {:induction false} BindFirstValues(params: seq<string>, args: seq<Value>, n: nat)
    requires n <= |params| && n <= |args|
    ensures forall i :: 0 <= i < n && LastOfName(params, i, n)
                        ==> params[i] in BindFirst(params, args, n) && BindFirst(params, args, n)[params[i]] == args[i]
    decreases n
  {
    if n > 0 {
      BindFirstValues(params, args, n - 1);
      var m := BindFirst(params, args, n);
      var m0 := BindFirst(params, args, n - 1);
      assert m == m0[params[n - 1] := args[n - 1]];
      forall i | 0 <= i < n && LastOfName(params, i, n)
        ensures params[i] in m && m[params[i]] == args[i]
      {
        if i < n - 1 {
          assert params[n - 1] != params[i];
          assert LastOfName(params, i, n - 1);
        }
      }
    }
  }

  /** The line the `print` native writes: each argument's text followed by a blank. */
  function PrintText(args: seq<Value>): (s: string)
    // no arguments make an empty line; otherwise the line ends with a blank
    ensures s == "" <==> args == []
    ensures args != [] ==> s[|s| - 1] == ' '
    ensures |s| >= |args|
  {
    if args == [] then "" else ToString(args[0]) + " " + PrintText(args[1..])
  }

  /** The `setTimeout` native: with fewer than two arguments, or a first argument that is not a
      user function, it does nothing; otherwise it appends a task due `delay` after `now`. */
  function SetTimeout(st: State, args: seq<Value>, now: int): (st': State)
    ensures st'.heap == st.heap && st'.out == st.out
    // every queued task is kept, and at most one is added: exactly when it was given a user
    // function and a delay
    ensures |st.tasks| <= |st'.tasks| <= |st.tasks| + 1 && st'.tasks[..|st.tasks|] == st.tasks
    ensures |st'.tasks| == |st.tasks| + 1 <==> |args| >= 2 && args[0].VFunc?
    ensures |args| < 2 || !args[0].VFunc? ==> st' == st
    ensures |args| >= 2 && args[0].VFunc? ==>
              st'.tasks == st.tasks + [Task(now + TruncToInt(NumVal(args[1])), args[0].body, args[0].closure)]
  {
    if |args| < 2 || !args[0].VFunc? then st
    else
      var delay := TruncToInt(NumVal(args[1]));
      st.(tasks := st.tasks + [Task(now + delay, args[0].body, args[0].closure)])
  }

  /** `ASTNode::eval` against frame `env`. `now` is the clock reading `setTimeout` uses. */
  function Eval(n: Node, env: FrameId, st: State, now: int, fuel: nat): (r: Outcome)
    requires env < |st.heap|
    ensures !r.Halted? ==> Extends(st, r.st)
    decreases fuel
  {
    if fuel == 0 then Halted(OutOfFuel)
    else
      match n
      case Missing => Halted(NullNode)
      case NumLit(x) => Done(VNum(x), st)
      case StrLit(s) => Done(VStr(s), st)
      case Ident(x) =>
        (match Lookup(st.heap, env, x)
         case Some(v) => Done(v, st)
         case None => Threw(UndefinedVariable(x), st))
      case ArrayLit(es) =>
        (match EvalList(es, env, st, now, fuel - 1)
         case ValuesDone(vs, st1) => Done(VList(vs), st1)
         case ValuesThrew(e, st1) => Threw(e, st1)
         case ValuesHalted(h) => Halted(h))
      case BinOp(op, l, r) => EvalBinary(op, l, r, env, st, now, fuel - 1)
      case Block(ss) => EvalBlock(ss, env, VNull, st, now, fuel - 1)
      case VarDecl(x, init) => EvalVarDecl(x, init, env, st, now, fuel - 1)
      case If(c, t, e) => EvalIf(c, t, e, env, st, now, fuel - 1)
      case While(c, b) => EvalWhile(c, b, env, st, now, fuel - 1)
      case FunDecl(x, ps, b) =>
        var f := VFunc(ps, b, env);
        Done(f, st.(heap := Define(st.heap, env, x, f)))
      case Call(callee, args) => EvalCall(callee, args, env, st, now, fuel - 1)
  }

  /** Elements or arguments, left to right. */
  function EvalList(ns: seq<Node>, env: FrameId, st: State, now: int, fuel: nat): (r: ListOutcome)
    requires env < |st.heap|
    ensures !r.ValuesHalted? ==> Extends(st, r.st)
    ensures r.ValuesDone? ==> |r.vals| == |ns|
    decreases fuel
  {
    if ns == [] then ValuesDone([], st)
    else if fuel == 0 then ValuesHalted(OutOfFuel)
    else
      match Eval(ns[0], env, st, now, fuel - 1)
      case Done(v, st1) =>
        (match EvalList(ns[1..], env, st1, now, fuel - 1)
         case ValuesDone(vs, st2) => ValuesDone([v] + vs, st2)
         case ValuesThrew(e, st2) => ValuesThrew(e, st2)
         case ValuesHalted(h) => ValuesHalted(h))
      case Threw(e, st1) => ValuesThrew(e, st1)
      case Halted(h) => ValuesHalted(h)
  }

  /** Both operands, left first, then the operator's rule. */
  function EvalBinary(op: string, l: Node, r: Node, env: FrameId, st: State, now: int, fuel: nat): (res: Outcome)
    requires env < |st.heap|
    ensures !res.Halted? ==> Extends(st, res.st)
    decreases fuel
  {
    if fuel == 0 then Halted(OutOfFuel)
    else
      match Eval(l, env, st, now, fuel - 1)
      case Done(lv, st1) =>
        (match Eval(r, env, st1, now, fuel - 1)
         case Done(rv, st2) => Done(ApplyBinary(op, lv, rv), st2)
         case Threw(e, st2) => Threw(e, st2)
         case Halted(h) => Halted(h))
      case Threw(e, st1) => Threw(e, st1)
      case Halted(h) => Halted(h)
  }

  /** The statements of a block, in order and in the frame the block was given; `last` is the
      value of the statement before (null to begin with). */
  function EvalBlock(ss: seq<Node>, env: FrameId, last: Value, st: State, now: int, fuel: nat): (r: Outcome)
    requires env < |st.heap|
    ensures !r.Halted? ==> Extends(st, r.st)
    decreases fuel
  {
    if ss == [] then Done(last, st)
    else if fuel == 0 then Halted(OutOfFuel)
    else
      match Eval(ss[0], env, st, now, fuel - 1)
      case Done(v, st1) => EvalBlock(ss[1..], env, v, st1, now, fuel - 1)
      case Threw(e, st1) => Threw(e, st1)
      case Halted(h) => Halted(h)
  }

  /** The initialiser (null when absent), then a binding in the current frame. */
  function EvalVarDecl(x: string, init: Node, env: FrameId, st: State, now: int, fuel: nat): (r: Outcome)
    requires env < |st.heap|
    ensures !r.Halted? ==> Extends(st, r.st)
    decreases fuel
  {
    if fuel == 0 then Halted(OutOfFuel)
    else
      if init.Missing? then Done(VNull, st.(heap := Define(st.heap, env, x, VNull)))
      else
        match Eval(init, env, st, now, fuel - 1)
        case Done(v, st1) => Done(v, st1.(heap := Define(st1.heap, env, x, v)))
        case Threw(err, st1) => Threw(err, st1)
        case Halted(h) => Halted(h)
  }

  /** The branch is chosen by the `if` rule of truthiness; with no else branch a false
      condition yields null. */
  function EvalIf(c: Node, t: Node, e: Node, env: FrameId, st: State, now: int, fuel: nat): (r: Outcome)
    requires env < |st.heap|
    ensures !r.Halted? ==> Extends(st, r.st)
    decreases fuel
  {
    if fuel == 0 then Halted(OutOfFuel)
    else
      match Eval(c, env, st, now, fuel - 1)
      case Done(cv, st1) =>
        if IfTruthy(cv) then Eval(t, env, st1, now, fuel - 1)
        else if e.Missing? then Done(VNull, st1)
        else Eval(e, env, st1, now, fuel - 1)
      case Threw(err, st1) => Threw(err, st1)
      case Halted(h) => Halted(h)
  }

  /** The condition before every round; the loop yields null. */
  function EvalWhile(c: Node, b: Node, env: FrameId, st: State, now: int, fuel: nat): (r: Outcome)
    requires env < |st.heap|
    ensures !r.Halted? ==> Extends(st, r.st)
    ensures r.Done? ==> r.val == VNull
    decreases fuel
  {
    if fuel == 0 then Halted(OutOfFuel)
    else
      match Eval(c, env, st, now, fuel - 1)
      case Done(cv, st1) =>
        if WhileStops(cv) then Done(VNull, st1)
        else
          (match Eval(b, env, st1, now, fuel - 1)
           case Done(_, st2) => EvalWhile(c, b, env, st2, now, fuel - 1)
           case Threw(err, st2) => Threw(err, st2)
           case Halted(h) => Halted(h))
      case Threw(err, st1) => Threw(err, st1)
      case Halted(h) => Halted(h)
  }

  /** The callee is looked up first, then the arguments are evaluated left to right in the
      caller's frame. */
  function EvalCall(callee: string, args: seq<Node>, env: FrameId, st: State, now: int, fuel: nat): (r: Outcome)
    requires env < |st.heap|
    ensures !r.Halted? ==> Extends(st, r.st)
    decreases fuel
  {
    if fuel == 0 then Halted(OutOfFuel)
    else
      match Lookup(st.heap, env, callee)
      case None => Threw(UndefinedVariable(callee), st)
      case Some(f) =>
        match EvalList(args, env, st, now, fuel - 1)
        case ValuesDone(vs, st1) => Apply(f, callee, vs, st1, now, fuel - 1)
        case ValuesThrew(e, st1) => Threw(e, st1)
        case ValuesHalted(h) => Halted(h)
  }

  /** Calling a value: a native runs directly; a user function runs its body in a new frame
      whose parent is the closure, not the caller; anything else is "Not a function". */
  function Apply(f: Value, callee: string, args: seq<Value>, st: State, now: int, fuel: nat): (r: Outcome)
    ensures !r.Halted? ==> Extends(st, r.st)
    decreases fuel
  {
    match f
    case VNative(PrintFn) => Done(VNull, st.(out := st.out + [PrintText(args)]))
    case VNative(SetTimeoutFn) => Done(VNull, SetTimeout(st, args, now))
    case VFunc(ps, body, closure) =>
      if fuel == 0 then Halted(OutOfFuel)
      else
        var st1 := st.(heap := st.heap + [Frame(BindParams(ps, args), Some(closure))]);
        Eval(body, |st.heap|, st1, now, fuel - 1)
    case _ => Threw(NotAFunction(callee), st)
  }
}

=== FILE: v8_eval_lemmas.dfy ===
/** What evaluation does with declarations, blocks, conditions, loops and calls. */
module V8EvalLemmas {
  import opened Wrappers
  import opened Numbers
  import opened V8Ast
  import opened V8Values
  import opened V8Env
  import opened V8Eval

  /** `var x = e` binds `x` in the current frame to the value the statement yields, null when
      there is no initialiser; declaring a name the frame already binds simply replaces it. */
  lemma VarDeclBinds(x: string, init: Node, env: FrameId, st: State, now: int, fuel: nat)
    requires env < |st.heap|
    ensures var r := Eval(VarDecl(x, init), env, st, now, fuel);
            r.Done? ==> Lookup(r.st.heap, env, x) == Some(r.val)
    ensures var r := Eval(VarDecl(x, init), env, st, now, fuel);
            r.Done? && init.Missing? ==> r.val == VNull
    ensures fuel >= 3 && (init.Missing? || init.NumLit? || init.StrLit?) ==>
            Eval(VarDecl(x, init), env, st, now, fuel).Done?
    ensures fuel >= 2 && init.Missing? ==>
            Eval(VarDecl(x, init), env, st, now, fuel) == Done(VNull, st.(heap := Define(st.heap, env, x, VNull)))
    ensures fuel >= 2 && !init.Missing? ==>
            var e := Eval(init, env, st, now, fuel - 2);
            var r := Eval(VarDecl(x, init), env, st, now, fuel);
            && (e.Done? ==> r == Done(e.val, e.st.(heap := Define(e.st.heap, env, x, e.val))))
            && (e.Threw? ==> r == Threw(e.err, e.st))
            && (e.Halted? ==> r == e)
  {
    var r := Eval(VarDecl(x, init), env, st, now, fuel);
    if fuel >= 2 {
      assert r == EvalVarDecl(x, init, env, st, now, fuel - 1);
      if init.Missing? {
        DefineThenLookup(st.heap, env, x, VNull);
      } else {
        var e := Eval(init, env, st, now, fuel - 2);
        if e.Done? {
          DefineThenLookup(e.st.heap, env, x, e.val);
        }
        if fuel >= 3 && (init.NumLit? || init.StrLit?) {
          assert e.Done?;
        }
      }
    }
  }

  /** A block opens no frame: a declaration inside it is still bound in the enclosing frame
      afterwards, and the block yields its last statement's value. */
  lemma BlockOpensNoFrame(x: string, c: Num, env: FrameId, st: State, now: int, fuel: nat)
    requires env < |st.heap| && fuel >= 5
    ensures var r := Eval(Block([VarDecl(x, NumLit(c))]), env, st, now, fuel);
            && r.Done? && r.val == VNum(c)
            && |r.st.heap| == |st.heap|
            && Lookup(r.st.heap, env, x) == Some(VNum(c))
  {
    var h := Define(st.heap, env, x, VNum(c));
    var ss := [VarDecl(x, NumLit(c))];
    assert Eval(NumLit(c), env, st, now, fuel - 4) == Done(VNum(c), st);
    assert EvalVarDecl(x, NumLit(c), env, st, now, fuel - 3) == Done(VNum(c), st.(heap := h));
    assert Eval(ss[0], env, st, now, fuel - 2) == Done(VNum(c), st.(heap := h));
    assert ss[1..] == [];
    assert EvalBlock([], env, VNum(c), st.(heap := h), now, fuel - 2) == Done(VNum(c), st.(heap := h));
    assert EvalBlock(ss, env, VNull, st, now, fuel - 1) == Done(VNum(c), st.(heap := h));
    DefineThenLookup(st.heap, env, x, VNum(c));
  }

  /** Any block is the block of all its statements but the last, followed by the last
      statement in the same frame: a block opens no frame, and yields its last statement's
      value. */
  lemma BlockYieldsLast(ss: seq<Node>, env: FrameId, st: State, now: int, fuel: nat)
    requires env < |st.heap| && ss != []
    requires Eval(Block(ss), env, st, now, fuel).Done?
    ensures |ss| < fuel
    ensures var pre := Eval(Block(ss[..|ss| - 1]), env, st, now, fuel);
            && pre.Done? && env < |pre.st.heap|
            && Eval(ss[|ss| - 1], env, pre.st, now, fuel - 1 - |ss|) == Eval(Block(ss), env, st, now, fuel)
  {
    BlockStatement(ss, env, VNull, st, now, fuel - 1, |ss| - 1);
  }

  /** Statement `i` of a block that finishes runs in the block's frame, in the state the
      statements before it left, and finishes too; the last one's outcome is the block's. */
  lemma BlockStatement(ss: seq<Node>, env: FrameId, last: Value, st: State, now: int, fuel: nat, i: nat)
    requires env < |st.heap| && i < |ss|
    requires EvalBlock(ss, env, last, st, now, fuel).Done?
    ensures i < fuel
    ensures var pre := EvalBlock(ss[..i], env, last, st, now, fuel);
            && pre.Done? && env < |pre.st.heap|
            && Eval(ss[i], env, pre.st, now, fuel - 1 - i).Done?
    ensures i == |ss| - 1 ==>
            var pre := EvalBlock(ss[..i], env, last, st, now, fuel);
            Eval(ss[i], env, pre.st, now, fuel - 1 - i) == EvalBlock(ss, env, last, st, now, fuel)
  {
    assert ss[..i] + ss[i..] == ss;
    BlockSplit(ss[..i], ss[i..], env, last, st, now, fuel);
    var tail := ss[i..];
    assert tail[0] == ss[i];
    if i == |ss| - 1 {
      assert tail[1..] == [];
    }
  }

  /** Running the block `a + b` runs `a`, then `b` from the state and value `a` left. */
  lemma {:induction false} BlockSplit(a: seq<Node>, b: seq<Node>, env: FrameId, last: Value, st: State,
                                      now: int, fuel: nat)
    requires env < |st.heap| && b != []
    requires EvalBlock(a + b, env, last, st, now, fuel).Done?
    ensures |a| < fuel
    ensures var pre := EvalBlock(a, env, last, st, now, fuel);
            && pre.Done? && env < |pre.st.heap|
            && EvalBlock(b, env, pre.val, pre.st, now, fuel - |a|) == EvalBlock(a + b, env, last, st, now, fuel)
    decreases a
  {
    if a == [] {
      assert a + b == b;
    } else {
      var ab := a + b;
      assert ab[0] == a[0] && ab[1..] == a[1..] + b;
      var e := Eval(a[0], env, st, now, fuel - 1);
      assert EvalBlock(ab, env, last, st, now, fuel) == EvalBlock(a[1..] + b, env, e.val, e.st, now, fuel - 1);
      BlockSplit(a[1..], b, env, e.val, e.st, now, fuel - 1);
      assert EvalBlock(a, env, last, st, now, fuel) == EvalBlock(a[1..], env, e.val, e.st, now, fuel - 1);
    }
  }

  /** The null statement that `{ }` parses to as written stops any block it is in. */
  lemma NullStatementHalts(env: FrameId, st: State, now: int, fuel: nat)
    requires env < |st.heap|
    ensures Eval(Block([Missing]), env, st, now, fuel).Halted?
    ensures fuel >= 3 ==> Eval(Block([Missing]), env, st, now, fuel) == Halted(NullNode)
  {
    if fuel >= 3 {
      assert Eval(Missing, env, st, now, fuel - 2) == Halted(NullNode);
      assert EvalBlock([Missing], env, VNull, st, now, fuel - 1) == Halted(NullNode);
    } else if fuel == 2 {
      assert Eval(Missing, env, st, now, 0) == Halted(OutOfFuel);
      assert EvalBlock([Missing], env, VNull, st, now, 1) == Halted(OutOfFuel);
    }
  }

  /** An empty block yields null and changes nothing. */
  lemma EmptyBlock(env: FrameId, st: State, now: int, fuel: nat)
    requires env < |st.heap| && fuel >= 1
    ensures Eval(Block([]), env, st, now, fuel) == Done(VNull, st)
  {
    assert EvalBlock([], env, VNull, st, now, fuel - 1) == Done(VNull, st);
  }

  /** A string condition takes the else branch of an `if`: with none, the `if` yields null. */
  lemma IfSkipsString(s: string, t: Node, env: FrameId, st: State, now: int, fuel: nat)
    requires env < |st.heap| && fuel >= 3
    ensures Eval(If(StrLit(s), t, Missing), env, st, now, fuel) == Done(VNull, st)
  {
    assert Eval(StrLit(s), env, st, now, fuel - 2) == Done(VStr(s), st);
    assert EvalIf(StrLit(s), t, Missing, env, st, now, fuel - 1) == Done(VNull, st);
  }

  /** `if` evaluates its condition once, in the same frame. A true flag or a nonzero number runs
      the then branch; any other value runs the else branch, or yields null when there is none.
      Either branch starts from the state the condition left. A condition that throws or halts
      is the outcome of the whole `if`. */
  lemma IfChoosesBranch(c: Node, t: Node, e: Node, env: FrameId, st: State, now: int, fuel: nat)
    requires env < |st.heap| && fuel >= 2
    ensures var cr := Eval(c, env, st, now, fuel - 2);
            var r := Eval(If(c, t, e), env, st, now, fuel);
            && (!cr.Done? ==> r == cr)
            && (cr.Done? && IfTruthy(cr.val) ==> r == Eval(t, env, cr.st, now, fuel - 2))
            && (cr.Done? && !IfTruthy(cr.val) && e.Missing? ==> r == Done(VNull, cr.st))
            && (cr.Done? && !IfTruthy(cr.val) && !e.Missing? ==> r == Eval(e, env, cr.st, now, fuel - 2))
  {
    assert Eval(If(c, t, e), env, st, now, fuel) == EvalIf(c, t, e, env, st, now, fuel - 1);
  }

  /** ... while the same condition never stops a `while`: no amount of fuel finishes it. */
  lemma WhileOnStringRunsForever(s: string, env: FrameId, st: State, now: int, fuel: nat)
    requires env < |st.heap|
    ensures Eval(While(StrLit(s), Block([])), env, st, now, fuel) == Halted(OutOfFuel)
  {
    if fuel > 0 {
      WhileLoopOnString(s, env, st, now, fuel - 1);
      assert Eval(While(StrLit(s), Block([])), env, st, now, fuel)
          == EvalWhile(StrLit(s), Block([]), env, st, now, fuel - 1);
    }
  }

  lemma {:induction false} WhileLoopOnString(s: string, env: FrameId, st: State, now: int, fuel: nat)
    requires env < |st.heap|
    ensures EvalWhile(StrLit(s), Block([]), env, st, now, fuel) == Halted(OutOfFuel)
    decreases fuel
  {
    if fuel >= 2 {
      assert Eval(StrLit(s), env, st, now, fuel - 1) == Done(VStr(s), st);
      assert Eval(Block([]), env, st, now, fuel - 1) == Done(VNull, st);
      WhileLoopOnString(s, env, st, now, fuel - 1);
    }
  }

  /** A loop that finishes did so on a condition that stops it: the condition's last
      evaluation, from some state the loop reached, left the state the loop ends in. */
  lemma {:induction false} WhileEndsOnStop(c: Node, b: Node, env: FrameId, st: State, now: int, fuel: nat)
    requires env < |st.heap|
    requires EvalWhile(c, b, env, st, now, fuel).Done?
    ensures exists s: State, k: nat :: env < |s.heap|
              && Eval(c, env, s, now, k).Done?
              && Eval(c, env, s, now, k).st == EvalWhile(c, b, env, st, now, fuel).st
              && WhileStops(Eval(c, env, s, now, k).val)
    decreases fuel
  {
    var e := Eval(c, env, st, now, fuel - 1);
    if WhileStops(e.val) {
      assert e.st == EvalWhile(c, b, env, st, now, fuel).st;
      assert env < |st.heap| && Eval(c, env, st, now, fuel - 1).Done?
             && Eval(c, env, st, now, fuel - 1).st == EvalWhile(c, b, env, st, now, fuel).st
             && WhileStops(Eval(c, env, st, now, fuel - 1).val);
    } else {
      var body := Eval(b, env, e.st, now, fuel - 1);
      assert EvalWhile(c, b, env, st, now, fuel) == EvalWhile(c, b, env, body.st, now, fuel - 1);
      WhileEndsOnStop(c, b, env, body.st, now, fuel - 1);
    }
  }

  /** Element `i` of a list that finishes is evaluated in the caller's frame, in the state the
      elements before it left, and its value is value `i` of the list: left to right, one value
      per element. */
  lemma ListElement(ns: seq<Node>, env: FrameId, st: State, now: int, fuel: nat, i: nat)
    requires env < |st.heap| && i < |ns|
    requires EvalList(ns, env, st, now, fuel).ValuesDone?
    ensures i < fuel
    ensures var r := EvalList(ns, env, st, now, fuel);
            var pre := EvalList(ns[..i], env, st, now, fuel);
            && pre.ValuesDone? && env < |pre.st.heap| && pre.vals == r.vals[..i]
            && Eval(ns[i], env, pre.st, now, fuel - 1 - i).Done?
            && Eval(ns[i], env, pre.st, now, fuel - 1 - i).val == r.vals[i]
    ensures i == |ns| - 1 ==>
            var pre := EvalList(ns[..i], env, st, now, fuel);
            Eval(ns[i], env, pre.st, now, fuel - 1 - i).st == EvalList(ns, env, st, now, fuel).st
  {
    var r := EvalList(ns, env, st, now, fuel);
    ListPrefix(ns, env, st, now, fuel, i);
    var pre := EvalList(ns[..i], env, st, now, fuel);
    var tail := ns[i..];
    assert tail[0] == ns[i];
    if i == |ns| - 1 {
      assert tail[1..] == [];
    }
  }

  /** A list that finishes evaluates its first `i` elements and then, from the state they
      left, the rest: the two parts' values make up the list's. */
  lemma ListPrefix(ns: seq<Node>, env: FrameId, st: State, now: int, fuel: nat, i: nat)
    requires env < |st.heap| && i < |ns|
    requires EvalList(ns, env, st, now, fuel).ValuesDone?
    ensures i < fuel
    ensures var r := EvalList(ns, env, st, now, fuel);
            var pre := EvalList(ns[..i], env, st, now, fuel);
            && pre.ValuesDone? && env < |pre.st.heap| && pre.vals == r.vals[..i]
            && EvalList(ns[i..], env, pre.st, now, fuel - i) == ValuesDone(r.vals[i..], r.st)
  {
    assert ns[..i] + ns[i..] == ns;
    ListSplit(ns[..i], ns[i..], env, st, now, fuel);
  }

  /** Evaluating `a + b` evaluates `a`, then `b` from the state `a` left. */
  lemma {:induction false} ListSplit(a: seq<Node>, b: seq<Node>, env: FrameId, st: State, now: int, fuel: nat)
    requires env < |st.heap| && b != []
    requires EvalList(a + b, env, st, now, fuel).ValuesDone?
    ensures |a| < fuel
    ensures var r := EvalList(a + b, env, st, now, fuel);
            var pre := EvalList(a, env, st, now, fuel);
            && pre.ValuesDone? && env < |pre.st.heap| && pre.vals == r.vals[..|a|]
            && EvalList(b, env, pre.st, now, fuel - |a|) == ValuesDone(r.vals[|a|..], r.st)
    decreases a
  {
    if a == [] {
      assert a + b == b;
    } else {
      var ab := a + b;
      assert ab[0] == a[0] && ab[1..] == a[1..] + b;
      var e := Eval(a[0], env, st, now, fuel - 1);
      var rest := EvalList(a[1..] + b, env, e.st, now, fuel - 1);
      assert EvalList(ab, env, st, now, fuel) == ValuesDone([e.val] + rest.vals, rest.st);
      ListSplit(a[1..], b, env, e.st, now, fuel - 1);
      var pre' := EvalList(a[1..], env, e.st, now, fuel - 1);
      assert EvalList(a, env, st, now, fuel) == ValuesDone([e.val] + pre'.vals, pre'.st);
      ConsSlices(e.val, rest.vals, |a| - 1);
    }
  }

  lemma ConsSlices<T>(x: T, xs: seq<T>, n: nat)
    requires n <= |xs|
    ensures ([x] + xs)[..n + 1] == [x] + xs[..n] && ([x] + xs)[n + 1..] == xs[n..]
  {
    assert ([x] + xs)[..n + 1] == [x] + xs[..n];
  }


  /** A binary operator evaluates its left operand, then its right operand in the state the
      left one left, both in the same frame, and applies the operator to the two values. A throw
      or halt on either side is the outcome, and the right side is not evaluated after the left
      one fails. */
  lemma BinaryOperands(op: string, l: Node, rn: Node, env: FrameId, st: State, now: int, fuel: nat)
    requires env < |st.heap| && fuel >= 2
    ensures var lr := Eval(l, env, st, now, fuel - 2);
            var r := Eval(BinOp(op, l, rn), env, st, now, fuel);
            && (!lr.Done? ==> r == lr)
            && (lr.Done? ==> var rr := Eval(rn, env, lr.st, now, fuel - 2);
                             && (rr.Done? ==> r == Done(ApplyBinary(op, lr.val, rr.val), rr.st))
                             && (!rr.Done? ==> r == rr))
  {
    assert Eval(BinOp(op, l, rn), env, st, now, fuel) == EvalBinary(op, l, rn, env, st, now, fuel - 1);
  }

  /** `l = e` for any operands: both sides are evaluated, with their effects kept, and the
      result is null; no variable is assigned beyond what the operands themselves did. */
  lemma AssignmentEvaluatesBoth(l: Node, rn: Node, env: FrameId, st: State, now: int, fuel: nat)
    requires env < |st.heap| && fuel >= 2
    requires Eval(l, env, st, now, fuel - 2).Done?
    ensures var lr := Eval(l, env, st, now, fuel - 2);
            var rr := Eval(rn, env, lr.st, now, fuel - 2);
            rr.Done? ==> Eval(BinOp("=", l, rn), env, st, now, fuel) == Done(VNull, rr.st)
  {
    BinaryOperands("=", l, rn, env, st, now, fuel);
  }

  /** `x = e` is the operator "=", which has no rule: it yields null and assigns nothing. */
  lemma AssignmentChangesNothing(x: string, c: Num, env: FrameId, st: State, now: int, fuel: nat)
    requires env < |st.heap| && fuel >= 3
    ensures Eval(BinOp("=", Ident(x), NumLit(c)), env, st, now, fuel)
            == if Lookup(st.heap, env, x).Some? then Done(VNull, st) else Threw(UndefinedVariable(x), st)
  {
    assert Eval(NumLit(c), env, st, now, fuel - 2) == Done(VNum(c), st);
    var l := Eval(Ident(x), env, st, now, fuel - 2);
    if l.Done? {
      assert ApplyBinary("=", l.val, VNum(c)) == VNull;
    }
    assert Eval(BinOp("=", Ident(x), NumLit(c)), env, st, now, fuel) == EvalBinary("=", Ident(x), NumLit(c), env, st, now, fuel - 1);
  }

  /** The callee is looked up before any argument is evaluated: an undefined callee throws
      with nothing changed, whatever the arguments would have done. */
  lemma UndefinedCalleeFirst(f: string, args: seq<Node>, env: FrameId, st: State, now: int, fuel: nat)
    requires env < |st.heap| && fuel >= 2
    requires Lookup(st.heap, env, f).None?
    ensures Eval(Call(f, args), env, st, now, fuel) == Threw(UndefinedVariable(f), st)
  {
  }

  /** A callee that is neither kind of function throws only after the arguments have been
      evaluated, keeping their effects. */
  lemma NotAFunctionAfterArguments(f: string, args: seq<Node>, env: FrameId, st: State, now: int, fuel: nat)
    requires env < |st.heap| && fuel >= 3
    requires Lookup(st.heap, env, f).Some?
    requires !Lookup(st.heap, env, f).value.VFunc? && !Lookup(st.heap, env, f).value.VNative?
    requires EvalList(args, env, st, now, fuel - 2).ValuesDone?
    ensures Eval(Call(f, args), env, st, now, fuel)
            == Threw(NotAFunction(f), EvalList(args, env, st, now, fuel - 2).st)
  {
    var a := EvalList(args, env, st, now, fuel - 2);
    assert Apply(Lookup(st.heap, env, f).value, f, a.vals, a.st, now, fuel - 2) == Threw(NotAFunction(f), a.st);
    assert EvalCall(f, args, env, st, now, fuel - 1) == Threw(NotAFunction(f), a.st);
  }

  /** A function declaration binds the function in the current frame and captures that frame,
      so a call frame built for it (parent: the closure) finds the function's own name:
      recursion works unless a parameter shadows the name. */
  lemma FunctionSeesItself(f: string, ps: seq<string>, b: Node, args: seq<Value>,
                           env: FrameId, st: State, now: int, fuel: nat)
    requires env < |st.heap| && fuel >= 1
    requires f !in BindParams(ps, args)
    ensures var r := Eval(FunDecl(f, ps, b), env, st, now, fuel);
            && r == Done(VFunc(ps, b, env), r.st)
            && Lookup(r.st.heap + [Frame(BindParams(ps, args), Some(env))], |r.st.heap|, f)
               == Some(VFunc(ps, b, env))
  {
    var h := Define(st.heap, env, f, VFunc(ps, b, env));
    CallFrameLookup(h, BindParams(ps, args), env, f);
    DefineThenLookup(st.heap, env, f, VFunc(ps, b, env));
  }

  /** A user function's body sees its parameters and then its closure's chain, never the
      caller's frame: a body that is a name reads the argument bound to it, or else the name as
      the closure sees it. */
  lemma CallScopeIsClosure(ps: seq<string>, x: string, closure: FrameId, callee: string,
                           args: seq<Value>, st: State, now: int, fuel: nat)
    requires closure < |st.heap| && fuel >= 2
    ensures var m := BindParams(ps, args);
            var st1 := st.(heap := st.heap + [Frame(m, Some(closure))]);
            var seen := if x in m then Some(m[x]) else Lookup(st.heap, closure, x);
            Apply(VFunc(ps, Ident(x), closure), callee, args, st, now, fuel)
            == if seen.Some? then Done(seen.value, st1) else Threw(UndefinedVariable(x), st1)
  {
    var m := BindParams(ps, args);
    var st1 := st.(heap := st.heap + [Frame(m, Some(closure))]);
    CallFrameLookup(st.heap, m, closure, x);
    assert Apply(VFunc(ps, Ident(x), closure), callee, args, st, now, fuel)
           == Eval(Ident(x), |st.heap|, st1, now, fuel - 1);
  }

  /** `print("s")` writes the line "s " and yields null. */
  lemma PrintWritesLine(s: string, env: FrameId, st: State, now: int, fuel: nat)
    requires env < |st.heap| && fuel >= 4
    requires Lookup(st.heap, env, "print") == Some(VNative(PrintFn))
    ensures Eval(Call("print", [StrLit(s)]), env, st, now, fuel) == Done(VNull, st.(out := st.out + [s + " "]))
  {
    assert Eval(StrLit(s), env, st, now, fuel - 3) == Done(VStr(s), st);
    assert [StrLit(s)][1..] == [];
    assert EvalList([StrLit(s)], env, st, now, fuel - 2) == ValuesDone([VStr(s)], st);
    assert PrintText([VStr(s)]) == s + " ";
    assert EvalCall("print", [StrLit(s)], env, st, now, fuel - 1) == Done(VNull, st.(out := st.out + [s + " "]));
  }

  /** `setTimeout(g, d)` with a user function `g` queues `g`'s body with its closure, due `d`
      after the clock reading, and yields null; it runs nothing now. */
  lemma SetTimeoutQueues(g: string, d: nat, env: FrameId, st: State, now: int, fuel: nat)
    requires env < |st.heap| && fuel >= 5
    requires Lookup(st.heap, env, "setTimeout") == Some(VNative(SetTimeoutFn))
    requires Lookup(st.heap, env, g).Some? && Lookup(st.heap, env, g).value.VFunc?
    ensures var fn := Lookup(st.heap, env, g).value;
            Eval(Call("setTimeout", [Ident(g), NumLit(d as real)]), env, st, now, fuel)
            == Done(VNull, st.(tasks := st.tasks + [Task(now + d, fn.body, fn.closure)]))
  {
    var fn := Lookup(st.heap, env, g).value;
    var args := [Ident(g), NumLit(d as real)];
    assert Eval(NumLit(d as real), env, st, now, fuel - 4) == Done(VNum(d as real), st);
    assert args[1..][1..] == [];
    assert EvalList(args[1..], env, st, now, fuel - 3) == ValuesDone([VNum(d as real)], st);
    assert Eval(Ident(g), env, st, now, fuel - 3) == Done(fn, st);
    assert EvalList(args, env, st, now, fuel - 2) == ValuesDone([fn, VNum(d as real)], st);
    assert TruncToInt(d as real) == d;
    var st' := st.(tasks := st.tasks + [Task(now + d, fn.body, fn.closure)]);
    assert SetTimeout(st, [fn, VNum(d as real)], now) == st';
    assert EvalCall("setTimeout", args, env, st, now, fuel - 1) == Done(VNull, st');
  }
}

=== FILE: v8_event_loop.dfy ===
/** The event loop of the tree-walking engine: after every top-level statement has run, the
    task queue is drained in passes. Each pass reads the clock once, runs every task already due
    in queue order and removes exactly those; a pass that runs nothing waits and tries again. */
module V8EventLoop {
  import opened Wrappers
  import opened V8Ast
  import opened V8Values
  import opened V8Env
  import opened V8Eval
  import V8Parser

  /** `t` is an interleaving of `a` and `b`: both are subsequences of `t` that together use up
      every element of `t` exactly once, each keeping `t`'s relative order. */
  predicate Interleaves(t: seq<Task>, a: seq<Task>, b: seq<Task>)
    decreases |t|
  {
    if t == [] then a == [] && b == []
    else
      || (a != [] && a[0] == t[0] && Interleaves(t[1..], a[1..], b))
      || (b != [] && b[0] == t[0] && Interleaves(t[1..], a, b[1..]))
  }

  predicate AllDue(ts: seq<Task>, now: int) {
    forall i :: 0 <= i < |ts| ==> ts[i].executeTime <= now
  }

  predicate NoneDue(ts: seq<Task>, now: int) {
    forall i :: 0 <= i < |ts| ==> ts[i].executeTime > now
  }

  /** The scan of one pass: the tasks due at `now`, in queue order, and the rest, in queue
      order. */
  function Partition(now: int, tasks: seq<Task>): (p: (seq<Task>, seq<Task>))
    ensures AllDue(p.0, now) && NoneDue(p.1, now)
    ensures Interleaves(tasks, p.0, p.1)
    ensures |p.0| + |p.1| == |tasks|
    ensures p.0 == [] ==> p.1 == tasks
    decreases |tasks|
  {
    if tasks == [] then ([], [])
    else
      var (due, rest) := Partition(now, tasks[1..]);
      if tasks[0].executeTime <= now then ([tasks[0]] + due, rest) else (due, [tasks[0]] + rest)
  }

  /** The scan is the only split of the queue into due tasks and waiting tasks that keeps the
      queue's order: nothing due is left behind and nothing waiting is run. */
  lemma {:induction false} PartitionUnique(now: int, tasks: seq<Task>, a: seq<Task>, b: seq<Task>)
    requires AllDue(a, now) && NoneDue(b, now) && Interleaves(tasks, a, b)
    ensures Partition(now, tasks) == (a, b)
    decreases |tasks|
  {
    if tasks != [] {
      if a != [] && a[0] == tasks[0] && Interleaves(tasks[1..], a[1..], b) {
        PartitionUnique(now, tasks[1..], a[1..], b);
        assert [a[0]] + a[1..] == a;
      } else {
        assert b != [] && b[0] == tasks[0] && Interleaves(tasks[1..], a, b[1..]);
        PartitionUnique(now, tasks[1..], a, b[1..]);
        assert [b[0]] + b[1..] == b;
      }
    }
  }

  /** How draining ends: an empty queue, a thrown error, a task scheduled while the queue was
      being scanned, a halted evaluation, or no clock readings left while tasks wait. */
  datatype LoopOutcome =
    | Drained(st: State)
    | LoopThrew(err: EvalError, st: State)
    | ScheduledDuringScan(st: State)
    | LoopHalted(why: Halt)
    | ClockRanOut(st: State)
    | NotParsed(parseErr: V8Parser.ParseError)

  /** The callback a task holds: its function's body, in a new frame whose parent is the
      captured frame, with no parameter bound. */
  function RunTask(t: Task, st: State, now: int, fuel: nat): (r: Outcome)
    ensures !r.Halted? ==> Extends(st, r.st)
  {
    var st1 := st.(heap := st.heap + [Frame(map[], Some(t.closure))]);
    Eval(t.body, |st.heap|, st1, now, fuel)
  }

  /** A task's body runs in a frame appended after every existing one, where every name resolves
      exactly as it does from the captured frame: the new frame binds nothing itself. */
  lemma TaskSeesClosure(t: Task, st: State, now: int, fuel: nat, x: string)
    requires t.closure < |st.heap|
    ensures var st1 := st.(heap := st.heap + [Frame(map[], Some(t.closure))]);
            && RunTask(t, st, now, fuel) == Eval(t.body, |st.heap|, st1, now, fuel)
            && Lookup(st1.heap, |st.heap|, x) == Lookup(st.heap, t.closure, x)
  {
    CallFrameLookup(st.heap, map[], t.closure, x);
  }

  /** The due tasks of one pass, one after another. A callback that calls `setTimeout` would
      append to the vector being scanned, which the source leaves undefined: it ends the loop
      with `ScheduledDuringScan`. */
  function RunDue(due: seq<Task>, st: State, now: int, fuel: nat): (r: LoopOutcome)
    requires st.tasks == []
    ensures r.Drained? ==> r.st.tasks == [] && Extends(st, r.st)
    ensures !r.NotParsed?
    decreases |due|
  {
    if due == [] then Drained(st)
    else
      match RunTask(due[0], st, now, fuel)
      case Done(_, st1) =>
        if st1.tasks != [] then ScheduledDuringScan(st1)
        else RunDue(due[1..], st1, now, fuel)
      case Threw(e, st1) => LoopThrew(e, st1)
      case Halted(h) => LoopHalted(h)
  }

  /** One pass at clock reading `now`: the due tasks run and are removed, the others wait in
      their order. */
  function Pass(st: State, now: int, fuel: nat): (r: LoopOutcome)
    ensures r.Drained? ==> r.st.tasks == Partition(now, st.tasks).1
    ensures r.Drained? ==> NoneDue(r.st.tasks, now)
    ensures Partition(now, st.tasks).0 == [] ==> r == Drained(st)
    ensures !r.NotParsed?
  {
    var (due, waiting) := Partition(now, st.tasks);
    var r := RunDue(due, st.(tasks := []), now, fuel);
    if r.Drained? then Drained(r.st.(tasks := waiting)) else r
  }

  /** `while (!taskQueue.empty())`: one pass per clock reading until the queue is empty. */
  function Drain(st: State, clock: seq<int>, fuel: nat): (r: LoopOutcome)
    ensures r.Drained? ==> r.st.tasks == []
    ensures !r.NotParsed?
    decreases |clock|
  {
    if st.tasks == [] then Drained(st)
    else if clock == [] then ClockRanOut(st)
    else
      var r := Pass(st, clock[0], fuel);
      if r.Drained? then Drain(r.st, clock[1..], fuel) else r
  }

  /** A pass whose clock reading is before every task's time runs nothing and changes nothing. */
  lemma IdlePass(st: State, now: int, fuel: nat)
    requires NoneDue(st.tasks, now)
    ensures Pass(st, now, fuel) == Drained(st)
  {
    InterleavesRight(st.tasks);
    PartitionUnique(now, st.tasks, [], st.tasks);
  }

  lemma {:induction false} InterleavesRight(t: seq<Task>)
    ensures Interleaves(t, [], t)
    decreases |t|
  {
    if t != [] {
      InterleavesRight(t[1..]);
    }
  }

  /** The frame `run` evaluates in: `print` and `setTimeout` bound, no parent. */
  const GlobalFrame := Frame(map["print" := VNative(PrintFn), "setTimeout" := VNative(SetTimeoutFn)], None)

  const InitialState := State([GlobalFrame], [], [])

  /** The top-level statements, in order, in the global frame, with their values dropped;
      a missing statement is skipped. */
  function RunStatements(stmts: seq<Node>, st: State, now: int, fuel: nat): (r: Outcome)
    requires |st.heap| >= 1
    ensures !r.Halted? ==> Extends(st, r.st)
    decreases |stmts|
  {
    if stmts == [] then Done(VNull, st)
    else
      if stmts[0].Missing? then RunStatements(stmts[1..], st, now, fuel)
      else
        match Eval(stmts[0], 0, st, now, fuel)
        case Done(_, st1) => RunStatements(stmts[1..], st1, now, fuel)
        case Threw(e, st1) => Threw(e, st1)
        case Halted(h) => Halted(h)
  }

  /** One top-level statement: a missing one is skipped; any other runs in the global frame 0
      and its value is dropped. */
  lemma RunOneStatement(n: Node, st: State, now: int, fuel: nat)
    requires |st.heap| >= 1
    ensures var r := RunStatements([n], st, now, fuel);
            && (n.Missing? ==> r == Done(VNull, st))
            && (!n.Missing? ==> var e := Eval(n, 0, st, now, fuel);
                                && (e.Done? ==> r == Done(VNull, e.st))
                                && (!e.Done? ==> r == e))
  {
    assert [n][1..] == [];
  }

  /** Statements run in order: `a + b` runs `a`, then `b` from the state `a` left; a throw or
      halt in `a` ends the run before `b`. */
  lemma {:induction false} RunStatementsSplit(a: seq<Node>, b: seq<Node>, st: State, now: int, fuel: nat)
    requires |st.heap| >= 1
    ensures var ra := RunStatements(a, st, now, fuel);
            && (ra.Done? ==> RunStatements(a + b, st, now, fuel) == RunStatements(b, ra.st, now, fuel))
            && (!ra.Done? ==> RunStatements(a + b, st, now, fuel) == ra)
    decreases |a|
  {
    if a == [] {
      assert a + b == b;
    } else {
      assert (a + b)[0] == a[0] && (a + b)[1..] == a[1..] + b;
      if a[0].Missing? {
        RunStatementsSplit(a[1..], b, st, now, fuel);
      } else {
        match Eval(a[0], 0, st, now, fuel)
        case Done(_, st1) => RunStatementsSplit(a[1..], b, st1, now, fuel);
        case Threw(_, _) =>
        case Halted(_) =>
      }
    }
  }

  const LoopBanner := "[Event Loop] Processing async tasks..."

  /** A parsed program: synchronous statements at clock reading `start`, then, if anything was
      scheduled, a banner line and the event loop with successive clock readings `clock`. */
  function RunProgram(stmts: seq<Node>, start: int, clock: seq<int>, fuel: nat): (r: LoopOutcome)
    ensures !r.NotParsed?
    ensures r.Drained? ==> r.st.tasks == []
  {
    match RunStatements(stmts, InitialState, start, fuel)
    case Done(_, st) =>
      if st.tasks == [] then Drained(st) else Drain(st.(out := st.out + [LoopBanner]), clock, fuel)
    case Threw(e, st) => LoopThrew(e, st)
    case Halted(h) => LoopHalted(h)
  }

  /** Every synchronous statement completes before any task runs: a drained program's output
      begins with exactly the output of its statements, whatever the tasks printed later. */
  lemma SynchronousOutputFirst(stmts: seq<Node>, start: int, clock: seq<int>, fuel: nat)
    requires RunProgram(stmts, start, clock, fuel).Drained?
    ensures RunStatements(stmts, InitialState, start, fuel).Done?
    ensures var sync := RunStatements(stmts, InitialState, start, fuel).st.out;
            var all := RunProgram(stmts, start, clock, fuel).st.out;
            |sync| <= |all| && all[..|sync|] == sync
  {
    var st := RunStatements(stmts, InitialState, start, fuel).st;
    if st.tasks != [] {
      var st' := st.(out := st.out + [LoopBanner]);
      DrainExtends(st', clock, fuel);
      var all := Drain(st', clock, fuel).st.out;
      assert all[..|st.out|] == all[..|st'.out|][..|st.out|];
    }
  }

  lemma {:induction false} DrainExtends(st: State, clock: seq<int>, fuel: nat)
    requires Drain(st, clock, fuel).Drained?
    ensures |st.out| <= |Drain(st, clock, fuel).st.out|
    ensures Drain(st, clock, fuel).st.out[..|st.out|] == st.out
    decreases |clock|
  {
    if st.tasks != [] {
      var now := clock[0];
      var (due, waiting) := Partition(now, st.tasks);
      var st1 := Pass(st, now, fuel).st;
      assert RunDue(due, st.(tasks := []), now, fuel).Drained?;
      DrainExtends(st1, clock[1..], fuel);
    }
  }

  /** The `run` command: parse the accumulated text, then run the program. The source's `run`
      is `RunSource(src, AsWritten, ...)`; `SkipSemicolons` runs the corrected parser. */
  function RunSource(src: string, rule: V8Parser.BlockRule, start: int, clock: seq<int>, fuel: nat): (r: LoopOutcome)
    ensures r.NotParsed? <==> V8Parser.Parse(src, rule, fuel).Err?
    ensures r.Drained? ==> r.st.tasks == []
  {
    match V8Parser.Parse(src, rule, fuel)
    case Ok(stmts) => RunProgram(stmts, start, clock, fuel)
    case Err(e) => NotParsed(e)
  }
}

=== FILE: v8_parser.dfy ===
/** The character-level recursive-descent parser of the tree-walking engine.

    Positions may reach one past the end of the text: reading the character at `|src|` yields
    the terminating NUL, which is defined; reading one further is not, and is reported as
    `PastEnd`. A loop that would repeat forever without moving is reported as `NoProgress`.
    Every function takes fuel so that the mutual recursion terminates; running out of it is
    `Exhausted`. A null node pointer is the node `Missing`. */
module V8Parser {
  import opened Wrappers
  import opened Chars
  import opened Numbers
  import opened V8Ast

  datatype ParseError = PastEnd | NoProgress | Exhausted

  /** How a block treats what follows each statement: as the source does (whitespace only),
      or skipping an optional ';' the way the top level does. */
  datatype BlockRule = AsWritten | SkipSemicolons

  /** A parse result moves forward and stays within the text and its NUL. */
  predicate Moves<T>(src: string, pos: nat, r: Result<(T, nat), ParseError>) {
    r.Ok? ==> pos <= r.value.1 <= |src| + 1
  }

  /** `peek()`: the character at `p`, NUL at or past the end. */
  function Peek(src: string, p: nat): char {
    if p < |src| then src[p] else NUL
  }

  /** `advance()`: one character, which at `|src|` is the NUL; beyond it is undefined. */
  function Advance(src: string, p: nat): (r: Result<nat, ParseError>)
    ensures r.Ok? <==> p <= |src|
    ensures r.Ok? ==> r.value == p + 1
  {
    if p <= |src| then Ok(p + 1) else Err(PastEnd)
  }

  /** The longest run of characters satisfying `c` from `p`, and where it ends. */
  function Span(src: string, p: nat, c: char -> bool): (r: (string, nat))
    ensures r.1 == RunEnd(src, p, c)
    ensures p <= |src| ==> r.1 <= |src| && r.0 == src[p..r.1]
    ensures p > |src| ==> r == ("", p)
  {
    var e := RunEnd(src, p, c);
    (if p <= |src| then src[p..e] else "", e)
  }

  /** A quoted string from the opening quote at `p`, quotes included. Without a closing quote
      the scan runs over the NUL, which is undefined. */
  function QuotedToken(src: string, p: nat): (r: Result<(string, nat), ParseError>)
    requires p < |src| && src[p] == '"'
    ensures r.Err? <==> RunEnd(src, p + 1, NotQuote) == |src|
    ensures r.Ok? ==> p + 2 <= r.value.1 <= |src| && r.value.0 == src[p..r.value.1]
  {
    var (s, e) := Span(src, p + 1, NotQuote);
    if e < |src| then
      assert src[p..e + 1] == "\"" + s + "\"";
      Ok(("\"" + s + "\"", e + 1))
    else Err(PastEnd)
  }

  /** An operator: one character, or two when `=`, `!`, `<` or `>` is followed by `=`. */
  function OperatorToken(src: string, p: nat): (r: (string, nat))
    requires p < |src|
    ensures p < r.1 <= |src| && r.0 == src[p..r.1]
    ensures src[p] !in "=!<>" ==> r == ([src[p]], p + 1)
    ensures src[p] in "<>=" ==> r.0 in CompareTokens
  {
    var c := src[p];
    if (c == '=' || c == '!' || c == '<' || c == '>') && Peek(src, p + 1) == '=' then
      assert src[p..p + 2] == [c, '='];
      ([c, '='], p + 2)
    else
      assert src[p..p + 1] == [c];
      ([c], p + 1)
  }

  const CompareTokens: set<string> := {"<", ">", "=", "<=", ">=", "=="}

  /** `parseToken()`: after whitespace, a word of letters and digits, a number of digits and
      dots, a quoted string with its quotes, a two-character comparison, or one character.
      The end of the text gives the empty token; a string without its closing quote reads past
      the NUL. */
  function ParseToken(src: string, pos: nat): (r: Result<(string, nat), ParseError>)
    requires pos <= |src| + 1
    ensures Moves(src, pos, r)
    ensures var p := SkipSpaces(src, pos);
            r.Ok? && p < |src| ==> p < r.value.1 <= |src| && r.value.0 == src[p..r.value.1]
    ensures var p := SkipSpaces(src, pos);
            p >= |src| ==> r == Ok(("", p))
    ensures var p := SkipSpaces(src, pos);
            r.Err? <==> p < |src| && src[p] == '"' && RunEnd(src, p + 1, NotQuote) == |src|
    ensures var p := SkipSpaces(src, pos);
            p < |src| && (src[p] == '+' || src[p] == '-' || src[p] == '*' || src[p] == '/')
            ==> r == Ok(([src[p]], p + 1))
    ensures var p := SkipSpaces(src, pos);
            p < |src| && (src[p] == '<' || src[p] == '>' || src[p] == '=')
            ==> r.Ok? && r.value.0 in CompareTokens
    ensures var p := SkipSpaces(src, pos);
            r.Ok? && p < |src| && src[p] == '"' ==> |r.value.0| >= 2
  {
    var p := SkipSpaces(src, pos);
    if p >= |src| then Ok(("", p))
    else
      var c := src[p];
      if IsAlpha(c) then Ok(Span(src, p, IsAlnum))
      else if IsDigit(c) then Ok(Span(src, p, IsNumberChar))
      else if c == '"' then QuotedToken(src, p)
      else Ok(OperatorToken(src, p))
  }

  // ---------------------------------------------------------------------------
  // Shapes of expression trees: precedence and associativity
  // ---------------------------------------------------------------------------

  /** What `parsePrimary` builds. */
  predicate IsPrimary(n: Node) {
    n.Missing? || n.NumLit? || n.StrLit? || n.ArrayLit? || n.Ident? || n.Call?
  }

  /** A left-leaning chain of `*` and `/` over primaries. */
  predicate MulShape(n: Node) {
    IsPrimary(n) || (n.BinOp? && (n.op == "*" || n.op == "/") && MulShape(n.left) && IsPrimary(n.right))
  }

  /** A left-leaning chain of `+` and `-` over products. */
  predicate AddShape(n: Node) {
    MulShape(n) || (n.BinOp? && (n.op == "+" || n.op == "-") && AddShape(n.left) && MulShape(n.right))
  }

  /** At most one comparison, with sums on both sides. */
  predicate CmpShape(n: Node) {
    AddShape(n) || (n.BinOp? && n.op in CompareTokens && AddShape(n.left) && AddShape(n.right))
  }

  // ---------------------------------------------------------------------------
  // Expressions
  // ---------------------------------------------------------------------------

  function ParseExpression(src: string, pos: nat, fuel: nat): (r: Result<(Node, nat), ParseError>)
    requires pos <= |src| + 1
    ensures Moves(src, pos, r)
    ensures r.Ok? ==> CmpShape(r.value.0)
    decreases fuel
  {
    if fuel == 0 then Err(Exhausted) else ParseComparison(src, pos, fuel - 1)
  }

  /** A sum, then at most one comparison operator and another sum. */
  function ParseComparison(src: string, pos: nat, fuel: nat): (r: Result<(Node, nat), ParseError>)
    requires pos <= |src| + 1
    ensures Moves(src, pos, r)
    ensures r.Ok? ==> CmpShape(r.value.0)
    decreases fuel
  {
    if fuel == 0 then Err(Exhausted)
    else
      var left :- ParseAdditive(src, pos, fuel - 1);
      var p := SkipSpaces(src, left.1);
      var c := Peek(src, p);
      if c == '>' || c == '<' || c == '=' then
        var op := ParseToken(src, p).value;
        var right :- ParseAdditive(src, op.1, fuel - 1);
        Ok((BinOp(op.0, left.0, right.0), right.1))
      else Ok((left.0, p))
  }

  function ParseAdditive(src: string, pos: nat, fuel: nat): (r: Result<(Node, nat), ParseError>)
    requires pos <= |src| + 1
    ensures Moves(src, pos, r)
    ensures r.Ok? ==> AddShape(r.value.0)
    decreases fuel
  {
    if fuel == 0 then Err(Exhausted)
    else
      var left :- ParseMultiplicative(src, pos, fuel - 1);
      AddLoop(src, left.0, left.1, fuel - 1)
  }

  /** The `while (true)` of `parseAdditive`: each `+` or `-` takes the tree so far as its left
      operand. */
  function AddLoop(src: string, left: Node, pos: nat, fuel: nat): (r: Result<(Node, nat), ParseError>)
    requires pos <= |src| + 1
    requires AddShape(left)
    ensures Moves(src, pos, r)
    ensures r.Ok? ==> AddShape(r.value.0)
    decreases fuel
  {
    if fuel == 0 then Err(Exhausted)
    else
      var p := SkipSpaces(src, pos);
      var c := Peek(src, p);
      if c != '+' && c != '-' then Ok((left, p))
      else
        var op := ParseToken(src, p).value;
        var right :- ParseMultiplicative(src, op.1, fuel - 1);
        AddLoop(src, BinOp(op.0, left, right.0), right.1, fuel - 1)
  }

  function ParseMultiplicative(src: string, pos: nat, fuel: nat): (r: Result<(Node, nat), ParseError>)
    requires pos <= |src| + 1
    ensures Moves(src, pos, r)
    ensures r.Ok? ==> MulShape(r.value.0)
    decreases fuel
  {
    if fuel == 0 then Err(Exhausted)
    else
      var left :- ParsePrimary(src, pos, fuel - 1);
      MulLoop(src, left.0, left.1, fuel - 1)
  }

  function MulLoop(src: string, left: Node, pos: nat, fuel: nat): (r: Result<(Node, nat), ParseError>)
    requires pos <= |src| + 1
    requires MulShape(left)
    ensures Moves(src, pos, r)
    ensures r.Ok? ==> MulShape(r.value.0)
    decreases fuel
  {
    if fuel == 0 then Err(Exhausted)
    else
      var p := SkipSpaces(src, pos);
      var c := Peek(src, p);
      if c != '*' && c != '/' then Ok((left, p))
      else
        var op := ParseToken(src, p).value;
        var right :- ParsePrimary(src, op.1, fuel - 1);
        MulLoop(src, BinOp(op.0, left, right.0), right.1, fuel - 1)
  }

  /** A number, a string, an array literal, a call or a name; anything else is a null node,
      with only the whitespace before it consumed. */
  function ParsePrimary(src: string, pos: nat, fuel: nat): (r: Result<(Node, nat), ParseError>)
    requires pos <= |src| + 1
    ensures Moves(src, pos, r)
    ensures r.Ok? ==> IsPrimary(r.value.0)
    ensures r.Ok? && r.value.0.Missing? ==> r.value.1 == SkipSpaces(src, pos)
    decreases fuel
  {
    if fuel == 0 then Err(Exhausted)
    else
      var p := SkipSpaces(src, pos);
      var c := Peek(src, p);
      if IsDigit(c) then
        var t := ParseToken(src, p).value;
        Ok((NumLit(ParseDecimal(t.0)), t.1))
      else if c == '"' then
        var t :- ParseToken(src, p);
        Ok((StrLit(t.0[1..|t.0| - 1]), t.1))
      else if c == '[' then
        var elems :- ParseList(src, p + 1, ']', [], fuel - 1);
        Ok((ArrayLit(elems.0), elems.1))
      else if IsAlpha(c) then
        var name := ParseToken(src, p).value;
        var q := SkipSpaces(src, name.1);
        if Peek(src, q) == '(' then
          var args :- ParseList(src, q + 1, ')', [], fuel - 1);
          Ok((Call(name.0, args.0), args.1))
        else Ok((Ident(name.0), q))
      else Ok((Missing, p))
  }

  /** Array elements or call arguments up to `close`, each followed by an optional ','. */
  function ParseList(src: string, pos: nat, close: char, acc: seq<Node>, fuel: nat)
    : (r: Result<(seq<Node>, nat), ParseError>)
    requires pos <= |src| + 1
    requires close != NUL
    ensures Moves(src, pos, r)
    ensures r.Ok? ==> |acc| <= |r.value.0| && r.value.0[..|acc|] == acc
    ensures r.Ok? ==> forall i :: |acc| <= i < |r.value.0| ==> CmpShape(r.value.0[i])
    decreases fuel
  {
    if fuel == 0 then Err(Exhausted)
    else if Peek(src, pos) == close then Ok((acc, pos + 1))
    else
      var e :- ParseExpression(src, pos, fuel - 1);
      var q := SkipSpaces(src, e.1);
      var next := if Peek(src, q) == ',' then q + 1 else q;
      if next == pos then Err(NoProgress)
      else
        var r := ParseList(src, next, close, acc + [e.0], fuel - 1);
        assert r.Ok? ==> r.value.0[..|acc|] == (acc + [e.0])[..|acc|];
        r
  }

  // ---------------------------------------------------------------------------
  // Statements
  // ---------------------------------------------------------------------------

  /** The run of letters a statement starts with: the only thing `parseStatement` looks at to
      choose a keyword. */
  function LeadingWord(src: string, pos: nat): string {
    Span(src, SkipSpaces(src, pos), IsAlpha).0
  }

  predicate IsKeyword(w: string) {
    w == "var" || w == "if" || w == "while" || w == "function"
  }

  /** `parseStatement()`: the four keywords, or else an expression from the same place. */
  function ParseStatement(src: string, pos: nat, rule: BlockRule, fuel: nat): (r: Result<(Node, nat), ParseError>)
    requires pos <= |src| + 1
    ensures Moves(src, pos, r)
    ensures r.Ok? ==> (r.value.0.VarDecl? <==> LeadingWord(src, pos) == "var")
    ensures r.Ok? ==> (r.value.0.If? <==> LeadingWord(src, pos) == "if")
    ensures r.Ok? ==> (r.value.0.While? <==> LeadingWord(src, pos) == "while")
    ensures r.Ok? ==> (r.value.0.FunDecl? <==> LeadingWord(src, pos) == "function")
    ensures r.Ok? && !IsKeyword(LeadingWord(src, pos)) ==> CmpShape(r.value.0)
    decreases fuel
  {
    if fuel == 0 then Err(Exhausted)
    else
      var p := SkipSpaces(src, pos);
      var (word, q) := Span(src, p, IsAlpha);
      if word == "var" then ParseVarDecl(src, q, fuel - 1)
      else if word == "if" then ParseIf(src, q, rule, fuel - 1)
      else if word == "while" then
        var lp :- Advance(src, SkipSpaces(src, q));
        var cond :- ParseExpression(src, lp, fuel - 1);
        var rp :- Advance(src, cond.1);
        var body :- ParseBlock(src, SkipSpaces(src, rp), rule, fuel - 1);
        Ok((While(cond.0, body.0), body.1))
      else if word == "function" then
        var name :- ParseToken(src, SkipSpaces(src, q));
        var lp :- Advance(src, name.1);
        var params :- ParseParams(src, lp, [], fuel - 1);
        var body :- ParseBlock(src, SkipSpaces(src, params.1), rule, fuel - 1);
        Ok((FunDecl(name.0, params.0, body.0), body.1))
      else ParseExpression(src, p, fuel - 1)
  }

  /** `var`, a name token, one character taken to be '=', the initialiser (a null node when
      there is none), and an optional ';'. */
  function ParseVarDecl(src: string, pos: nat, fuel: nat): (r: Result<(Node, nat), ParseError>)
    requires pos <= |src| + 1
    ensures Moves(src, pos, r)
    ensures r.Ok? ==> r.value.0.VarDecl?
    decreases fuel
  {
    var name :- ParseToken(src, SkipSpaces(src, pos));
    var eq :- Advance(src, SkipSpaces(src, name.1));
    var init :- ParseExpression(src, eq, fuel);
    var e := SkipSpaces(src, init.1);
    Ok((VarDecl(name.0, init.0), if Peek(src, e) == ';' then e + 1 else e))
  }

  /** `if`, one character taken to be '(', the condition, one taken to be ')', the block, and
      an `else` block when the next word is exactly "else". The look-ahead indexes the text
      directly, so it is undefined one past the NUL. */
  function ParseIf(src: string, pos: nat, rule: BlockRule, fuel: nat): (r: Result<(Node, nat), ParseError>)
    requires pos <= |src| + 1
    ensures Moves(src, pos, r)
    ensures r.Ok? ==> r.value.0.If?
    decreases fuel
  {
    if fuel == 0 then Err(Exhausted)
    else
    var lp :- Advance(src, SkipSpaces(src, pos));
    var cond :- ParseExpression(src, lp, fuel - 1);
    var rp :- Advance(src, cond.1);
    var thenB :- ParseBlock(src, SkipSpaces(src, rp), rule, fuel - 1);
    var p2 := SkipSpaces(src, thenB.1);
    if p2 > |src| then Err(PastEnd)
    else
      var (next, e) := Span(src, p2, IsAlpha);
      if next == "else" then
        var elseB :- ParseBlock(src, SkipSpaces(src, e), rule, fuel - 1);
        Ok((If(cond.0, thenB.0, elseB.0), elseB.1))
      else Ok((If(cond.0, thenB.0, Missing), p2))
  }

  /** Parameter names (runs of letters and digits) up to ')', each followed by an optional
      ','. */
  function ParseParams(src: string, pos: nat, acc: seq<string>, fuel: nat): (r: Result<(seq<string>, nat), ParseError>)
    requires pos <= |src| + 1
    ensures Moves(src, pos, r)
    ensures r.Ok? ==> |acc| <= |r.value.0| && r.value.0[..|acc|] == acc
    decreases fuel
  {
    if fuel == 0 then Err(Exhausted)
    else if Peek(src, pos) == ')' then Ok((acc, pos + 1))
    else
      var a := SkipSpaces(src, pos);
      var (name, e) := Span(src, a, IsAlnum);
      var b := SkipSpaces(src, e);
      var next := if Peek(src, b) == ',' then b + 1 else b;
      if next == pos then Err(NoProgress)
      else
        var r := ParseParams(src, next, acc + [name], fuel - 1);
        assert r.Ok? ==> r.value.0[..|acc|] == (acc + [name])[..|acc|];
        r
  }

  /** `parseBlock()`: one character taken to be '{', statements until '}' or the end of the
      text, then one character taken to be '}'. */
  function ParseBlock(src: string, pos: nat, rule: BlockRule, fuel: nat): (r: Result<(Node, nat), ParseError>)
    requires pos <= |src| + 1
    ensures Moves(src, pos, r)
    ensures r.Ok? ==> r.value.0.Block?
    ensures r.Ok? && rule == SkipSemicolons ==> forall i :: 0 <= i < |r.value.0.stmts| ==> !r.value.0.stmts[i].Missing?
    decreases fuel
  {
    if fuel == 0 then Err(Exhausted)
    else
      var open :- Advance(src, pos);
      BlockLoop(src, open, rule, [], fuel - 1)
  }

  /** The statement loop of a block. As written, a statement is followed by whitespace only,
      so a ';' after an expression statement is met again and again without moving. The
      corrected rule skips whitespace before each statement and an optional ';' after it, and
      drops null statements, as the top level does. */
  function BlockLoop(src: string, pos: nat, rule: BlockRule, acc: seq<Node>, fuel: nat)
    : (r: Result<(Node, nat), ParseError>)
    requires pos <= |src| + 1
    requires rule == SkipSemicolons ==> forall i :: 0 <= i < |acc| ==> !acc[i].Missing?
    ensures Moves(src, pos, r)
    ensures r.Ok? ==> r.value.0.Block? && acc <= r.value.0.stmts
    ensures r.Ok? && rule == SkipSemicolons ==> forall i :: 0 <= i < |r.value.0.stmts| ==> !r.value.0.stmts[i].Missing?
    decreases fuel, 1
  {
    if fuel == 0 then Err(Exhausted)
    else
      var p := if rule == AsWritten then pos else SkipSpaces(src, pos);
      if Peek(src, p) == '}' || p >= |src| then
        var close :- Advance(src, p);
        Ok((Block(acc), close))
      else
        var s :- ParseStatement(src, p, rule, fuel - 1);
        BlockNext(src, p, s.0, s.1, rule, acc, fuel - 1)
  }

  /** After a statement that started at `p` and ended at `e`: what separates it from the next
      one is skipped, and the loop goes on unless nothing at all was consumed. */
  function BlockNext(src: string, p: nat, stmt: Node, e: nat, rule: BlockRule, acc: seq<Node>, fuel: nat)
    : (r: Result<(Node, nat), ParseError>)
    requires p <= e <= |src| + 1
    requires rule == SkipSemicolons ==> forall i :: 0 <= i < |acc| ==> !acc[i].Missing?
    ensures Moves(src, p, r)
    ensures r.Ok? ==> r.value.0.Block? && acc <= r.value.0.stmts
    ensures r.Ok? && rule == SkipSemicolons ==> forall i :: 0 <= i < |r.value.0.stmts| ==> !r.value.0.stmts[i].Missing?
    decreases fuel, 2
  {
    var q := SkipSpaces(src, e);
    var next := if rule == SkipSemicolons && Peek(src, q) == ';' then q + 1 else q;
    if next == p then Err(NoProgress)
    else
      var acc' := if rule == SkipSemicolons && stmt.Missing? then acc else acc + [stmt];
      BlockLoop(src, next, rule, acc', fuel)
  }

  // ---------------------------------------------------------------------------
  // Programs
  // ---------------------------------------------------------------------------

  /** `parse()`: statements until the end of the text, each followed by an optional ';'. */
  function ProgramLoop(src: string, pos: nat, rule: BlockRule, acc: seq<Node>, fuel: nat)
    : (r: Result<seq<Node>, ParseError>)
    requires pos <= |src| + 1
    ensures r.Ok? ==> acc <= r.value
    // every statement consumes at least one character
    ensures r.Ok? ==> |r.value| <= |acc| + (if pos <= |src| then |src| - pos else 0)
    decreases fuel
  {
    if pos >= |src| then Ok(acc)
    else if fuel == 0 then Err(Exhausted)
    else
      var p := SkipSpaces(src, pos);
      if p >= |src| then Ok(acc)
      else
        var s :- ParseStatement(src, p, rule, fuel - 1);
        var q := SkipSpaces(src, s.1);
        var next := if Peek(src, q) == ';' then q + 1 else q;
        if next == p then Err(NoProgress)
        else
          ProgramLoop(src, next, rule, acc + [s.0], fuel - 1)
  }

  /** `parse()` from the start of the text. With `AsWritten` this is the source's parser; with
      `SkipSemicolons` its blocks skip an optional ';' after a statement, as the top level does. */
  function Parse(src: string, rule: BlockRule, fuel: nat): (r: Result<seq<Node>, ParseError>)
    ensures src == [] ==> r == Ok([])
    ensures r.Ok? ==> |r.value| <= |src|
    // the first statement is a declaration, an `if`, a `while` or a function exactly when the
    // text's first word is that keyword
    ensures r.Ok? && r.value != [] ==> var w := LeadingWord(src, SkipSpaces(src, 0));
      && (r.value[0].VarDecl? <==> w == "var")
      && (r.value[0].If? <==> w == "if")
      && (r.value[0].While? <==> w == "while")
      && (r.value[0].FunDecl? <==> w == "function")
  {
    ProgramLoop(src, 0, rule, [], fuel)
  }
}

=== FILE: v8_parser_lemmas.dfy ===
/** What the parser of the tree-walking engine does with literals, names and blocks. */
module V8ParserLemmas {
  import opened Wrappers
  import opened Chars
  import opened Numbers
  import opened V8Ast
  import opened V8Parser

  /** An expression that is a single primary running to the end of the text is that primary:
      neither loop nor the comparison finds an operator at the NUL. */
  lemma {:induction false} LonePrimary(src: string, fuel: nat)
    requires fuel >= 5
    requires ParsePrimary(src, 0, fuel - 4).Ok? && ParsePrimary(src, 0, fuel - 4).value.1 >= |src|
    ensures ParseExpression(src, 0, fuel) == ParsePrimary(src, 0, fuel - 4)
  {
    var prim := ParsePrimary(src, 0, fuel - 4).value;
    assert SkipSpaces(src, prim.1) == prim.1;
    assert MulLoop(src, prim.0, prim.1, fuel - 4) == Ok(prim);
    assert ParseMultiplicative(src, 0, fuel - 3) == Ok(prim);
    assert AddLoop(src, prim.0, prim.1, fuel - 3) == Ok(prim);
    assert ParseAdditive(src, 0, fuel - 2) == Ok(prim);
    assert ParseComparison(src, 0, fuel - 1) == Ok(prim);
  }

  /** The numeral of a natural number parses back to that number. */
  lemma NumberLiteral(n: nat, fuel: nat)
    requires fuel >= 5
    ensures ParseExpression(NatText(n), 0, fuel) == Ok((NumLit(n as real), |NatText(n)|))
  {
    var src := NatText(n);
    assert SkipSpaces(src, 0) == 0 by {
      assert IsDigit(src[0]);
    }
    var (tok, e) := Span(src, 0, IsNumberChar);
    RunEndCovers(src, 0, |src|, IsNumberChar);
    assert tok == src;
    ParseDecimalOfNatText(n);
    assert ParsePrimary(src, 0, fuel - 4) == Ok((NumLit(n as real), |src|));
    LonePrimary(src, fuel);
  }

  /** A quoted string without quotes inside parses back to its contents. */
  lemma StringLiteral(s: string, fuel: nat)
    requires fuel >= 5
    requires forall k :: 0 <= k < |s| ==> s[k] != '"'
    ensures ParseExpression("\"" + s + "\"", 0, fuel) == Ok((StrLit(s), |s| + 2))
  {
    var src := "\"" + s + "\"";
    assert SkipSpaces(src, 0) == 0;
    var (body, e) := Span(src, 1, NotQuote);
    assert forall k :: 1 <= k < |s| + 1 ==> src[k] == s[k - 1];
    RunEndCovers(src, 1, |s| + 1, NotQuote);
    assert !NotQuote(src[|s| + 1]);
    assert e == |s| + 1;
    assert body == s;
    var tok := "\"" + s + "\"";
    assert tok[1..|tok| - 1] == s;
    assert ParsePrimary(src, 0, fuel - 4) == Ok((StrLit(s), |s| + 2));
    LonePrimary(src, fuel);
  }

  /** A word of letters and digits that starts with a letter is read as a name. */
  lemma Identifier(x: string, fuel: nat)
    requires fuel >= 5
    requires |x| >= 1 && IsAlpha(x[0])
    requires forall k :: 0 <= k < |x| ==> IsAlnum(x[k])
    ensures ParseExpression(x, 0, fuel) == Ok((Ident(x), |x|))
  {
    assert SkipSpaces(x, 0) == 0 by {
      assert !IsSpace(x[0]);
    }
    var (tok, e) := Span(x, 0, IsAlnum);
    RunEndCovers(x, 0, |x|, IsAlnum);
    assert tok == x;
    assert ParsePrimary(x, 0, fuel - 4) == Ok((Ident(x), |x|));
    LonePrimary(x, fuel);
  }

  /** The text starts with the name `x` (letters and digits, led by a letter), then '=', then
      a digit. */
  predicate NameThenEquals(src: string, x: string) {
    && |x| >= 1 && IsAlpha(x[0])
    && (forall k :: 0 <= k < |x| ==> IsAlnum(x[k]))
    && |src| >= |x| + 2 && src[..|x|] == x && src[|x|] == '=' && IsDigit(src[|x| + 1])
  }

  /** A name followed by '=' is a sum that is just the name, ending before the '='. */
  lemma {:induction false} NameBeforeEquals(src: string, x: string, fuel: nat)
    requires fuel >= 3 && NameThenEquals(src, x)
    ensures ParseAdditive(src, 0, fuel) == Ok((Ident(x), |x|))
  {
    assert forall k :: 0 <= k < |x| ==> src[k] == x[k];
    assert SkipSpaces(src, 0) == 0 by {
      assert !IsSpace(src[0]);
    }
    RunEndCovers(src, 0, |x|, IsAlnum);
    assert Span(src, 0, IsAlnum) == (x, |x|) by {
      assert src[0..|x|] == x;
    }
    assert SkipSpaces(src, |x|) == |x|;
    assert ParsePrimary(src, 0, fuel - 2) == Ok((Ident(x), |x|));
    assert MulLoop(src, Ident(x), |x|, fuel - 2) == Ok((Ident(x), |x|));
    assert ParseMultiplicative(src, 0, fuel - 1) == Ok((Ident(x), |x|));
    assert AddLoop(src, Ident(x), |x|, fuel - 1) == Ok((Ident(x), |x|));
  }

  /** The numeral of `n` that ends the text is a sum that is just the number. */
  lemma {:induction false} NumberToEnd(src: string, a: nat, n: nat, fuel: nat)
    requires fuel >= 3
    requires a <= |src| && src[a..] == NatText(n)
    ensures ParseAdditive(src, a, fuel) == Ok((NumLit(n as real), |src|))
  {
    var num := NumLit(n as real);
    assert ParsePrimary(src, a, fuel - 2) == Ok((num, |src|)) by {
      var t := NatText(n);
      assert forall k :: 0 <= k < |t| ==> src[a + k] == t[k];
      assert SkipSpaces(src, a) == a by {
        assert IsDigit(src[a]);
      }
      RunEndCovers(src, a, |src|, IsNumberChar);
      assert Span(src, a, IsNumberChar) == (t, |src|) by {
        assert src[a..|src|] == t;
      }
      ParseDecimalOfNatText(n);
    }
    assert SkipSpaces(src, |src|) == |src|;
    assert MulLoop(src, num, |src|, fuel - 2) == Ok((num, |src|));
    assert ParseMultiplicative(src, a, fuel - 1) == Ok((num, |src|));
    assert AddLoop(src, num, |src|, fuel - 1) == Ok((num, |src|));
  }

  /** Standing after the name, the parser reads the single-character token "=". */
  lemma EqualsAfterName(src: string, x: string)
    requires NameThenEquals(src, x)
    ensures SkipSpaces(src, |x|) == |x| && Peek(src, |x|) == '='
    ensures ParseToken(src, |x|) == Ok(("=", |x| + 1))
  {
    assert src[|x|..|x| + 1] == "=";
  }

  /** What the comparison parser meets from `pos`: a sum `left` ending at `e`, with no space
      before the single-character token "=" there, then a sum `right` from `a` to `end`. */
  predicate EqualsComparison(src: string, pos: nat, fuel: nat, left: Node, e: nat, a: nat, right: Node, end: nat)
    requires fuel >= 2 && pos <= |src| + 1
  {
    && ParseAdditive(src, pos, fuel - 2) == Ok((left, e))
    && SkipSpaces(src, e) == e && Peek(src, e) == '='
    && ParseToken(src, e) == Ok(("=", a))
    && ParseAdditive(src, a, fuel - 2) == Ok((right, end))
  }

  /** One comparison expression: a sum, the '=' token right after it, and a second sum. */
  lemma ComparisonStep(src: string, pos: nat, fuel: nat, left: Node, e: nat, a: nat, right: Node, end: nat)
    requires fuel >= 3 && pos <= |src| + 1
    requires EqualsComparison(src, pos, fuel, left, e, a, right, end)
    ensures ParseExpression(src, pos, fuel) == Ok((BinOp("=", left, right), end))
  {
    assert ParseComparison(src, pos, fuel - 1) == Ok((BinOp("=", left, right), end));
  }

  /** The pieces of `x=n` as the comparison parser meets them: the name is a sum ending at
      the '=', the '=' is a token of its own, and the numeral is a sum running to the end. */
  lemma AssignmentPieces(src: string, x: string, n: nat, fuel: nat)
    requires fuel >= 5
    requires |x| >= 1 && IsAlpha(x[0])
    requires forall k :: 0 <= k < |x| ==> IsAlnum(x[k])
    requires src == x + "=" + NatText(n)
    ensures EqualsComparison(src, 0, fuel, Ident(x), |x|, |x| + 1, NumLit(n as real), |src|)
  {
    var t := NatText(n);
    assert NameThenEquals(src, x) by {
      assert src[..|x|] == x;
      assert src[|x| + 1] == t[0];
    }
    assert ParseAdditive(src, 0, fuel - 2) == Ok((Ident(x), |x|)) by {
      NameBeforeEquals(src, x, fuel - 2);
    }
    EqualsAfterName(src, x);
    assert ParseAdditive(src, |x| + 1, fuel - 2) == Ok((NumLit(n as real), |src|)) by {
      assert src[|x| + 1..] == t;
      NumberToEnd(src, |x| + 1, n, fuel - 2);
    }
  }

  /** `x=n` is not an assignment statement: it is the comparison-level operator "=" between the
      name and the number. */
  lemma AssignmentParses(src: string, x: string, n: nat, fuel: nat)
    requires fuel >= 5
    requires |x| >= 1 && IsAlpha(x[0])
    requires forall k :: 0 <= k < |x| ==> IsAlnum(x[k])
    requires src == x + "=" + NatText(n)
    ensures ParseExpression(src, 0, fuel) == Ok((BinOp("=", Ident(x), NumLit(n as real)), |src|))
  {
    AssignmentPieces(src, x, n, fuel);
    ComparisonStep(src, 0, fuel, Ident(x), |x|, |x| + 1, NumLit(n as real), |src|);
  }

  // ---------------------------------------------------------------------------
  // A ';' after a statement inside a block
  // ---------------------------------------------------------------------------

  /** A block holding one call statement ended by a semicolon. */
  const CallBlock := "{f();}"

  /** The characters of `CallBlock` the parser looks at. */
  lemma CallBlockText()
    ensures |CallBlock| == 6
    ensures CallBlock[0] == '{' && CallBlock[1] == 'f' && CallBlock[2] == '(' && CallBlock[3] == ')'
    ensures CallBlock[4] == ';' && CallBlock[5] == '}'
    ensures SkipSpaces(CallBlock, 1) == 1 && SkipSpaces(CallBlock, 2) == 2 && SkipSpaces(CallBlock, 4) == 4
    ensures SkipSpaces(CallBlock, 5) == 5
    ensures Span(CallBlock, 1, IsAlpha) == ("f", 2) && Span(CallBlock, 1, IsAlnum) == ("f", 2)
    ensures Span(CallBlock, 4, IsAlpha) == ("", 4)
  {
    assert CallBlock[1..2] == "f";
  }

  /** `f()` at position 1 parses as the call, stopping before the ';'. */
  lemma CallInCallBlock(g: nat)
    ensures ParseExpression(CallBlock, 1, g) == if g >= 6 then Ok((Call("f", []), 4)) else Err(Exhausted)
  {
    var src := CallBlock;
    CallBlockText();
    if g >= 6 {
      assert ParseList(src, 3, ')', [], g - 5) == Ok(([], 4));
      assert ParseToken(src, 1) == Ok(("f", 2));
      assert ParsePrimary(src, 1, g - 4) == Ok((Call("f", []), 4));
      assert MulLoop(src, Call("f", []), 4, g - 4) == Ok((Call("f", []), 4));
      assert ParseMultiplicative(src, 1, g - 3) == Ok((Call("f", []), 4));
      assert AddLoop(src, Call("f", []), 4, g - 3) == Ok((Call("f", []), 4));
      assert ParseAdditive(src, 1, g - 2) == Ok((Call("f", []), 4));
      assert ParseComparison(src, 1, g - 1) == Ok((Call("f", []), 4));
    } else {
      if g >= 5 {
        assert ParseList(src, 3, ')', [], g - 5) == Err(Exhausted);
        assert ParseToken(src, 1) == Ok(("f", 2));
      }
      if g >= 4 { assert ParsePrimary(src, 1, g - 4) == Err(Exhausted); }
      if g >= 3 { assert ParseMultiplicative(src, 1, g - 3) == Err(Exhausted); }
      if g >= 2 { assert ParseAdditive(src, 1, g - 2) == Err(Exhausted); }
      if g >= 1 { assert ParseComparison(src, 1, g - 1) == Err(Exhausted); }
    }
  }

  /** At a ';' or a '}' an expression is a null node that consumes nothing. */
  lemma NothingAtSeparator(src: string, pos: nat, g: nat)
    requires pos < |src| && (src[pos] == ';' || src[pos] == '}')
    ensures ParseExpression(src, pos, g) == if g >= 5 then Ok((Missing, pos)) else Err(Exhausted)
  {
    assert SkipSpaces(src, pos) == pos;
    if g >= 5 {
      assert ParsePrimary(src, pos, g - 4) == Ok((Missing, pos));
      assert MulLoop(src, Missing, pos, g - 4) == Ok((Missing, pos));
      assert ParseMultiplicative(src, pos, g - 3) == Ok((Missing, pos));
      assert AddLoop(src, Missing, pos, g - 3) == Ok((Missing, pos));
      assert ParseAdditive(src, pos, g - 2) == Ok((Missing, pos));
      assert ParseComparison(src, pos, g - 1) == Ok((Missing, pos));
    } else {
      if g >= 4 { assert ParsePrimary(src, pos, g - 4) == Err(Exhausted); }
      if g >= 3 { assert ParseMultiplicative(src, pos, g - 3) == Err(Exhausted); }
      if g >= 2 { assert ParseAdditive(src, pos, g - 2) == Err(Exhausted); }
      if g >= 1 { assert ParseComparison(src, pos, g - 1) == Err(Exhausted); }
    }
  }

  /** As written, the block parser never finishes `{f();}`: after the call it stands on the
      ';', where a statement is a null node that does not move, so the loop repeats forever
      (reported as `NoProgress` once the fuel suffices). */
  lemma AsWrittenStallsOnSemicolon(fuel: nat)
    ensures ParseBlock(CallBlock, 0, AsWritten, fuel) == if fuel >= 9 then Err(NoProgress) else Err(Exhausted)
  {
    var src := CallBlock;
    CallBlockText();
    if fuel == 2 {
      assert ParseStatement(src, 1, AsWritten, 0) == Err(Exhausted);
    } else if fuel >= 3 {
      CallInCallBlock(fuel - 3);
      var stmt := ParseStatement(src, 1, AsWritten, fuel - 2);
      assert stmt == if fuel >= 9 then Ok((Call("f", []), 4)) else Err(Exhausted);
      if fuel >= 9 {
        NothingAtSeparator(src, 4, fuel - 4);
        assert ParseStatement(src, 4, AsWritten, fuel - 3) == Ok((Missing, 4));
        assert BlockNext(src, 4, Missing, 4, AsWritten, [Call("f", [])], fuel - 3) == Err(NoProgress);
        assert BlockLoop(src, 4, AsWritten, [Call("f", [])], fuel - 2) == Err(NoProgress);
        assert [] + [Call("f", [])] == [Call("f", [])];
        assert BlockNext(src, 1, Call("f", []), 4, AsWritten, [], fuel - 2) == Err(NoProgress);
      }
      assert BlockLoop(src, 1, AsWritten, [], fuel - 1) == if fuel >= 9 then Err(NoProgress) else Err(Exhausted);
    }
  }

  /** With the ';' skipped, the same block is the one call. */
  lemma CorrectedParsesCallBlock(fuel: nat)
    requires fuel >= 9
    ensures ParseBlock(CallBlock, 0, SkipSemicolons, fuel) == Ok((Block([Call("f", [])]), 6))
  {
    var src := CallBlock;
    CallBlockText();
    CallInCallBlock(fuel - 3);
    assert ParseStatement(src, 1, SkipSemicolons, fuel - 2) == Ok((Call("f", []), 4));
    assert BlockLoop(src, 5, SkipSemicolons, [Call("f", [])], fuel - 2) == Ok((Block([Call("f", [])]), 6));
    assert [] + [Call("f", [])] == [Call("f", [])];
    assert BlockNext(src, 1, Call("f", []), 4, SkipSemicolons, [], fuel - 2) == Ok((Block([Call("f", [])]), 6));
    assert BlockLoop(src, 1, SkipSemicolons, [], fuel - 1) == Ok((Block([Call("f", [])]), 6));
  }

  /** A body of whitespace only: as written, the block loop meets the space, parses a null
      statement at the '}', and keeps it; the corrected rule skips the space and yields an empty
      block. */
  lemma EmptyBody(src: string, fuel: nat)
    requires src == "{ }" && fuel >= 8
    ensures ParseBlock(src, 0, AsWritten, fuel) == Ok((Block([Missing]), 3))
    ensures ParseBlock(src, 0, SkipSemicolons, fuel) == Ok((Block([]), 3))
  {
    assert SkipSpaces(src, 2) == 2 && SkipSpaces(src, 1) == 2;
    assert Span(src, 2, IsAlpha) == ("", 2);
    NothingAtSeparator(src, 2, fuel - 3);
    assert ParseStatement(src, 1, AsWritten, fuel - 2) == Ok((Missing, 2));
    assert BlockLoop(src, 2, AsWritten, [Missing], fuel - 2) == Ok((Block([Missing]), 3));
    assert [] + [Missing] == [Missing];
    assert BlockNext(src, 1, Missing, 2, AsWritten, [], fuel - 2) == Ok((Block([Missing]), 3));
    assert BlockLoop(src, 1, AsWritten, [], fuel - 1) == Ok((Block([Missing]), 3));
    assert BlockLoop(src, 1, SkipSemicolons, [], fuel - 1) == Ok((Block([]), 3));
  }
}

=== FILE: v8_values.dfy ===
/** Values of the tree-walking engine: a closed set of tags. */
module V8Values {
  import opened Numbers
  import opened V8Ast

  /** A frame of the environment arena, named by its index. */
  type FrameId = nat

  /** The host functions the engine installs in the global frame. */
  datatype Native = PrintFn | SetTimeoutFn

  datatype Value =
    | VNull
    | VNum(n: Num)
    | VStr(s: string)
    | VBool(b: bool)
    | VList(items: seq<Value>)
    | VObj(fields: map<string, Value>)
    | VFunc(params: seq<string>, body: Node, closure: FrameId)
    | VNative(native: Native)

  /** The number field: every value not built as a number keeps the default 0. */
  function NumVal(v: Value): Num {
    if v.VNum? then v.n else 0.0
  }

  /** The text field: every value not built as a string keeps the default "". */
  function StrVal(v: Value): string {
    if v.VStr? then v.s else ""
  }

  /** `Value::toString`, total over the tags. */
  function ToString(v: Value): (s: string)
    ensures v.VStr? ==> s == v.s
    ensures s == "" ==> v.VStr?
    ensures v.VNum? ==> s == Format(v.n)
    ensures s == "[Function]" <==> v.VFunc? || v.VNative? || v == VStr("[Function]")
    ensures s == "null" <==> v.VNull? || v == VStr("null")
  {
    match v
    case VNull => "null"
    case VNum(n) => Format(n)
    case VStr(s) => s
    case VBool(b) => if b then "true" else "false"
    case VList(_) => "[Array]"
    case VObj(_) => "[Object]"
    case VFunc(_, _, _) => "[Function]"
    case VNative(_) => "[Function]"
  }

  /** The condition test of `IfNode`: only a true flag or a nonzero number. */
  predicate IfTruthy(v: Value)
    // only flags and numbers can pass, and a flag passes exactly when it prints as true
    ensures IfTruthy(v) ==> v.VBool? || v.VNum?
    ensures v.VBool? ==> (IfTruthy(v) <==> ToString(v) == "true")
  {
    (v.VBool? && v.b) || (v.VNum? && v.n != 0.0)
  }

  /** The exit test of `WhileNode`: only a false flag or a zero number stops the loop. */
  predicate WhileStops(v: Value)
    // only flags and numbers can stop a loop, and a flag stops it exactly when it prints as false
    ensures WhileStops(v) ==> v.VBool? || v.VNum?
    ensures v.VBool? ==> (WhileStops(v) <==> ToString(v) == "false")
  {
    (v.VBool? && !v.b) || (v.VNum? && v.n == 0.0)
  }

  /** The two tests agree on flags and numbers and disagree on every other tag: such a value
      takes the else branch of an `if` but keeps a `while` running. */
  lemma IfAndWhileDisagree(v: Value)
    ensures v.VBool? || v.VNum? ==> (IfTruthy(v) <==> !WhileStops(v))
    ensures !(v.VBool? || v.VNum?) ==> !IfTruthy(v) && !WhileStops(v)
  {
  }

  /** `BinaryOpNode`'s rule for the operator `op` applied to the already evaluated operands. */
  function ApplyBinary(op: string, l: Value, r: Value): (res: Value)
    // `+` yields the concatenation of both texts exactly when one side is a string
    ensures op == "+" ==> (res.VStr? <==> l.VStr? || r.VStr?)
    ensures op == "+" && res.VStr? ==> res.s == ToString(l) + ToString(r)
    ensures op == "+" && !res.VStr? ==> res == VNum(NumVal(l) + NumVal(r))
    // arithmetic always yields a number, computed from the number fields
    ensures op == "-" ==> res == VNum(NumVal(l) - NumVal(r))
    ensures op == "*" ==> res == VNum(NumVal(l) * NumVal(r))
    ensures op == "/" ==> res.VNum? && (NumVal(r) != 0.0 ==> res.n * NumVal(r) == NumVal(l))
    // comparisons always yield a flag; `==` is false unless the left side is a number or string
    ensures op in {">", "<", "=="} ==> res.VBool?
    ensures op == ">" ==> (res.b <==> NumVal(l) > NumVal(r))
    ensures op == "<" ==> (res.b <==> NumVal(l) < NumVal(r))
    ensures op == "==" && !(l.VNum? || l.VStr?) ==> res == VBool(false)
    ensures op == "==" && l.VNum? ==> (res.b <==> l.n == NumVal(r))
    ensures op == "==" && l.VStr? ==> (res.b <==> l.s == StrVal(r))
    // every other operator, `=` among them, yields null
    ensures op !in {"+", "-", "*", "/", ">", "<", "=="} ==> res == VNull
  {
    if op == "+" then
      if l.VStr? || r.VStr? then VStr(ToString(l) + ToString(r)) else VNum(NumVal(l) + NumVal(r))
    else if op == "-" then VNum(NumVal(l) - NumVal(r))
    else if op == "*" then VNum(NumVal(l) * NumVal(r))
    else if op == "/" then VNum(Div(NumVal(l), NumVal(r)))
    else if op == ">" then VBool(NumVal(l) > NumVal(r))
    else if op == "<" then VBool(NumVal(l) < NumVal(r))
    else if op == "==" then
      VBool(if l.VNum? then l.n == NumVal(r) else if l.VStr? then l.s == StrVal(r) else false)
    else VNull
  }

  lemma WholeText(n: nat)
    ensures ToString(VNum(n as real)) == NatText(n) + "."
  {
    FormatWhole(n);
  }

  lemma ConcatText(l: Value, r: Value, lt: string, rt: string)
    requires l.VStr? || r.VStr?
    requires ToString(l) == lt && ToString(r) == rt
    ensures ApplyBinary("+", l, r) == VStr(lt + rt)
  {
  }

  /** String concatenation puts the two texts side by side in operand order:
      `"a" + 1` is "a1." and `1 + "a"` is "1.a", since a whole number prints with its dot. */
  lemma ConcatenationOrder(s: string, n: nat)
    ensures ApplyBinary("+", VStr(s), VNum(n as real)) == VStr(s + (NatText(n) + "."))
    ensures ApplyBinary("+", VNum(n as real), VStr(s)) == VStr(NatText(n) + "." + s)
  {
    WholeText(n);
    ConcatText(VStr(s), VNum(n as real), s, NatText(n) + ".");
    ConcatText(VNum(n as real), VStr(s), NatText(n) + ".", s);
  }
}

=== FILE: wrappers.dfy ===
/** Failure-compatible result types shared by every module of the model. */
module Wrappers {

  /** An optional value: the model's stand-in for a null pointer or a missing map entry. */
  datatype Option<+T> = None | Some(value: T) {

    predicate IsFailure() {
      None?
    }

    function PropagateFailure<U>(): Option<U>
      requires None?
    {
      None
    }

    function Extract(): T
      requires Some?
    {
      value
    }

    function GetOr(default: T): T {
      match this
      case Some(v) => v
      case None => default
    }
  }

  /** Either a value or an error; usable with `:-`. */
  datatype Result<+T, +E> = Ok(value: T) | Err(error: E) {

    predicate IsFailure() {
      Err?
    }

    function PropagateFailure<U>(): Result<U, E>
      requires Err?
    {
      Err(error)
    }

    function Extract(): T
      requires Ok?
    {
      value
    }
  }
}
